=== FILE: README.md ===
# junit-monorepo-go, modelled in Dafny

junit-monorepo-go is a GitHub Action, written in TypeScript, for repositories that hold
several Go modules. For each module directory it reads the JUnit XML that gotestsum
(tests) and golangci-lint (lint) wrote there. From those reports it produces four things:

- a pass/fail verdict for the run;
- Markdown summary tables, one row per module;
- a failure table cut at a limit, with an overflow row for the rest;
- GitHub `::error file=…,line=…::message` annotation lines.

All of it goes into one pull-request comment.

The repository keeps several generations of this pipeline side by side:

- `src/table/*` and `src/composer/*`;
- `src/repository.ts` and `src/monorepo.ts`;
- `src/composer.ts` and `src/module.ts`;
- three golangci-lint readers and three gotestsum readers.

This project models each generation from its own text, in its own Dafny module. It does
not reconcile them. Where two generations promise the same thing, a lemma relates them
(for example `SummaryTables.GotestsumGenerations` and `Monorepos.ResultGenerations`).

The model starts from the XML tree as the XML reader hands it over (`JunitXml`). It ends at
the strings handed to GitHub. A thrown `Error` becomes the `Throws(message)` case of
`Fallible`, and `undefined` becomes `None`. The code is almost entirely expressions over
arrays, so most of it becomes functions over sequences. The code that builds a table, a
map or an array step by step is modelled as methods. Each is proved equal to a declarative
function, or to the state that function describes:

- `UntypedTables.Join`, the left join of `UntypedTable.join`. It calls `IndexMaps`, which
  builds one index `Map` per other table, and `JoinRecord`, which fills one joined row.
- `Composer.Summary` and `Composer.FillSummary`, with the two `forEach` loops of
  src/composer.ts: `FillTests` over the test summaries, then `FillLints` (one `SetLint`
  per lint summary) over the lint summaries. `Composer.Failures` builds the limited
  failure table.
- `GoRepositoryFactories.FromXml`, the directory-to-module merge. Its `forEach` over the
  test reports is `SetTestReports`, its `forEach` over the lint reports is
  `SetLintReports` (one `SetLint` each), and `Array.from(map)` is `Entries`.
- The `FailureTable` classes of src/table/failure.ts and src/composer/failure.ts, and
  `ToFailuresTable` of src/composer/table.ts. Their `toTable` pushes an overflow row
  onto a copy of the records.

The pipe tables follow the Tables extension of the GitHub Flavored Markdown Spec
(section 4.10).

Files, one Dafny module each:

- `types`, `wrappers`, `text`, `seqs`, `paths`: shared enumerations, `Fallible`/`Option`,
  and the JavaScript string, array, `Map` and `path` operations the code relies on.
- `junit_xml`, `readings`: the parsed document and the readings several report classes share.
- `gotestsum_reporter`, `gotestsum_report`, `junit_report`, `junit_cases`, `lint_parser`,
  `lint_report`, `lint_junit_reporter`, `unknown_report`: the report readers.
- `reports`, `views`: the failure, annotation and summary records and their rendering.
- `markdown`, `typed_table`, `old_table`, `untyped_table`, `base_table`, `failure_tables`,
  `summary_tables`: the tables.
- `outcomes`, `table_factory`, `composer_factory`, `composer`: the aggregators.
- `go_module`, `repository_factory`, `repository`, `monorepo`, `markdown_report`: the
  module and repository views and the comment.
- `input`: the input decisions.

## Model

| member | source | states |
|---|---|---|
| Inputs.ParseType | src/main/input.ts:18-28 | a type is accepted exactly when it is 'gotestsum' or 'golangci-lint', and the accepted reporter type's string value is the name written; any other name throws 'Invalid reporter type: ' followed by the name |
| Inputs.ParseTypeName | src/main/input.ts:19-25 | every reporter type is read back from its own string value |
| Inputs.FirstUnknown | src/main/input.ts:17-28 | the position of the first entry whose type the switch rejects: every earlier entry is accepted and that one is not |
| Inputs.Groups | src/main/input.ts:17-34 | the mapping succeeds exactly when every entry's type is known; then it keeps one group per entry, in order, with the type named as written and the directories and file name copied; otherwise it throws the error of the first unknown entry |
| Inputs.Config | src/main/input.ts:13-38 | `getConfig` after parsing: the groups when every type is known, otherwise the first unknown type's error wrapped in 'Invalid config: Error: ' |
| Inputs.PullRequestNumber | src/main/input.ts:40-50 | an empty input gives the event's number (possibly none); any other input is accepted exactly when it is all decimal digits and then gives the number it denotes; a rejected input throws the must-be-a-number message |
| Inputs.PullRequestNumberOfDecimal | src/main/input.ts:46-49 | the decimal writing of any number is read back as that number, whatever the event holds |
| Inputs.PullRequestNumberExamples | __tests__/input.test.ts:96-128 | '456' gives 456 and 'abc' throws the must-be-a-number message |
| Inputs.Sha | src/main/input.ts:52-55 | the input when it is not empty, the context's commit otherwise |
| JunitXml.FailingCasesOf | src/junit/gotestsum.ts:108-113 | the cases of a suite kept are exactly its cases with a `<failure>` element |
| JunitXml.Failing | src/reporter/gotestsum.ts:59 | the filter keeps exactly the cases with a `<failure>` element and no more cases than it was given |
| JunitXml.FailingFlatten | src/reporter/gotestsum.ts:56-59 | filtering a flattened list is flattening the filtered blocks |
| JunitXml.FailingConcat | src/reporter/gotestsum.ts:59 | filtering two runs of cases concatenates their filtered runs |
| JunitXml.FailingCasesFlatFirst | src/reporter/gotestsum.ts:56-59 | filtering suite by suite then flattening (the report classes) gives the same cases as flattening then filtering (the reporter) |
| JunitXml.GoVersionValues | src/junit/gotestsum.ts:72-80 | the values kept are exactly those of the properties named `go.version` |
| JunitXml.VersionRun | src/junit/gotestsum.ts:10 | the longest run of `[\d.]` at the start of the text: a prefix of version characters followed by none |
| JunitXml.VersionRunOf | src/junit/gotestsum.ts:10 | a run of version characters followed by another character is the whole run |
| JunitXml.FindVersionFrom | src/junit/gotestsum.ts:92 | the leftmost position from i at which the expression matches, none when it matches nowhere after i |
| JunitXml.GoVersionMatch | src/junit/gotestsum.ts:92-102 | no version exactly when the expression matches nowhere; a version found is the first capture of the leftmost match: the whole non-empty run of version characters after its "go" |
| JunitXml.GoVersionAtStart | src/junit/gotestsum.ts:10 | 'go', a version and a space followed by a word character or '/' give that version |
| JunitXml.GoVersionExample | __tests__/junit/gotestsum.test.ts:12 | 'go1.23.2 linux/amd64' gives '1.23.2' |
| Wrappers.FirstThrowing | src/junit/reporter/golangcilint.ts:78-113 | the position of the first element the mapped function throws on: every earlier element maps without error and that one throws |
| Wrappers.MapAll | src/junit/reporter/golangcilint.ts:78-113 | `map` with a callback that may throw succeeds exactly when no element throws, then holds each element's result in order; otherwise it throws the first failing element's error |
| Readings.AttrsResult | src/junit/gotestsum.ts:32-49 | Unknown exactly without the attribute block; Failed exactly when `failures` is not '0'; Skipped exactly when no failure and `skipped` is present and not '0'; Passed otherwise |
| Readings.NatToStringZero | src/junit/gotestsum.ts:37 | a count is written '0' exactly when it is zero |
| Readings.ResultOfCounts | src/junit/gotestsum.ts:32-49 | for attributes that write counts, Failed exactly when some test failed, Skipped exactly when none failed and some were skipped, Passed exactly when neither |
| Readings.Count | src/junit/gotestsum.ts:51-65 | a count is 0 without the attribute block or the attribute, and the number written otherwise |
| Readings.SuiteSumConcat | src/junit/reporter/golangcilint.ts:28-58 | summing a counter over two runs of suites adds the two sums |
| Readings.Sum | src/junit/reporter/golangcilint.ts:28-58 | 0 without a suite list, the sum over the suites otherwise |
| Readings.SumOfTwo | src/junit/reporter/golangcilint.ts:28-35 | two suites that write counts k1 and k2 sum to k1 + k2 |
| Readings.LintPassed | src/junit/reporter/golangcilint.ts:37-40 | passed and failed add up to the tests; 0 without suites |
| Readings.LintCountsExample | __tests__/junit/reporter/golangcilint.test.ts:26-57 | suites of 3 and 2 findings give 5 tests, 5 failed, 0 skipped and 0 passed |
| Readings.LintResult | src/junit/reporter/golangcilint.ts:21-26 | a lint report passed exactly when it has no suite list, and failed exactly when it has one |
| Readings.CaseMessageSplit | src/junit/gotestsum.ts:116-117 | the joined failure message splits back at '\n' into the failure texts when none of them spans lines |
| Readings.MessageParts | src/junit/reporter/golangcilint.ts:88-94 | a message whose location has no space loses exactly the location and ': ', and the rest is trimmed |
| Readings.LintLocation | src/junit/reporter/golangcilint.ts:102-104 | the file taken from the classname holds no '/' |
| Readings.LocationParts | src/junit/reporter/golangcilint.ts:96-109 | a classname 'dir/file:line:column' gives back the directory, the file and the line |
| Readings.ParseLintCase | src/junit/reporter/golangcilint.ts:78-112 | a case is read exactly when it holds one failure element; no failure element and several failure elements throw their own messages; a read case keeps its name, the trimmed message after the location, and the location of its classname |
| Readings.FirstUnreadable | src/junit/reporter/golangcilint.ts:78-113 | the position of the first case that cannot be read: all earlier cases can |
| Readings.ParseLintCases | src/junit/reporter/golangcilint.ts:78-113 | every case read in order exactly when all can be; otherwise the first unreadable case's error |
| Readings.LintFailures | src/junit/reporter/golangcilint.ts:68-115 | no findings without suites; succeeds exactly when every failing case holds one failure element, then one finding per case in order; otherwise the error of the first case that does not |
| Readings.LocationExample | __tests__/junit/reporter/golangcilint.test.ts:30 | 'go/app/foo_test.go:12:34' is line 12 of foo_test.go in go/app |
| Readings.MessageExample | __tests__/junit/reporter/golangcilint.test.ts:31 | 'go/app/foo_test.go:39:21: Error' reads as 'Error' |
| Readings.TrimWord | __tests__/junit/reporter/golangcilint.test.ts:59 | trimming 'Error' leaves it unchanged |
| Readings.LintCaseExample | __tests__/junit/reporter/golangcilint.test.ts:26-61 | the test case of that report reads as an 'Error' at line 12 of foo_test.go in go/app named 'errcheck' |
| Readings.SingleGoVersion | src/junit/gotestsum.ts:86-102 | succeeds exactly when all `go.version` values agree and the value holds a version, which is then what every value matches; disagreeing values throw with the number of distinct values; a value without a version throws naming it |
| JunitReports.ReportResult | src/junit/report.ts:43-54 | never Unknown; Failed exactly when `failures` is not '0'; Skipped exactly when no failure and `skipped` is present and not '0' |
| JunitReports.Tests | src/junit/report.ts:56-58 | the number the `tests` attribute writes |
| JunitReports.Failed | src/junit/report.ts:64-66 | the number the `failures` attribute writes |
| JunitReports.Skipped | src/junit/report.ts:68-72 | 0 without the attribute, the number it writes otherwise |
| JunitReports.Passed | src/junit/report.ts:60-62 | passed and failed add up to the tests |
| JunitReports.Failures | src/junit/report.ts:78-113 | none without suites; every test case kept is in the report's directory and has a file and a line |
| JunitReports.SameAsGotestsumReport | src/junit/report.ts:43-113 | a report with attributes reads the same result, counts and failures as the later `GotestsumReport` of the same document |
| JunitTestCases.FullPath | src/junit/gotestsum.ts:151-153 | `path.join` keeps exactly the names of the module directory, the sub-directory and the file, in order |
| JunitTestCases.Names | __tests__/junit/type.test.ts:5-12 | the directories of the tests are the names 'path', 'to' and 'foo', 'bar' joined by '/' |
| JunitTestCases.FullPathExample | __tests__/junit/type.test.ts:4-14 | 'path/to', 'foo/bar' and 'baz_test.go' join to 'path/to/foo/bar/baz_test.go' |
| JunitTestCases.JoinFive | __tests__/junit/type.test.ts:13 | five names joined by '/' are the names with '/' between them |
| JunitTestCases.FullPathDotSubDirExample | __tests__/junit/type.test.ts:16-26 | a sub-directory '.' is dropped: 'path/to/baz_test.go' |
| JunitTestCases.FullPathDotModuleExample | __tests__/junit/type.test.ts:28-38 | a module directory '.' is dropped: 'foo/bar/baz_test.go' |
| JunitTestCases.MatchedCases | src/junit/gotestsum.ts:105-137 | at most one test case per failing case, each in the report's directory with a file and a line |
| JunitTestCases.MatchedCasesMembers | src/junit/gotestsum.ts:115-136 | the test cases kept are exactly the located ones made from the failing cases; a case whose message the expression does not match is dropped |
| JunitTestCases.MatchedCasesConcat | src/junit/gotestsum.ts:106-136 | the test cases of earlier failing cases come first, in order |
| JunitTestCases.Failures | src/junit/gotestsum.ts:105-137 | none without suites; otherwise the located test cases of the failing cases, suite by suite, all in the report's directory |
| GotestsumReports.UnknownReport | src/junit/gotestsum.ts:17-19 | the report of a directory without a report file has neither attributes nor suites |
| GotestsumReports.Passed | src/junit/gotestsum.ts:55-57 | passed and failed add up to the tests; passed is negative exactly when more failures than tests are written |
| GotestsumReports.Version | src/junit/gotestsum.ts:71-103 | absent exactly when no suite has a `go.version` property; present exactly when they agree and the value holds a version, which every value then matches; otherwise the error of the agreement check |
| GotestsumReports.Failures | src/junit/gotestsum.ts:105-137 | every test case kept is in the report's directory and has a file and a line |
| GotestsumReports.UnknownReadings | src/junit/gotestsum.ts:17-103 | the unknown report reads Unknown, with no tests, failures, skips, passes, version or failing cases |
| GotestsumReports.PassedGenerations | src/reporter/gotestsum.ts:101-103 | the reporter and the later report differ on passed exactly when no tests but some failures are written |
| GotestsumReports.VersionGenerations | src/reporter/gotestsum.ts:118-156 | with `go.version` properties both generations read the same version; with suites but none, the reporter throws where the report has no version |
| GotestsumReporters.TextReports | src/reporter/gotestsum.ts:63-92 | at most one failure report per failure element, and a report is there exactly when some failure element has a text the expression matches and it is made from that match |
| GotestsumReporters.CaseReports | src/reporter/gotestsum.ts:61-94 | a failure report is there exactly when some failing case has a failure element whose text the expression matches |
| GotestsumReporters.CaseReportsConcat | src/reporter/gotestsum.ts:61-94 | the reports of earlier test cases come first, in order |
| GotestsumReporters.Failures | src/reporter/gotestsum.ts:51-95 | none without suites; a report is there exactly when a failing case's failure text matches; every report is a gotestsum report of the reporter's path |
| GotestsumReporters.Passed | src/reporter/gotestsum.ts:101-103 | 0 for a report without tests, otherwise passed and failed add up to the tests |
| GotestsumReporters.Version | src/reporter/gotestsum.ts:118-156 | absent exactly without suites; suites without `go.version` throw 'go.version property not found'; present exactly when the values agree and hold a version, which each value matches; otherwise the agreement check's error |
| GotestsumReporters.Summary | src/reporter/gotestsum.ts:39-49 | the row exists exactly when the version can be read, and carries the path, result, passed, failed and version of the report; otherwise the version's error |
| UnknownReports.Directory | src/junit/unknown.ts:6-9 | '.' for a path without '/', and what precedes the last '/' when that is not the first character |
| UnknownReports.DirectoryExample | __tests__/junit/unknown.test.ts:9 | 'path/to/unknown.xml' lies in 'path/to' |
| UnknownReports.SameAsEmptyReport | src/junit/unknown.ts:11-41 | the placeholder reads exactly as a gotestsum report without attributes or suites: Unknown, no tests, passes, failures or skips, no version, no failing cases |
| GolangCILintJunitReports.Directory | src/junit/reporter/golangcilint.ts:16-19 | '.' for a path without '/', and what precedes the last '/' when that is not the first character |
| GolangCILintJunitReports.ReportResult | src/junit/reporter/golangcilint.ts:21-26 | Passed exactly without suites, Failed exactly with them |
| GolangCILintJunitReports.Passed | src/junit/reporter/golangcilint.ts:37-40 | 0 without suites; passed and failed add up to the tests |
| GolangCILintJunitReports.Failures | src/junit/reporter/golangcilint.ts:68-115 | no failures without suites; succeeds exactly when every failing case holds one failure element, then one test case per failing case, in order, in the report's directory and carrying what that case reads as; otherwise the first unreadable case's error |
| GolangCILintJunitReports.SameAsParser | src/parse/golangcilint.ts:15-107 | this report and the parser of the same document read the same result, counts and failures, field for field |
| GolangCILintParsers.Summary | src/parse/golangcilint.ts:15-24 | the row of the parser's directory, Passed exactly without suites and Failed exactly with them |
| GolangCILintParsers.Failures | src/parse/golangcilint.ts:26-75 | no reports without suites; succeeds exactly when every failing case holds one failure element, then one golangci-lint report per case, in order, in the parser's directory and carrying what that case reads as; otherwise the first unreadable case's error |
| GolangCILintParsers.Passed | src/parse/golangcilint.ts:86-89 | 0 without suites; passed and failed add up to the tests |
| GolangCILintReports.ReportSummary | src/junit/golangcilint.ts:17-21 | a summary whose result is Passed exactly without suites and Failed exactly with them |
| GolangCILintReports.Failures | src/junit/golangcilint.ts:23-70 | no records without suites; succeeds exactly when every failing case holds one failure element, then one golangci-lint record per case, in order, carrying what that case reads as; otherwise the first unreadable case's error |
| GolangCILintReports.Passed | src/junit/golangcilint.ts:88-91 | 0 without suites; passed and failed add up to the tests |
| Types.ReporterTypeName | src/type.ts:8-11 | every reporter type has a non-empty string value (read back by `Inputs.ParseTypeName`) |
| Types.AlignCell | src/composer/table.ts:34 | a separator cell is four characters, with ':' on the left exactly for a left-aligned column and on the right exactly for a right-aligned one |
| Types.LinkParts | src/data/failure.ts:18-20 | a Markdown link is its bracketed title followed by its parenthesised URL, four characters longer than both, with exactly the URL between the brackets' '](' and the closing ')' |
| Types.LocationSplit | src/report/failure.ts:23 | 'path:line' splits at its last ':' back into the path and the line number |
| Reports.ResultMark | src/report/gotestsum.ts:21 | '❌Failed' exactly for Failed, '✅Passed' exactly for every other result |
| Reports.TimeCell | src/report/gotestsum.ts:24 | '-' exactly without a time; the time followed by 's' otherwise |
| Reports.ToIndex | src/report/failure.ts:17-24 | the index splits at its last ':' back into the joined path and the line |
| Reports.ToRecord | src/report/failure.ts:26-33 | the record holds the type's name, the test and the message with every line break replaced by a space and nothing else changed |
| Reports.AnnotationIndex | src/report/annotation.ts:10-12 | the index splits at its last ':' back into the file and the line |
| Reports.AnnotationBody | src/report/annotation.ts:14-18 | the body is '::error file=' and the file, then ',line=' and digits that read back as the line, then '::' and the message verbatim |
| Reports.Twelve | __tests__/report/annotation.test.ts:9 | 12 is written '12' |
| Reports.AnnotationIndexExample | __tests__/report/annotation.test.ts:4-19 | line 12 of path/to/app/foo.go has the index 'path/to/app/foo.go:12' |
| Reports.AnnotationBodyExample | __tests__/report/annotation.test.ts:4-19 | its annotation is '::error file=path/to/app/foo.go,line=12::Error' |
| Reports.GotestsumToRecord | src/report/gotestsum.ts:18-26 | '-' for an absent version, the result mark, and passed and failed written in decimal so that they read back as the counts |
| Reports.GolangCILintToRecord | src/report/golangcilint.ts:14-18 | '❌Failed' exactly for a failed lint and '✅Passed' exactly for any other result |
| DataViews.FailureLink | src/data/failure.ts:13-20 | the file cell is a link titled 'fullPath:line' whose target is https://github.com/{owner}/{repo}/blob/{sha}/{fullPath}#L{line}, the full path being the report path, sub-directory and file joined |
| DataViews.RenderFailure | src/data/failure.ts:12-28 | the file cell is the failure's link (FailureLink); the type's name and the test are kept; the message keeps its length and every character but line breaks, which become spaces |
| DataViews.LineLink | src/data/failure.ts:18-20 | a link to a line starts with its bracketed title, ends with '#L', the line and ')', and targets the URL followed by '#L' and the line |
| DataViews.RenderAnnotation | src/data/annotation.ts:12-21 | the same `::error` body as the annotation report of the joined path, the line and the message, which it ends with verbatim |
| DataViews.PathLink | src/data/summary.ts:18 | the cell is the bracketed path linking to https://github.com/{owner}/{repo}/blob/{sha}/{path} |
| DataViews.RenderGotestsum | src/data/summary.ts:16-25 | the path as a link and the same version, result, passed, failed and time cells as the gotestsum summary report of that path; '-' exactly for a missing version (or one written '-'); '❌Failed' exactly for Failed |
| DataViews.RenderGolangCILint | src/data/summary.ts:34-39 | the path as a link and the same result cell as the golangci-lint summary report, '❌Failed' exactly for Failed |
| Outcomes.ToResult | src/table/result.ts:3-7 | Failed exactly when some result is Failed, Passed exactly when none is |
| Outcomes.ToResultMembership | src/composer/result.ts:4-6 | lists with the same members have the same verdict, so Skipped and Unknown never make it Failed |
| Outcomes.ToResultPermutation | src/composer/result.ts:4-6 | a permutation of the results has the same verdict |
| Outcomes.ToResultConcat | src/table/result.ts:3-7 | two lists together fail exactly when either fails |
| Outcomes.Annotations | src/table/annotation.ts:3-5 | one annotation body per failure, in order |
| Outcomes.AnnotationsConcat | src/composer/annotation.ts:4-6 | the annotations of two lists of failures are their annotations one after the other |
| Outcomes.AnnotationLists | src/table/annotation.ts:3-5 | each failure list's annotations, list by list |
| Outcomes.AnnotationsFlatten | src/table/factory.ts:115 | annotating several failure lists flattened gives each list's annotations in list order |
| Text.IndexOf | src/parse/golangcilint.ts:50 | the position found is an occurrence of the separator and no earlier position is; None exactly when it never occurs |
| Text.JoinSplit | src/junit/unknown.ts:7 | joining the parts of a split on the same separator gives the string back |
| Text.SplitPartsFree | src/parse/golangcilint.ts:61 | no part of a split on a character contains that character |
| Text.SplitJoin | src/parse/golangcilint.ts:61 | splitting on c parts joined by c, none of which contains c, gives those parts back |
| Text.JoinFree | src/table.ts:27-32 | joining parts free of c with a separator free of c gives a string free of c |
| Text.AfterFirst | src/parse/golangcilint.ts:50-52 | split, drop the first part and join again is what follows the first separator, or "" when there is none |
| Text.LastIndexOf | src/parse/golangcilint.ts:62-63 | the position found holds c and nothing after it does; None exactly when c does not occur |
| Text.LastIndexOfJoin | src/parse/golangcilint.ts:62-63 | the last c of a + c + b is the middle one when b has none |
| Text.ReplaceNewlines | src/report/failure.ts:27 | every line break becomes a space and every other character is kept, so the result has no line break |
| Text.LeadingSpaces | src/parse/golangcilint.ts:53 | the count of white space at the start: all of it is white space and the next character is not |
| Text.TrailingSpaces | src/parse/golangcilint.ts:53 | the count of white space at the end: all of it is white space and the character before is not |
| Text.Trim | src/parse/golangcilint.ts:53 | the result is a slice of s after its leading white space, only white space follows it, it neither starts nor ends with white space, and it is empty exactly when s is all white space |
| Text.Prefix | src/composer/table.ts:63 | the first n characters, or all of them when there are fewer |
| Text.LeadingDigits | src/reporter/gotestsum.ts:98 | the longest prefix of decimal digits, which parseInt reads |
| Text.LeadingDigitsOfDigits | src/reporter/gotestsum.ts:98 | a string of digits is read in full |
| Text.NatToString | src/report/gotestsum.ts:22-23 | a count prints as its canonical decimal writing: digits whose value is the count, with no leading zero except for 0 itself |
| Text.DecimalNatToString | src/report/gotestsum.ts:22-23 | parseInt reads a printed count back as that count |
| Text.IntToString | src/data/summary.ts:21-22 | an integer prints with a leading '-' exactly when it is negative |
| Text.SignedDecimalIntToString | src/data/summary.ts:21-22 | reading a printed integer back gives it, so distinct counts print differently |
| Seqs.FlattenConcat | src/composer.ts:102 | flattening distributes over concatenation |
| Seqs.FlattenBlock | src/composer.ts:102 | each inner array sits in the flattened array right after the ones before it |
| Seqs.FlattenLength | src/composer.ts:102 | the flattened length is the sum of the inner lengths |
| Seqs.TotalLengthEqual | src/composer.ts:102 | inner arrays of equal lengths flatten to equal lengths |
| Seqs.Map | src/composer.ts:102 | the result has the input's length and holds f of each element at the same position |
| Seqs.MapFlatten | src/composer.ts:102 | mapping after flattening is flattening after mapping |
| Seqs.DistinctSpec | src/factory.ts:42-45 | the keys of a Map built from xs are exactly the elements of xs, each once |
| Seqs.WithoutSpec | src/factory.ts:42-45 | the elements of xs not in ys are exactly those |
| Seqs.DistinctConcat | src/factory.ts:42-45 | keys set first keep their place: later new keys follow in their own first-occurrence order |
| Seqs.DistinctOne | src/reporter/gotestsum.ts:140 | a Set built from xs has one element exactly when xs is non-empty and all its elements are equal |
| Paths.LastSlash | src/parse/golangcilint.ts:62-63 | the position of the last '/', None exactly when there is none |
| Paths.Basename | src/parse/golangcilint.ts:62 | path.basename: a suffix of the path without '/', the whole path when it has none |
| Paths.Dirname | src/parse/golangcilint.ts:63 | path.dirname: '.' without a '/', else what precedes the last '/' |
| Paths.DirnameBasename | src/parse/golangcilint.ts:62-63 | dirname, '/' and basename put back together give the path |
| Paths.DirectoryIsDirname | src/junit/unknown.ts:6-9 | split('/').slice(0, -1).join('/') or '.' is path.dirname except for a file at the root, whose directory is '.' |
| Paths.Segments | src/module.ts:86 | every segment path.join keeps is a name: not empty, not '.', no '/' |
| Paths.KeepNamesOfNames | src/module.ts:86 | segments that are all names are all kept |
| Paths.AllSegments | src/module.ts:86 | every kept segment of every argument is a name |
| Paths.JoinPathsSegments | src/module.ts:86 | path.join loses no segment and adds none: the joined path has exactly its arguments' segments, in order |
| Paths.SegmentsOfNames | src/module.ts:86 | a path written as names separated by '/' has exactly those names as segments |
| Paths.FullPathOfNames | src/module.ts:86 | joining a module directory, a sub-directory and a file gives their names in order separated by '/' |
| Paths.FullPathDotSubDir | src/module.ts:86 | path.join drops a sub-directory '.' |
| Paths.FullPathDotModule | src/module.ts:86 | path.join drops a module directory '.' |
| BaseTables.Concat | __tests__/table/base/typed.test.ts:65-178 | concat keeps the header, the separator and the column count, and its records start with the table's own |
| BaseTables.ConcatRows | __tests__/table/base/typed.test.ts:65-178 | concat adds up the rows and, with no other table, is the table itself |
| BaseTables.ConcatOne | src/table/typed.ts:21-27 | concat with one table is concatVertical |
| BaseTables.ConcatSnoc | src/table/typed.ts:21-27 | concat of several tables is concatVertical applied one table at a time, in argument order |
| BaseTables.ConcatRecords | __tests__/table/base/typed.test.ts:65-178 | concat's records are those of the table and of every other table, in order |
| BaseTables.ToUntyped | __tests__/table/base/typed.test.ts:180-211 | toUntyped keeps the rows, the columns and each row's index and values, and gives a valid untyped table for a well-formed typed one |
| Text.Split | src/junit/gotestsum.ts:28 | `split` always yields at least one part |
| UntypedTables.SeparatorLineExample | __tests__/table/untyped.test.ts:125 | the example separator prints as '\| - \| - \| - \|' |
| SummaryTables.UntypedGotestsumRows | src/composer/table.ts:36-39 | one untyped row per report, in order: its index, then its version, result, passed, failed and time |
| SummaryTables.UntypedGolangCILintRows | src/composer/table.ts:55-58 | one untyped row per report, in order: its index and its result |
| Markdown.PipeLine | src/table/typed.ts:34 | a printed row starts with '\| ' and ends with ' \|' |
| Markdown.PipeLineFree | src/table/typed.ts:34-40 | a row whose index and cells have no line break prints on one line |
| Markdown.TableTextLines | src/table/typed.ts:37-41 | the joined table splits back at '\n' into the header line, the separator line and one line per record |
| TypedTables.ConcatVertical | src/table/typed.ts:21-27 | table1's header and separator over table1's records followed by table2's, so the rows add up |
| TypedTables.ConcatVerticalMonoid | src/table/typed.ts:21-27 | vertical concatenation is associative and a table without records is its right unit |
| TypedTables.Cell | src/table/typed.ts:34-40 | a value prints as itself and an undefined value as nothing |
| TypedTables.RecordLines | src/table/typed.ts:40 | one printed line per record |
| TypedTables.ToString | src/table/typed.ts:29-42 | the printed table is empty exactly when it has no records |
| TypedTables.LineFree | src/table/typed.ts:34-40 | a row without line breaks prints on one line |
| TypedTables.ToStringLines | src/table/typed.ts:29-42 | a table with records prints as rows + 2 lines: header, separator, then each record in order |
| TypedTables.ToStringConcatVertical | src/table/typed.ts:21-42 | printing a vertical concatenation prints the first table's lines followed by the second table's record lines |
| OldTables.RecordLines | src/table.ts:29-31 | one printed line per record |
| OldTables.Render | src/table.ts:21-33 | the rendered table is empty exactly when it has no records |
| OldTables.RenderLines | src/table.ts:21-33 | a table with records renders as rows + 2 lines: header, separator, then each record in order |
| OldTables.ColumnsIgnoresFields | src/table.ts:17-19 | the column count is not the number of fields of a header that does not have exactly two |
| UntypedTables.New | src/table/untyped.ts:7-19 | the constructor succeeds exactly when the separator and every record are as wide as the header, and otherwise throws the separator error first, then the record-width error |
| UntypedTables.Undefineds | src/table/untyped.ts:41 | n cells, all undefined |
| UntypedTables.LastWith | src/table/untyped.ts:39 | the position of the last row with the index: it has that index and no later row does; None when no row has it |
| UntypedTables.IndexMapLastWins | src/table/untyped.ts:39 | the index map holds exactly the indices of the rows, and with duplicates the last row wins |
| UntypedTables.Join | src/table/untyped.ts:30-54 | the loop over the left records builds exactly the left join of the specification function |
| UntypedTables.IndexMaps | src/table/untyped.ts:39 | one index map per other table, each built entry by entry as a Map would be |
| UntypedTables.JoinRecord | src/table/untyped.ts:40-52 | a left row receives, per other table, the cells of its row with the same index or undefined cells |
| UntypedTables.HeaderWidth | src/table/untyped.ts:31-34 | the appended header cells number the sum of the other tables' columns |
| UntypedTables.BlocksWidth | src/table/untyped.ts:41-50 | each other table contributes as many cells to a joined row as it has columns |
| UntypedTables.JoinedShape | src/table/untyped.ts:30-54 | join keeps the left indices, appends the others' header and separator cells in order, keeps the left rows in order and adds the others' columns |
| UntypedTables.JoinedValid | src/table/untyped.ts:53 | the joined table passes the constructor's checks, so join never throws |
| UntypedTables.JoinedBlock | src/table/untyped.ts:40-52 | in a joined row, the i-th other table's cells sit after the left cells and the earlier tables' cells, and are its last row with that index or undefined |
| UntypedTables.Cell | src/table/untyped.ts:62-64 | an undefined or empty cell prints as '-', any other as itself |
| UntypedTables.ToString | src/table/untyped.ts:56-59 | the printed table is empty exactly when it has no records |
| UntypedTables.LineFree | src/table/untyped.ts:64 | a row without line breaks prints on one line |
| UntypedTables.ToStringLines | src/table/untyped.ts:56-66 | a table with records prints as rows + 2 lines: header, separator, then each record in order |
| UntypedTables.HeaderLineExample | __tests__/table/untyped.test.ts:124 | the example header prints as '\| H \| F1 \| F2 \|' |
| UntypedTables.RecordLineExample | __tests__/table/untyped.test.ts:126 | the example record's undefined cell prints as '-' |
| UntypedTables.ToStringExample | __tests__/table/untyped.test.ts:106-127 | the example table prints as its three lines joined by line breaks |
| FailureTables.ReportRows | src/table/failure.ts:26-29 | one row per report, in order, holding the report's index and record |
| FailureTables.TruncatedSpec | src/table/failure.ts:33-47 | the truncated table keeps the header, the separator and the first min(limit, n) records; it has limit + 1 rows, the last the overflow row counting the n - limit cut records, when n > limit, and is unchanged otherwise |
| FailureTables.TruncatedRecords | src/table/failure.ts:35 | each record the truncation keeps is the original record at the same place |
| FailureTables.OverflowCount | src/table/failure.ts:42 | the overflow message starts with ':warning: and ' and its count reads back as the number of cut records |
| FailureTables.FailureTable.constructor | src/table/failure.ts:8-31 | the table has the File/Type/Case/Message header, the left-aligned separator and one row per report |
| FailureTables.FailureTable.ToTable | src/table/failure.ts:33-47 | the sliced copy with the pushed overflow row is the truncated table |
| FailureTables.ComposerFailureTable.constructor | src/composer/failure.ts:7-30 | the table has the File/Type/Case/Message header, the ':---' separator and one row per report |
| FailureTables.ComposerFailureTable.ToTable | src/composer/failure.ts:32-46 | the sliced copy with the pushed overflow row is the truncated table |
| FailureTables.ToFailuresTable | src/composer/table.ts:62-96 | slicing the reports before mapping them gives the same truncated table as the composer FailureTable, with limit + 1 rows when there are more than limit reports |
| SummaryTables.GotestsumRows | src/table/gotestsum.ts:30-33 | one row per report, in order, holding its index and record |
| SummaryTables.GolangCILintRows | src/table/golangcilint.ts:25-28 | one row per report, in order, holding its index and record |
| SummaryTables.GotestsumTable | src/table/gotestsum.ts:8-39 | the result column is labelled with the title, the index and result are left-aligned and the numbers right-aligned; one row per report with its index; the table converts to a valid untyped table |
| SummaryTables.GolangCILintTable | src/table/golangcilint.ts:11-34 | a single left-aligned 'Result' column holding each report's result, one row per report; the table converts to a valid untyped table |
| SummaryTables.ComposerGotestsumTable | src/composer/gotestsum.ts:7-38 | a 'Result' column and the fixed ':-----' separators; one row per report with its index |
| SummaryTables.ComposerGolangCILintTable | src/composer/golangcilint.ts:10-33 | a single 'Result' column with the fixed separators, holding each report's result |
| SummaryTables.GotestsumGenerations | src/composer/gotestsum.ts:7-38 | the titled and the composer gotestsum tables have the same rows, and the same header when the title is 'Result' |
| SummaryTables.ToGotestsumTable | src/composer/table.ts:24-41 | the untyped summary has a 'Test' column and five columns, never throws, and has one row per report, in order, holding its index, version, result, passed, failed and time |
| SummaryTables.ToGotestsumTableRows | src/composer/table.ts:36-39 | its rows are those of the composer gotestsum table converted to untyped rows |
| SummaryTables.ToGolangCILintTable | src/composer/table.ts:43-60 | the untyped summary has a single 'Lint' column holding each report's result, and it never throws |
| TableFactories.Summaries | src/table/factory.ts:57 | one summary per reporter, in order |
| TableFactories.Results | src/table/factory.ts:53 | one result per reporter, in order |
| TableFactories.FailuresConcat | src/table/factory.ts:51 | the flattened failures of several reporters are theirs in reporter order |
| TableFactories.TestReports | src/table/factory.ts:82-85 | the cast keeps every summary and its index |
| TableFactories.LintReports | src/table/factory.ts:75-78 | the cast keeps every summary and its index |
| TableFactories.CreateSummaryTable | src/table/factory.ts:64-93 | the summary passes the table checks, has one row per summary with its index, one column for golangci-lint and five for gotestsum, whose result column carries the group's title |
| TableFactories.SingleSpec | src/table/factory.ts:35-62 | single fails exactly when a reporter failed; its summary has a row per reporter; its annotations are those of the flattened failures, in order, and its failure table has at most eleven rows, the first ten being the first ten failures of the same list |
| TableFactories.Singles | src/table/factory.ts:102-106 | one table set per group, in group order |
| TableFactories.Multi | src/table/factory.ts:95-101 | no table set exactly when there is no group (its contents: MultiResult, MultiSummary, MultiFailureRows, MultiAnnotations) |
| TableFactories.MultiResult | src/table/factory.ts:112 | multi fails exactly when some reporter of some group failed |
| TableFactories.MultiSummary | src/table/factory.ts:113 | the summary is the first group's summary table left-joined with every other group's, in group order; it passes the table checks and has a row per reporter of the first group |
| TableFactories.GroupSummaryTables | src/table/factory.ts:54-59 | each group's own summary table, as `createSummaryTable` builds it, in group order |
| TableFactories.GroupFailureTables | src/table/factory.ts:58 | each group's own failure table, cut at the default limit, in group order |
| TableFactories.MultiFailureRows | src/table/factory.ts:114 | the failure table has the failure header and separator over the records of every group's own failure table, the first group's first, in group order; its rows add up |
| TableFactories.MultiAnnotations | src/table/factory.ts:115 | the annotations of every group's failures, in group order, one per failure and none cut by the limit |
| ComposerFactories.SummaryTable | src/composer/factory.ts:45-51 | the golangci-lint table exactly when the group is golangci-lint, else the gotestsum table; it passes the table checks and has one row per reporter with its index |
| ComposerFactories.FailureTableOf | src/composer/factory.ts:52 | the untyped failure table has the File/Type/Case/Message header and passes the table checks; its first ten rows are the first ten failures, each as its index and its record's type, test and message; an eleventh, overflow row counts the rest when there are more than ten |
| ComposerFactories.TruncatedWellFormed | src/composer/failure.ts:32-46 | truncating a failure table keeps every row three cells wide |
| ComposerFactories.Single | src/composer/factory.ts:30-55 | both tables of a single group pass the table checks (its contents: SingleSpec) |
| ComposerFactories.SingleSpec | src/composer/factory.ts:30-55 | single fails exactly when a reporter failed; its summary is the group's summary table; its annotations are those of the flattened failures, in order, and the first ten rows of its failure table are the first ten failures of the same list, with an overflow row when there are more |
| ComposerFactories.Singles | src/composer/factory.ts:64-71 | one table set per group, in group order |
| ComposerFactories.Appended | src/table/factory.ts:114 | appending keeps the first table's header, separator and records, in front |
| ComposerFactories.AppendedValid | src/table/factory.ts:114 | tables as wide as the first append to a table that passes the table checks |
| ComposerFactories.AnnotationsCount | src/composer/factory.ts:80 | the groups' annotations together are the annotations of every group's failures, in group order, one per failure |
| ComposerFactories.ResultsFailed | src/composer/factory.ts:77 | the combined result fails exactly when some reporter of some group failed |
| ComposerFactories.GroupSummaryTables | src/composer/factory.ts:45-51 | each group's own summary table, in group order |
| ComposerFactories.SummariesJoined | src/composer/factory.ts:78 | the joined summaries are the first group's summary table left-joined with every other group's, in group order; they pass the table checks and have a row per reporter of the first group |
| ComposerFactories.MultiAsWritten | src/composer/factory.ts:57-82 | no table set exactly when there is no group |
| ComposerFactories.MultiAsWrittenDropsFailures | src/composer/factory.ts:79 | as written, the failure table has the first group's rows only while there is an annotation for every failure of every group |
| ComposerFactories.LaterFailuresDropped | src/composer/factory.ts:79 | with a first group free of failures and a second group with some, the failure table as written is empty and the appended one is not |
| ComposerFactories.LaterRowsOfTwo | src/composer/factory.ts:79 | of two table sets whose first failure table is empty and second is not, the joined failure table is empty and the appended one is not |
| ComposerFactories.Multi | src/composer/factory.ts:57-63 | no table set exactly when there is no group |
| ComposerFactories.MultiSpec | src/composer/factory.ts:57-82 | multi fails exactly when some reporter of some group failed; the summary is the first group's summary table left-joined with every other group's, in group order; both tables pass the table checks; the summary has a row per reporter of the first group; the failure table holds every group's failure rows in group order under three columns; the annotations are every group's failures' annotations, in group order |
| ComposerFactories.MultiFailures | src/composer/factory.ts:79 | the appended failure table passes the table checks, keeps three columns and holds every group's failure rows in group order |
| ComposerFactories.FailureTablesValid | src/composer/factory.ts:52 | every group's failure table passes the table checks with three columns |
| ComposerFactories.AppendedAll | src/table/factory.ts:114 | appending valid three-column tables gives a valid three-column table of all their rows, in order |
| Composer.ComposedResult | src/composer.ts:26-32 | Failed exactly when some test or lint summary failed, and Passed otherwise |
| Composer.FailedIn | src/composer.ts:27-29 | a Failed result is among the test and lint results exactly when some test or lint report failed |
| Composer.RenderFlat | src/table.ts:21-33 | the rendered table is empty exactly when it has no records |
| Composer.FlatLines | src/table.ts:29-31 | one line per record |
| Composer.RenderFlatLines | src/table.ts:21-33 | a table with records and no line break in a cell prints as its header line, its separator line and one line per record |
| Composer.FlatLineFree | src/table.ts:30 | a row without line breaks prints on one line |
| Composer.LastTestRow | src/composer.ts:45-55 | the last test row with the path, found exactly when some test row has it |
| Composer.LastLintResult | src/composer.ts:56-74 | the result of a lint row with the path, found exactly when some lint row has it |
| Composer.MergedRowCases | src/composer.ts:44-74 | a module row is named by its path, keeps the fields of a test row with that path or '-' in every test column without one, and takes the result of a lint row with that path or '-' without one |
| Composer.SummaryKeysOrder | src/composer.ts:44-95 | one summary row per distinct path, test paths first in order of first occurrence, then the lint paths no test row has |
| Composer.FillSummary | src/composer.ts:44-74 | the two loops fill the map with exactly the summary keys, in insertion order, each holding its merged row |
| Composer.FillTests | src/composer.ts:45-55 | the first loop sets one key per distinct test path, each holding the row of its last test row with '-' as lint result |
| Composer.FillLints | src/composer.ts:56-74 | the second loop adds the new lint paths after the test paths and leaves every key holding its merged row |
| Composer.SetLint | src/composer.ts:57-73 | one turn of the second loop: the lint row's result is merged into an existing row or makes a new lint-only row |
| Composer.TestStep | src/composer.ts:46-54 | setting a test row adds its path as a key exactly when no earlier row had it, and its row is that test's row |
| Composer.LintStep | src/composer.ts:57-73 | setting a lint row adds its path as a key exactly when no row before had it, and its row takes that lint result |
| Composer.LintKeysStep | src/composer.ts:57-73 | the keys after a lint row are the keys before, plus its path when new |
| Composer.LintRowStep | src/composer.ts:57-73 | a lint row changes the lint result of its own path's row and no other row |
| Composer.TestRows | src/composer.ts:36-39 | one rendered row per test report |
| Composer.LintRows | src/composer.ts:40-43 | one rendered row per lint report |
| Composer.Summary | src/composer.ts:34-97 | the method builds the summary table of the specification function |
| Composer.SummaryTextEmpty | src/composer.ts:34-97 | the summary is empty exactly when there are no test and no lint reports |
| Composer.LimitedSpec | src/composer.ts:110-118 | the first min(limit, n) rows unchanged, then exactly one overflow row counting the rest when n > limit, else all rows |
| Composer.Failures | src/composer.ts:99-125 | the method builds the failure table of the specification function |
| Composer.FailuresTextEmpty | src/composer.ts:99-125 | the failure table is empty exactly when no report has a failure |
| Composer.FailuresAndAnnotations | src/composer.ts:99-145 | the failure rows and the annotations follow the same failure list, test failures first: the k-th row and the k-th annotation both render the k-th failure |
| GoModules.ModuleResult | src/module.ts:50-55 | Failed exactly when the test report or the lint report failed, Passed exactly otherwise |
| GoModules.ModuleResultIsVerdict | src/module.ts:50-55 | a module's result is the verdict over its reports, as the table factories compute it |
| GoModules.MakeModuleTableRecord | src/module.ts:57-77 | the name links the directory; the version is '-' exactly without one; the result marks say Failed exactly when the report failed; the counts read back as the report's counts; the time is '-' exactly without one; the lint cell is '-' exactly without a lint report |
| GoModules.ModuleRecordAsSummaryViews | src/module.ts:57-77 | the module's record shows the cells the summary views render for its two reports |
| GoModules.MakeFailedTestTableRecords | src/module.ts:79-93 | one record per test failure, in order, each showing what the failure view shows |
| GoModules.MakeFailedLintTableRecords | src/module.ts:95-111 | none without a lint report, else one record per lint failure, in order, each showing what the failure view shows |
| GoModules.MakeAnnotationMessages | src/module.ts:113-119 | one error command per test failure, in order, equal to the annotation view's body; lint failures are not annotated |
| GoRepositoryFactories.ModuleDirectoriesSpec | src/factory.ts:42-56 | every test or lint directory makes exactly one module; test directories come first in first-occurrence order, then the lint directories that are not test directories |
| GoRepositoryFactories.DistinctSnoc | src/factory.ts:43 | setting a key appends it unless it is already a key |
| GoRepositoryFactories.SetTestReports | src/factory.ts:43 | the first loop leaves one entry per distinct test directory, in first-occurrence order, holding its test report only |
| GoRepositoryFactories.SetLintReports | src/factory.ts:45-52 | the second loop leaves the map the merge of all test and lint directories |
| GoRepositoryFactories.Entries | src/factory.ts:54-56 | the modules are the map's entries in key order |
| GoRepositoryFactories.SetLint | src/factory.ts:46-51 | a lint report joins the module of its directory, keeping its test report, or makes a new module at the end |
| GoRepositoryFactories.SetLintStep | src/factory.ts:46-51 | setting one lint report keeps the map the merge of the lint directories seen so far and that one |
| GoRepositoryFactories.FromXml | src/factory.ts:12-59 | one module per distinct test or lint directory, in merge order, each holding the report read from that directory's file when it is a test or a lint directory |
| MarkdownReports.TableContext | src/repository.ts:65-69 | the tables link into the repository and commit of the report's context |
| MarkdownReports.Footer | src/repository.ts:91-92 | the footer opens with the rule, names the commit by the first seven characters of its hash (all of them when shorter), links it to /pull/{number}/commits/{sha} and names the actor who pushed it |
| MarkdownReports.FailureSection | src/repository.ts:77-90 | the failed-tests section is empty exactly when either table is, and otherwise is the failure table inside an open details block |
| MarkdownReports.Document | src/repository.ts:71-93 | without a module table the body says no test results were found and there is no failure section; with both tables the failure section sits between the module table and the footer |
| MarkdownReports.AsFailure | src/repository.ts:131-134 | a test case's failure view resolves to the test case's full path |
| MarkdownReports.FailureLine | src/repository.ts:131-136 | a failure's row holds the cells the failure view renders, between '\| ' and ' \|' |
| MarkdownReports.AnnotationLine | src/repository.ts:147-149 | the error command is the annotation view's body and the annotation report's body for the same file, line and message |
| MarkdownReports.AnnotationLines | src/repository.ts:143-150 | one error command per failure, in order, each the annotation view's body |
| MarkdownReports.AnnotationLinesConcat | src/repository.ts:143-150 | the commands of two failure lists follow each other |
| MarkdownReports.TemplateTable | src/repository.ts:126-140 | the template's header, separator and joined lines are the table text of those lines |
| MarkdownReports.TemplateTableSnoc | src/repository.ts:138-139 | a joined list followed by one more line written as the template does is the join of the longer list |
| Repositories.Results | src/repository.ts:59-63 | one result per reporter, in order |
| Repositories.ResultText | src/repository.ts:59-63 | Passed exactly when every reporter passed (so also for none), Failed exactly when one failed, Unknown exactly when none failed but one was skipped or unknown |
| Repositories.ModuleCells | src/repository.ts:106-111 | the version or '-' exactly without one, a mark saying Failed exactly when the reporter failed, counts that read back as the reporter's counts, and the time or '-' exactly without one |
| Repositories.ModuleTable | src/repository.ts:96-114 | empty exactly without reporters, otherwise the header, the separator and one row per reporter, in order |
| Repositories.FailuresConcat | src/repository.ts:120 | the failures of two reporter lists follow each other; none without reporters |
| Repositories.Shown | src/repository.ts:130 | the first limit failures, or all of them when there are fewer |
| Repositories.FailureTable | src/repository.ts:116-141 | empty exactly without failures; otherwise a row for each of the first limit failures in order, then an ellipsis row exactly when there are more; a limit of 0 leaves an empty line above the ellipsis |
| Repositories.FailureTableForm | src/repository.ts:126-140 | the three shapes the template gives the failure table: with rows and no ellipsis, with rows and an ellipsis, with no row and an ellipsis |
| Repositories.MarkdownReport | src/repository.ts:54-94 | without reporters the comment passes and says no results were found; the failure section is present exactly when some reporter has a failure, between the module table and the footer |
| Repositories.AnnotationMessages | src/repository.ts:143-150 | one error command per failure of every reporter, in order, naming the failure's full path, line and message |
| Repositories.AnnotationMessagesConcat | src/repository.ts:143-150 | the commands of two reporter lists follow each other |
| Monorepos.Results | src/monorepo.ts:46 | one result per reporter, in order |
| Monorepos.ResultText | src/monorepo.ts:46-49 | Passed exactly when every reporter passed (so also for none), Failed exactly when one did not pass |
| Monorepos.ResultGenerations | src/monorepo.ts:46-49 | the two generations' result lines differ exactly when no reporter failed and one was skipped or unknown; this one then says Failed where the repository says Unknown |
| Monorepos.ModuleCells | src/monorepo.ts:89-93 | a mark saying Failed exactly when the reporter failed, counts that read back as the reporter's counts, and the time followed by 's' |
| Monorepos.ModuleTable | src/monorepo.ts:79-97 | empty exactly without reporters, otherwise the header, the separator and one row per reporter, in order |
| Monorepos.FailuresConcat | src/monorepo.ts:100 | the failures of two reporter lists follow each other; none without reporters |
| Monorepos.FailureTable | src/monorepo.ts:99-119 | empty exactly without failures, otherwise one row per failure, in order |
| Monorepos.FailureTableUnlimited | src/monorepo.ts:99-119 | this failure table is the repository's with a limit no smaller than the number of failures |
| Monorepos.MarkdownReport | src/monorepo.ts:41-77 | without reporters the comment passes and says no results were found; the failure section is present exactly when some reporter has a failure |
| Monorepos.AnnotationMessages | src/monorepo.ts:121-128 | one error command per failure of every reporter, in order, naming the failure's full path, line and message |
| Monorepos.AnnotationMessagesConcat | src/monorepo.ts:121-128 | the commands of two reporter lists follow each other |
| Monorepos.RunUrlExample | __tests__/monorepo.test.ts:45 | the run link of the example context |
| Monorepos.CommitUrlExample | __tests__/monorepo.test.ts:52 | the commit link of the example context |
| Monorepos.HeadingExample | __tests__/monorepo.test.ts:45 | the heading of the example context |
| Monorepos.FooterExample | __tests__/monorepo.test.ts:51-52 | the footer shortens abcdef123456 to abcdef1 |
| Monorepos.EmptyReportExample | __tests__/monorepo.test.ts:40-55 | the comment for a run without reports, piece by piece |
| Monorepos.ExampleFullPath | __tests__/monorepo.test.ts:156 | the example test case in go/app1 with sub-directory '.' has full path go/app1/foo_test.go |
| Monorepos.FailuresOne | src/monorepo.ts:122-124 | the failures of a single reporter are its own |
| Monorepos.AnnotationExample | __tests__/monorepo.test.ts:151-158 | a failing and a passing module give one annotation, for the failure, with its message verbatim |

## Left out

- File reading, XML parsing (xml2js), glob search and YAML/schema parsing of the config are I/O or library code. The model starts from the parsed document. In `GoRepositoryFactories.FromXml` the parser is the `parse` parameter.
- The GitHub API (src/github.ts) and the action's entry points (src/main.ts, src/main/main.ts) are not part of this model. Neither are the one-switch reporter and parser factories, nor the placeholders src/junit.ts and src/markdown.ts.
- `Promise.all` in the factories is modelled as an in-order sequential map, since it keeps the input order.
- Regular expressions are not modelled as an engine. The gotestsum failure expression is a `matcher` parameter that returns optional captures, and the test examples about it are lemmas whose hypotheses are about the matcher. The `go([\d.]+) ([\w\d/])+` version expression is modelled concretely, by `JunitXml.VersionAt`, `JunitXml.FindVersionFrom` and `JunitXml.GoVersionMatch`.
- `parseFloat` and `toFixed(1)` on times are floating point. A time is kept as an optional string that is already formatted.
- `parseInt` and `Number` on malformed attributes give NaN in JavaScript. The model reads the leading decimal digits, and 0 when there are none (`Text.Decimal`).
- Inputs.PullRequestNumber: the number is an unbounded natural, so the precision loss of `Number` above 2^53 is not modelled.
- Text.Trim: white space is the ASCII set (space, tab, line feed, carriage return, vertical tab, form feed). The Unicode spaces that JavaScript's `trim` also removes are not modelled.
- Paths.JoinPaths: only relative paths are modelled. `..` segments and a leading '/' are not. Empty and '.' segments are dropped, which is what the path tests exercise.
- Paths.Basename: a trailing '/' is not stripped as Node's `path.basename` does; the model returns what follows the last '/'.
- Paths.Dirname: a trailing '/' is not skipped as Node's `path.dirname` does. The model cuts at the last '/', so 'a/b/' gives 'a/b' where Node gives 'a', and 'a/' gives 'a' where Node gives '.'. Repeated slashes are not collapsed either. Both functions are applied to the file part of a golangci-lint classname (src/parse/golangcilint.ts:62-63 and its siblings), which ends in a file name and not in '/'.
- A failure-table `limit` is a natural number. Negative limits, which `slice` would count from the end, are not modelled.
- src/main/input.ts maps the config after the schema has accepted it. The model takes each entry's type as written, so the schema's restriction of the type to the two names is not modelled. Only the `switch` is modelled, and it rejects any other name.
- src/table/factory.ts passes a title to the constructor of `GolangCILintTable`, which takes only the reports. The model builds the table from the reports alone.
- src/table/factory.ts, src/table/failure.ts, src/table/gotestsum.ts and src/table/golangcilint.ts import their base table from `./base/typed`, which is not part of this model. `concat` and `toUntyped` are modelled in `BaseTables` from what the base table's tests expect of them.
- src/table/failure.ts:2 and src/table/gotestsum.ts:2 import `Align` from `./base/type`, which is not part of this model either. `Types.AlignCell` assumes that `Align.Left` and `Align.Right` are the cells ':---' and '---:'. These are the literal separator cells of the composer tables (src/composer/table.ts:34, src/composer/golangcilint.ts:21).
- src/reporter/gotestsum.ts:40-48 builds a `GotestsumSummaryReportImpl` from `this.context` and the report's fields. No such class exists: src/report/gotestsum.ts:4 exports `GotestsumReportImpl`, whose constructor starts with the module directory and takes no context. `GotestsumReporters.Summary` builds the intended summary from the path, result, counts, version and time.
- src/reporter/gotestsum.ts:82-91 passes eight arguments, led by `this.context`, to the seven-field `FailureReportImpl` of src/report/failure.ts:7-15. As written, every field shifts by one: `type` gets the context, `moduleDir` the reporter type, `subDir` the path, and so on, and the message is dropped. `GotestsumReporters.Failures` reads the intended fields.
- src/parse/golangcilint.ts:23 and :64 call `new GolangCILintSummaryReport(this.context, …)` and `new FailureReport(this.context, …)`. Both names are type aliases (src/report/type.ts:21, 23), not classes, and no report class takes a context. The `GolangCILintParsers` members build the intended summary and failure reports from the remaining arguments.
- src/factory.ts:7 imports `GoModule` from ./module, but src/module.ts:13 exports `Module`. src/factory.ts:22 also calls the private constructor of `GotestsumReport` (src/junit/gotestsum.ts:12). `GoRepositoryFactories` assumes the import resolves to `Module` and the constructor can be called.
- src/composer/factory.ts:9-10 imports the functions `toResult` and `toAnnotations`, but src/composer/result.ts and src/composer/annotation.ts export only the classes `ResultComposer` and `AnnotationComposer`, whose methods do the same. The model calls `Outcomes.ToResult` and `Outcomes.Annotations`, which model those methods.
- src/composer/factory.ts:51-52 calls `.toUntyped()` on tables of src/table/typed.ts, which has no such method. The model uses `BaseTables.ToUntyped`, the base table's conversion.
- src/junit/reporter/golangcilint.ts:4,105-112 builds each `TestCase` of src/junit/type.ts:19-27 with six arguments, but that class has five fields. As written, the fields shift: `subDir` gets the report's directory, `file` the sub-directory, `line` the file name, `test` the line number and `message` the test name, and the message itself is dropped. The model reads the intended fields into the six-field `JunitTestCases.TestCase` of src/junit/report.ts.
- src/composer.ts builds its tables with a shape that src/table.ts does not declare. `Composer` renders them as flat rows, as the composer tests expect.
- src/repository.ts reads `directory` from reports whose declared type (`JUnitReport` of src/junit/type.ts) does not list it. It also imports its reporter from src/junit/reporter/gotestsum.ts, which is not part of this model. The model gives its reports a directory.
- src/monorepo.ts takes its `TestResult` from src/junit/report.ts, which has no Unknown case. Its reports are modelled with the shared `Result`, which has one. The statements about an unknown reporter there cover a case the source cannot produce.
- GoModules.MakeAnnotationMessages: the annotations cover test failures only, as src/module.ts:113-119 is written. The module tests expect lint failures too; the model follows the code.
- Loaders such as the static `fromXml` of src/junit/gotestsum.ts, src/repository.ts, src/monorepo.ts and src/module.ts read files, and are left out.

## Findings

| source | as written | input that shows it | evidently intended | confidence | as-written member | corrected member |
|---|---|---|---|---|---|---|
| src/composer/factory.ts:79 | `multi` builds its failure table by left-joining the other groups' failure tables to the first group's by row index. The result keeps the first group's rows only. | two groups, the first with no failing test and the second with one: the failure table is empty, yet there is an annotation for the failure | append every group's failure rows under the first group's header, as src/table/factory.ts:114 does with `concat` | not executed | ComposerFactories.MultiAsWritten (with ComposerFactories.LaterFailuresDropped) | ComposerFactories.Multi (with ComposerFactories.MultiSpec) |

=== FILE: base_table.dfy ===
/** The operations of the table base class that src/table/failure.ts, gotestsum.ts,
    golangcilint.ts and factory.ts call besides the constructor: `concat` of several
    tables and `toUntyped`. Its tables have the shape of `TypedTables.Table`. */
module BaseTables {
  import opened Wrappers
  import Seqs
  import TypedTables
  import UntypedTables

  function RecordsOf(others: seq<TypedTables.Table>): seq<seq<TypedTables.Row>>
  {
    seq(|others|, i requires 0 <= i < |others| => others[i].records)
  }

  /** `table.concat(others)`: the table's header and separator over its own records
      followed by every other table's records, in argument order. */
  function Concat(t: TypedTables.Table, others: seq<TypedTables.Table>): (r: TypedTables.Table)
    ensures r.header == t.header && r.separator == t.separator
    ensures r.Columns() == t.Columns()
    ensures |r.records| >= |t.records| && r.records[..|t.records|] == t.records
  {
    TypedTables.Table(t.header, t.separator, t.records + Seqs.Flatten(RecordsOf(others)))
  }

  /** The number of records of all the tables together. */
  function RowsSum(others: seq<TypedTables.Table>): nat
  {
    if |others| == 0 then 0 else RowsSum(others[..|others| - 1]) + others[|others| - 1].Rows()
  }

  lemma {:induction false} RecordsTotal(others: seq<TypedTables.Table>)
    ensures Seqs.TotalLength(RecordsOf(others)) == RowsSum(others)
  {
    if |others| > 0 {
      RecordsTotal(others[..|others| - 1]);
      assert RecordsOf(others)[..|others| - 1] == RecordsOf(others[..|others| - 1]);
    }
  }

  /** `concat` adds up the rows and keeps the columns; with no other table it is the
      table itself. */
  lemma ConcatRows(t: TypedTables.Table, others: seq<TypedTables.Table>)
    ensures Concat(t, others).Rows() == t.Rows() + RowsSum(others)
    ensures others == [] ==> Concat(t, others) == t
  {
    Seqs.FlattenLength(RecordsOf(others));
    RecordsTotal(others);
    if others == [] {
      assert t.records + [] == t.records;
    }
  }

  /** Concatenating with one table is `Table.concatVertical`. */
  lemma ConcatOne(t: TypedTables.Table, other: TypedTables.Table)
    ensures Concat(t, [other]) == TypedTables.ConcatVertical(t, other)
  {
    assert Seqs.Flatten(RecordsOf([other])) == other.records by {
      assert RecordsOf([other]) == [other.records];
      assert RecordsOf([other])[..0] == [];
    }
  }

  /** Concatenating several tables is concatenating them vertically one by one, in
      argument order. */
  lemma ConcatSnoc(t: TypedTables.Table, others: seq<TypedTables.Table>, u: TypedTables.Table)
    ensures Concat(t, others + [u]) == TypedTables.ConcatVertical(Concat(t, others), u)
  {
    var rs := RecordsOf(others + [u]);
    assert rs[..|others|] == RecordsOf(others);
    assert Seqs.Flatten(rs) == Seqs.Flatten(RecordsOf(others)) + u.records;
    assert (t.records + Seqs.Flatten(RecordsOf(others))) + u.records
      == t.records + Seqs.Flatten(rs);
  }

  /** The records of t followed by those of every other table are the records of all
      the tables, flattened in order. */
  lemma ConcatRecords(t: TypedTables.Table, others: seq<TypedTables.Table>)
    ensures Concat(t, others).records == Seqs.Flatten(RecordsOf([t] + others))
  {
    assert RecordsOf([t] + others) == [t.records] + RecordsOf(others);
    Seqs.FlattenConcat([t.records], RecordsOf(others));
    assert Seqs.Flatten([t.records]) == t.records by {
      assert [t.records][..0] == [];
    }
  }

  function UntypedRow(r: TypedTables.Row): UntypedTables.Row
  {
    UntypedTables.Row(r.index, r.values)
  }

  /** Every record has as many values as the header has fields, as the record type
      guarantees. */
  predicate WellFormed(t: TypedTables.Table)
  {
    |t.separator.values| == |t.header.values| &&
    forall k :: 0 <= k < |t.records| ==> |t.records[k].values| == |t.header.values|
  }

  /** `table.toUntyped()`: the same rows with the record values as plain lists. */
  function ToUntyped(t: TypedTables.Table): (r: UntypedTables.Table)
    ensures r.Rows() == t.Rows() && r.Columns() == t.Columns()
    ensures WellFormed(t) ==> r.Valid()
    ensures forall k :: 0 <= k < r.Rows() ==> r.records[k].index == t.records[k].index
    ensures forall k :: 0 <= k < r.Rows() ==> r.records[k].values == t.records[k].values
  {
    UntypedTables.Table(UntypedRow(t.header), UntypedRow(t.separator),
      seq(|t.records|, k requires 0 <= k < |t.records| => UntypedRow(t.records[k])))
  }
}

=== FILE: composer.dfy ===
/** `TableComposer` of src/composer.ts: the overall result, the module summary table
    that merges test and lint rows per module path, the truncated failure table and
    the annotations, from the test and lint reports of every directory. Its tables are
    flat: every cell, the first included, comes from one object's values. */
module Composer {
  import opened Wrappers
  import opened Types
  import Seqs
  import Text
  import Markdown
  import DataViews
  import Outcomes
  import FailureTables

  /** A gotestsum report of one directory. */
  datatype TestDirReport = TestDirReport(path: string, summary: DataViews.GotestsumSummary, failures: seq<DataViews.Failure>)

  /** A golangci-lint report of one directory. */
  datatype LintDirReport = LintDirReport(path: string, result: Result, failures: seq<DataViews.Failure>)

  /** `TableComposer.undefinedString` */
  const Undefined := "-"

  function TestResults(tests: seq<TestDirReport>): seq<Result>
  {
    Seqs.Map((d: TestDirReport) => d.summary.result, tests)
  }

  function LintResults(lints: seq<LintDirReport>): seq<Result>
  {
    Seqs.Map((d: LintDirReport) => d.result, lints)
  }

  /** `result()`: Failed iff some test or lint summary is Failed, and Passed otherwise. */
  function ComposedResult(tests: seq<TestDirReport>, lints: seq<LintDirReport>): (r: Result)
    ensures r == Failed <==>
      (exists k :: 0 <= k < |tests| && tests[k].summary.result == Failed) ||
      (exists k :: 0 <= k < |lints| && lints[k].result == Failed)
    ensures r != Failed ==> r == Passed
  {
    FailedIn(tests, lints);
    Outcomes.ToResult(TestResults(tests) + LintResults(lints))
  }

  lemma FailedIn(tests: seq<TestDirReport>, lints: seq<LintDirReport>)
    ensures Failed in TestResults(tests) + LintResults(lints) <==>
      (exists k :: 0 <= k < |tests| && tests[k].summary.result == Failed) ||
      (exists k :: 0 <= k < |lints| && lints[k].result == Failed)
  {
    var rs := TestResults(tests) + LintResults(lints);
    if Failed in rs {
      var k :| 0 <= k < |rs| && rs[k] == Failed;
      if k < |tests| {
        assert tests[k].summary.result == Failed;
      } else {
        assert lints[k - |tests|].result == Failed;
      }
    }
    if exists k :: 0 <= k < |lints| && lints[k].result == Failed {
      var k :| 0 <= k < |lints| && lints[k].result == Failed;
      assert rs[|tests| + k] == Failed;
    }
  }

  /** `| ${cells.join(' | ')} |` of a non-empty row of cells. */
  function FlatLine(cells: seq<string>): string
    requires |cells| > 0
  {
    Markdown.PipeLine(cells[0], cells[1..])
  }

  /** `new Table(header, separator, records).render()` for flat rows: '' without
      records, else the header, separator and record lines joined by line breaks. */
  function RenderFlat(header: seq<string>, separator: seq<string>, records: seq<seq<string>>): (s: string)
    requires |header| > 0 && |separator| > 0
    requires forall k :: 0 <= k < |records| ==> |records[k]| > 0
    ensures s == "" <==> |records| == 0
  {
    if |records| == 0 then ""
    else
      var lines := [FlatLine(header), FlatLine(separator)] + FlatLines(records);
      assert lines[0] == FlatLine(header);
      Markdown.TableText(FlatLine(header), FlatLine(separator), FlatLines(records))
  }

  function FlatLines(records: seq<seq<string>>): (lines: seq<string>)
    requires forall k :: 0 <= k < |records| ==> |records[k]| > 0
    ensures |lines| == |records|
  {
    seq(|records|, k requires 0 <= k < |records| && |records[k]| > 0 => FlatLine(records[k]))
  }

  predicate CellsFree(cells: seq<string>)
  {
    forall k :: 0 <= k < |cells| ==> '\n' !in cells[k]
  }

  /** A flat table with records and no line break in any cell prints as one line for
      its header, one for its separator and one per record. */
  lemma RenderFlatLines(header: seq<string>, separator: seq<string>, records: seq<seq<string>>)
    requires |header| > 0 && |separator| > 0 && |records| > 0
    requires forall k :: 0 <= k < |records| ==> |records[k]| > 0 && CellsFree(records[k])
    requires CellsFree(header) && CellsFree(separator)
    ensures Text.Split(RenderFlat(header, separator, records), "\n") ==
      [FlatLine(header), FlatLine(separator)] + FlatLines(records)
  {
    FlatLineFree(header);
    FlatLineFree(separator);
    forall k | 0 <= k < |records| ensures '\n' !in FlatLines(records)[k] {
      FlatLineFree(records[k]);
    }
    Markdown.TableTextLines(FlatLine(header), FlatLine(separator), FlatLines(records));
  }

  lemma FlatLineFree(cells: seq<string>)
    requires |cells| > 0 && CellsFree(cells)
    ensures '\n' !in FlatLine(cells)
  {
    Markdown.PipeLineFree(cells[0], cells[1..]);
  }

  // ---- summary ----

  /** `ModuleTableRecord`: a module's row of the summary table. */
  datatype ModuleRow = ModuleRow(
    name: string, version: string, testResult: string, testPassed: string, testFailed: string,
    testElapsed: string, lintResult: string)

  function ModuleCells(r: ModuleRow): seq<string>
  {
    [r.name, r.version, r.testResult, r.testPassed, r.testFailed, r.testElapsed, r.lintResult]
  }

  const SummaryHeader := ["Module", "Version", "Test", "Passed", "Failed", "Time", "Lint"]
  const SummarySeparator := [":-----", "------:", ":---", "-----:", "-----:", "---:", ":---"]

  /** The last test row with the given path cell; the map keeps the last one set. */
  function LastTestRow(rows: seq<DataViews.GotestsumRow>, key: string): (r: Option<DataViews.GotestsumRow>)
    ensures r.Some? ==> r.value in rows && r.value.path == key
    ensures r.None? <==> forall k :: 0 <= k < |rows| ==> rows[k].path != key
  {
    if |rows| == 0 then None
    else if rows[|rows| - 1].path == key then Some(rows[|rows| - 1])
    else LastTestRow(rows[..|rows| - 1], key)
  }

  /** The result cell of the last lint row with the given path cell. */
  function LastLintResult(rows: seq<DataViews.GolangCILintRow>, key: string): (r: Option<string>)
    ensures r.None? <==> forall k :: 0 <= k < |rows| ==> rows[k].path != key
    ensures r.Some? ==> exists k :: 0 <= k < |rows| && rows[k].path == key && rows[k].result == r.value
  {
    if |rows| == 0 then None
    else if rows[|rows| - 1].path == key then Some(rows[|rows| - 1].result)
    else LastLintResult(rows[..|rows| - 1], key)
  }

  /** The summary row of a path cell: the fields of its last test row, or '-' without
      one, and the result of its last lint row, or '-' without one. */
  function MergedRow(tests: seq<DataViews.GotestsumRow>, lints: seq<DataViews.GolangCILintRow>, key: string): ModuleRow
  {
    var lint := LastLintResult(lints, key).GetOr(Undefined);
    match LastTestRow(tests, key)
    case Some(t) => ModuleRow(key, t.version, t.result, t.passed, t.failed, t.time, lint)
    case None => ModuleRow(key, Undefined, Undefined, Undefined, Undefined, Undefined, lint)
  }

  /** A test-only row has '-' as lint result; a path with both keeps the test fields and
      takes the lint result; a lint-only row has '-' in every test column. */
  lemma MergedRowCases(tests: seq<DataViews.GotestsumRow>, lints: seq<DataViews.GolangCILintRow>, key: string)
    ensures var r := MergedRow(tests, lints, key);
      && r.name == key
      && ((forall k :: 0 <= k < |lints| ==> lints[k].path != key) ==> r.lintResult == Undefined)
      && ((exists k :: 0 <= k < |lints| && lints[k].path == key) ==>
            exists k :: 0 <= k < |lints| && lints[k].path == key && r.lintResult == lints[k].result)
      && ((exists k :: 0 <= k < |tests| && tests[k].path == key) ==>
            exists k :: 0 <= k < |tests| && tests[k].path == key &&
              r.version == tests[k].version && r.testResult == tests[k].result &&
              r.testPassed == tests[k].passed && r.testFailed == tests[k].failed && r.testElapsed == tests[k].time)
      && ((forall k :: 0 <= k < |tests| ==> tests[k].path != key) ==>
            r.version == Undefined && r.testResult == Undefined && r.testPassed == Undefined &&
            r.testFailed == Undefined && r.testElapsed == Undefined)
  {
    var t := LastTestRow(tests, key);
    if t.Some? {
      var k :| 0 <= k < |tests| && tests[k] == t.value;
    }
  }

  function TestPaths(rows: seq<DataViews.GotestsumRow>): seq<string>
  {
    Seqs.Map((r: DataViews.GotestsumRow) => r.path, rows)
  }

  function LintPaths(rows: seq<DataViews.GolangCILintRow>): seq<string>
  {
    Seqs.Map((r: DataViews.GolangCILintRow) => r.path, rows)
  }

  /** The keys of the summary map in insertion order. */
  function SummaryKeys(tests: seq<DataViews.GotestsumRow>, lints: seq<DataViews.GolangCILintRow>): seq<string>
  {
    Seqs.Distinct(TestPaths(tests) + LintPaths(lints))
  }

  /** There is one key per distinct path cell: the test paths first in order of first
      occurrence, then the lint paths no test row has. */
  lemma SummaryKeysOrder(tests: seq<DataViews.GotestsumRow>, lints: seq<DataViews.GolangCILintRow>)
    ensures var keys := SummaryKeys(tests, lints);
      && keys == Seqs.Distinct(TestPaths(tests)) + Seqs.Distinct(Seqs.Without(LintPaths(lints), TestPaths(tests)))
      && (forall p :: p in keys <==> p in TestPaths(tests) || p in LintPaths(lints))
      && (forall i, j :: 0 <= i < j < |keys| ==> keys[i] != keys[j])
  {
    Seqs.DistinctConcat(TestPaths(tests), LintPaths(lints));
    Seqs.DistinctSpec(TestPaths(tests) + LintPaths(lints));
  }

  /** The `forEach` loops of `summary()` that fill the map of module rows: test rows
      first, then lint rows, each merged into the row of its path. */
  method FillSummary(tests: seq<DataViews.GotestsumRow>, lints: seq<DataViews.GolangCILintRow>)
    returns (keys: seq<string>, records: map<string, ModuleRow>)
    ensures keys == SummaryKeys(tests, lints)
    ensures forall p :: p in records <==> p in keys
    ensures forall p :: p in records ==> records[p] == MergedRow(tests, lints, p)
  {
    keys, records := FillTests(tests);
    keys, records := FillLints(tests, lints, keys, records);
  }

  /** The first loop: every test row sets the row of its path. */
  method FillTests(tests: seq<DataViews.GotestsumRow>) returns (keys: seq<string>, records: map<string, ModuleRow>)
    ensures keys == Seqs.Distinct(TestPaths(tests))
    ensures forall p :: p in records <==> p in keys
    ensures forall p :: p in records ==> records[p] == MergedRow(tests, [], p)
  {
    keys := [];
    records := map[];
    for i := 0 to |tests|
      invariant keys == Seqs.Distinct(TestPaths(tests[..i]))
      invariant forall p :: p in records <==> p in keys
      invariant forall p :: p in records ==> records[p] == MergedRow(tests[..i], [], p)
    {
      var r := tests[i];
      TestStep(tests, i);
      if r.path !in records {
        keys := keys + [r.path];
      }
      records := records[r.path := ModuleRow(r.path, r.version, r.result, r.passed, r.failed, r.time, Undefined)];
    }
    assert tests[..|tests|] == tests;
  }

  /** The second loop: every lint row sets the lint result of the row of its path,
      adding a lint-only row for a path no test row has. */
  method FillLints(tests: seq<DataViews.GotestsumRow>, lints: seq<DataViews.GolangCILintRow>,
                   keys0: seq<string>, records0: map<string, ModuleRow>)
    returns (keys: seq<string>, records: map<string, ModuleRow>)
    requires keys0 == Seqs.Distinct(TestPaths(tests))
    requires forall p :: p in records0 <==> p in keys0
    requires forall p :: p in records0 ==> records0[p] == MergedRow(tests, [], p)
    ensures keys == SummaryKeys(tests, lints)
    ensures forall p :: p in records <==> p in keys
    ensures forall p :: p in records ==> records[p] == MergedRow(tests, lints, p)
  {
    keys, records := keys0, records0;
    assert TestPaths(tests) + LintPaths(lints[..0]) == TestPaths(tests);
    for j := 0 to |lints|
      invariant keys == Seqs.Distinct(TestPaths(tests) + LintPaths(lints[..j]))
      invariant forall p :: p in records <==> p in keys
      invariant forall p :: p in records ==> records[p] == MergedRow(tests, lints[..j], p)
    {
      keys, records := SetLint(tests, lints, j, keys, records);
    }
    assert lints[..|lints|] == lints;
  }

  /** One turn of the second loop: the j-th lint row merged into the row of its path. */
  method SetLint(tests: seq<DataViews.GotestsumRow>, lints: seq<DataViews.GolangCILintRow>, j: nat,
                 keys0: seq<string>, records0: map<string, ModuleRow>)
    returns (keys: seq<string>, records: map<string, ModuleRow>)
    requires j < |lints|
    requires keys0 == Seqs.Distinct(TestPaths(tests) + LintPaths(lints[..j]))
    requires forall p :: p in records0 <==> p in keys0
    requires forall p :: p in records0 ==> records0[p] == MergedRow(tests, lints[..j], p)
    ensures keys == Seqs.Distinct(TestPaths(tests) + LintPaths(lints[..j + 1]))
    ensures forall p :: p in records <==> p in keys
    ensures forall p :: p in records ==> records[p] == MergedRow(tests, lints[..j + 1], p)
  {
    var r := lints[j];
    LintStep(tests, lints, j);
    if r.path in records0 {
      keys := keys0;
      records := records0[r.path := records0[r.path].(lintResult := r.result)];
    } else {
      keys := keys0 + [r.path];
      records := records0[r.path := ModuleRow(r.path, Undefined, Undefined, Undefined, Undefined, Undefined, r.result)];
    }
  }

  /** Setting the i-th test row: its path is a new key iff no earlier row had it, and
      its row is the test-only row of that test. */
  lemma TestStep(tests: seq<DataViews.GotestsumRow>, i: nat)
    requires i < |tests|
    ensures var r := tests[i];
      && Seqs.Distinct(TestPaths(tests[..i + 1])) ==
           (if r.path in Seqs.Distinct(TestPaths(tests[..i])) then Seqs.Distinct(TestPaths(tests[..i]))
            else Seqs.Distinct(TestPaths(tests[..i])) + [r.path])
      && (forall p :: p in Seqs.Distinct(TestPaths(tests[..i + 1])) <==>
            p in Seqs.Distinct(TestPaths(tests[..i])) || p == r.path)
      && MergedRow(tests[..i + 1], [], r.path) == ModuleRow(r.path, r.version, r.result, r.passed, r.failed, r.time, Undefined)
      && forall p :: p != r.path ==> MergedRow(tests[..i + 1], [], p) == MergedRow(tests[..i], [], p)
  {
    assert tests[..i + 1][..i] == tests[..i];
    assert TestPaths(tests[..i + 1]) == TestPaths(tests[..i]) + [tests[i].path];
    assert (TestPaths(tests[..i]) + [tests[i].path])[..i] == TestPaths(tests[..i]);
    Seqs.DistinctSpec(TestPaths(tests[..i]));
    Seqs.DistinctSpec(TestPaths(tests[..i + 1]));
  }

  /** Setting the j-th lint row: its path is a new key iff no test row or earlier lint
      row had it, and its row takes its result. */
  lemma LintStep(tests: seq<DataViews.GotestsumRow>, lints: seq<DataViews.GolangCILintRow>, j: nat)
    requires j < |lints|
    ensures var r := lints[j]; var before := TestPaths(tests) + LintPaths(lints[..j]);
      && Seqs.Distinct(TestPaths(tests) + LintPaths(lints[..j + 1])) ==
           (if r.path in Seqs.Distinct(before) then Seqs.Distinct(before) else Seqs.Distinct(before) + [r.path])
      && (forall p :: p in Seqs.Distinct(TestPaths(tests) + LintPaths(lints[..j + 1])) <==>
            p in Seqs.Distinct(before) || p == r.path)
      && MergedRow(tests, lints[..j + 1], r.path) == MergedRow(tests, lints[..j], r.path).(lintResult := r.result)
      && (r.path !in Seqs.Distinct(before) ==>
            MergedRow(tests, lints[..j + 1], r.path) == ModuleRow(r.path, Undefined, Undefined, Undefined, Undefined, Undefined, r.result))
      && forall p :: p != r.path ==> MergedRow(tests, lints[..j + 1], p) == MergedRow(tests, lints[..j], p)
  {
    LintKeysStep(tests, lints, j);
    LintRowStep(tests, lints, j);
    var before := TestPaths(tests) + LintPaths(lints[..j]);
    if lints[j].path !in Seqs.Distinct(before) {
      Seqs.DistinctSpec(before);
      assert lints[j].path !in TestPaths(tests);
      assert forall k :: 0 <= k < |tests| ==> tests[k].path == TestPaths(tests)[k];
    }
  }

  lemma LintKeysStep(tests: seq<DataViews.GotestsumRow>, lints: seq<DataViews.GolangCILintRow>, j: nat)
    requires j < |lints|
    ensures var r := lints[j]; var before := TestPaths(tests) + LintPaths(lints[..j]);
      && Seqs.Distinct(TestPaths(tests) + LintPaths(lints[..j + 1])) ==
           (if r.path in Seqs.Distinct(before) then Seqs.Distinct(before) else Seqs.Distinct(before) + [r.path])
      && (forall p :: p in Seqs.Distinct(TestPaths(tests) + LintPaths(lints[..j + 1])) <==>
            p in Seqs.Distinct(before) || p == r.path)
  {
    var before := TestPaths(tests) + LintPaths(lints[..j]);
    var after := TestPaths(tests) + LintPaths(lints[..j + 1]);
    assert lints[..j + 1][..j] == lints[..j];
    assert LintPaths(lints[..j + 1]) == LintPaths(lints[..j]) + [lints[j].path];
    assert after == before + [lints[j].path];
    assert after[..|after| - 1] == before;
    Seqs.DistinctSpec(before);
    Seqs.DistinctSpec(after);
  }

  lemma LintRowStep(tests: seq<DataViews.GotestsumRow>, lints: seq<DataViews.GolangCILintRow>, j: nat)
    requires j < |lints|
    ensures var r := lints[j];
      && MergedRow(tests, lints[..j + 1], r.path) == MergedRow(tests, lints[..j], r.path).(lintResult := r.result)
      && forall p :: p != r.path ==> MergedRow(tests, lints[..j + 1], p) == MergedRow(tests, lints[..j], p)
  {
    assert lints[..j + 1][..j] == lints[..j];
  }

  function TestRows(tests: seq<TestDirReport>, context: GitHubContext): (rows: seq<DataViews.GotestsumRow>)
    ensures |rows| == |tests|
  {
    Seqs.Map((d: TestDirReport) => DataViews.RenderGotestsum(d.path, d.summary, context.owner, context.repo, context.sha), tests)
  }

  function LintRows(lints: seq<LintDirReport>, context: GitHubContext): (rows: seq<DataViews.GolangCILintRow>)
    ensures |rows| == |lints|
  {
    Seqs.Map((d: LintDirReport) => DataViews.RenderGolangCILint(d.path, d.result, context.owner, context.repo, context.sha), lints)
  }

  /** The summary table's text: one merged row per key, in key order. */
  function SummaryText(tests: seq<TestDirReport>, lints: seq<LintDirReport>, context: GitHubContext): string
  {
    var testRows := TestRows(tests, context);
    var lintRows := LintRows(lints, context);
    var keys := SummaryKeys(testRows, lintRows);
    RenderFlat(SummaryHeader, SummarySeparator,
      seq(|keys|, k requires 0 <= k < |keys| => ModuleCells(MergedRow(testRows, lintRows, keys[k]))))
  }

  /** `summary(context)` */
  method Summary(tests: seq<TestDirReport>, lints: seq<LintDirReport>, context: GitHubContext) returns (s: string)
    ensures s == SummaryText(tests, lints, context)
  {
    var testRows := TestRows(tests, context);
    var lintRows := LintRows(lints, context);
    var keys, records := FillSummary(testRows, lintRows);
    var values := seq(|keys|, k requires 0 <= k < |keys| && keys[k] in records => ModuleCells(records[keys[k]]));
    assert values == seq(|keys|, k requires 0 <= k < |keys| => ModuleCells(MergedRow(testRows, lintRows, keys[k])));
    s := RenderFlat(SummaryHeader, SummarySeparator, values);
  }

  /** The summary is '' iff there are neither test nor lint reports. */
  lemma SummaryTextEmpty(tests: seq<TestDirReport>, lints: seq<LintDirReport>, context: GitHubContext)
    ensures SummaryText(tests, lints, context) == "" <==> |tests| == 0 && |lints| == 0
  {
    var testRows := TestRows(tests, context);
    var lintRows := LintRows(lints, context);
    var paths := TestPaths(testRows) + LintPaths(lintRows);
    Seqs.DistinctSpec(paths);
    if |paths| > 0 {
      assert paths[0] in Seqs.Distinct(paths);
    }
  }

  // ---- failures and annotations ----

  /** A failure with the path of the report it came from. */
  datatype Located = Located(path: string, failure: DataViews.Failure)

  function Locate(path: string, failures: seq<DataViews.Failure>): seq<Located>
  {
    Seqs.Map((f: DataViews.Failure) => Located(path, f), failures)
  }

  /** The failures of the test reports, then those of the lint reports, in order. */
  function AllFailures(tests: seq<TestDirReport>, lints: seq<LintDirReport>): seq<Located>
  {
    Seqs.Flatten(Seqs.Map((d: TestDirReport) => Locate(d.path, d.failures), tests)) +
    Seqs.Flatten(Seqs.Map((d: LintDirReport) => Locate(d.path, d.failures), lints))
  }

  function RenderLocated(l: Located, context: GitHubContext): DataViews.FailureRow
  {
    DataViews.RenderFailure(l.path, l.failure, context.owner, context.repo, context.sha)
  }

  /** The rendered failures of `[tests, lints].flat().map(...).flat()`. */
  function FailureRows(tests: seq<TestDirReport>, lints: seq<LintDirReport>, context: GitHubContext): seq<DataViews.FailureRow>
  {
    Seqs.Flatten(Seqs.Map((d: TestDirReport) =>
        Seqs.Map((f: DataViews.Failure) => DataViews.RenderFailure(d.path, f, context.owner, context.repo, context.sha), d.failures), tests)) +
    Seqs.Flatten(Seqs.Map((d: LintDirReport) =>
        Seqs.Map((f: DataViews.Failure) => DataViews.RenderFailure(d.path, f, context.owner, context.repo, context.sha), d.failures), lints))
  }

  function FailureCells(r: DataViews.FailureRow): seq<string>
  {
    [r.file, r.kind, r.test, r.message]
  }

  const FailureHeader := ["File", "Type", "Case", "Message"]
  const FailureSeparator := [":---", ":---", ":---", ":------"]

  /** The row standing for the failures beyond the limit. */
  function OverflowRow(hidden: nat): DataViews.FailureRow
  {
    DataViews.FailureRow(FailureTables.OverflowMessage(hidden), Undefined, Undefined, Undefined)
  }

  /** The first `limit` rows, and an overflow row counting the rest when there are more. */
  function Limited(rows: seq<DataViews.FailureRow>, limit: nat): seq<DataViews.FailureRow>
  {
    rows[..FailureTables.Min(limit, |rows|)] + (if |rows| > limit then [OverflowRow(|rows| - limit)] else [])
  }

  /** The limited rows are the first min(limit, n) rows unchanged, followed by exactly one
      overflow row counting the n - limit others iff there are more than limit. */
  lemma LimitedSpec(rows: seq<DataViews.FailureRow>, limit: nat)
    ensures var l := Limited(rows, limit); var n := |rows|;
      && |l| == (if n > limit then limit + 1 else n)
      && l[..FailureTables.Min(limit, n)] == rows[..FailureTables.Min(limit, n)]
      && (n > limit ==> l[limit] == OverflowRow(n - limit))
      && (n <= limit ==> l == rows)
  {
  }

  function FailuresText(tests: seq<TestDirReport>, lints: seq<LintDirReport>, context: GitHubContext, limit: nat): string
  {
    var limited := Limited(FailureRows(tests, lints, context), limit);
    RenderFlat(FailureHeader, FailureSeparator, Seqs.Map(FailureCells, limited))
  }

  /** `failures(context, limit)`: slices the rendered failures and pushes the overflow row. */
  method Failures(tests: seq<TestDirReport>, lints: seq<LintDirReport>, context: GitHubContext, limit: nat)
    returns (s: string)
    ensures s == FailuresText(tests, lints, context, limit)
  {
    var failures := FailureRows(tests, lints, context);
    var limited := failures[..FailureTables.Min(limit, |failures|)];
    if |failures| > limit {
      limited := limited + [OverflowRow(|failures| - limit)];
    }
    assert limited == Limited(failures, limit);
    s := RenderFlat(FailureHeader, FailureSeparator, Seqs.Map(FailureCells, limited));
  }

  /** The failure table is '' iff no report has a failure. */
  lemma FailuresTextEmpty(tests: seq<TestDirReport>, lints: seq<LintDirReport>, context: GitHubContext, limit: nat)
    ensures FailuresText(tests, lints, context, limit) == "" <==> |FailureRows(tests, lints, context)| == 0
  {
    LimitedSpec(FailureRows(tests, lints, context), limit);
  }

  /** The body of the annotation of each failure of the given reports, in order. */
  function DirAnnotations(path: string, failures: seq<DataViews.Failure>): seq<string>
  {
    Seqs.Map((f: DataViews.Failure) => DataViews.RenderAnnotation(path, f).body, failures)
  }

  /** `annotations()`: the test reports' annotations, then the lint reports'. */
  function Annotations(tests: seq<TestDirReport>, lints: seq<LintDirReport>): seq<string>
  {
    Seqs.Flatten(Seqs.Map((d: TestDirReport) => DirAnnotations(d.path, d.failures), tests)) +
    Seqs.Flatten(Seqs.Map((d: LintDirReport) => DirAnnotations(d.path, d.failures), lints))
  }

  /** The failure rows and the annotations follow the same list of failures: the k-th
      row and the k-th annotation both render the k-th failure, test failures first. */
  lemma FailuresAndAnnotations(tests: seq<TestDirReport>, lints: seq<LintDirReport>, context: GitHubContext)
    ensures var all := AllFailures(tests, lints);
      && FailureRows(tests, lints, context) == Seqs.Map((l: Located) => RenderLocated(l, context), all)
      && Annotations(tests, lints) == Seqs.Map((l: Located) => DataViews.RenderAnnotation(l.path, l.failure).body, all)
  {
    var row := (l: Located) => RenderLocated(l, context);
    var ann := (l: Located) => DataViews.RenderAnnotation(l.path, l.failure).body;
    var lt := Seqs.Map((d: TestDirReport) => Locate(d.path, d.failures), tests);
    var ll := Seqs.Map((d: LintDirReport) => Locate(d.path, d.failures), lints);
    Seqs.MapConcat(row, Seqs.Flatten(lt), Seqs.Flatten(ll));
    Seqs.MapConcat(ann, Seqs.Flatten(lt), Seqs.Flatten(ll));
    Seqs.MapFlatten(row, lt);
    Seqs.MapFlatten(row, ll);
    Seqs.MapFlatten(ann, lt);
    Seqs.MapFlatten(ann, ll);
    forall i | 0 <= i < |tests|
      ensures Seqs.Map(row, lt[i]) == Seqs.Map((f: DataViews.Failure) =>
        DataViews.RenderFailure(tests[i].path, f, context.owner, context.repo, context.sha), tests[i].failures)
      ensures Seqs.Map(ann, lt[i]) == DirAnnotations(tests[i].path, tests[i].failures)
    {
    }
    forall i | 0 <= i < |lints|
      ensures Seqs.Map(row, ll[i]) == Seqs.Map((f: DataViews.Failure) =>
        DataViews.RenderFailure(lints[i].path, f, context.owner, context.repo, context.sha), lints[i].failures)
      ensures Seqs.Map(ann, ll[i]) == DirAnnotations(lints[i].path, lints[i].failures)
    {
    }
    assert Seqs.Map(xs => Seqs.Map(row, xs), lt) == Seqs.Map((d: TestDirReport) =>
        Seqs.Map((f: DataViews.Failure) => DataViews.RenderFailure(d.path, f, context.owner, context.repo, context.sha), d.failures), tests);
    assert Seqs.Map(xs => Seqs.Map(row, xs), ll) == Seqs.Map((d: LintDirReport) =>
        Seqs.Map((f: DataViews.Failure) => DataViews.RenderFailure(d.path, f, context.owner, context.repo, context.sha), d.failures), lints);
    assert Seqs.Map(xs => Seqs.Map(ann, xs), lt) == Seqs.Map((d: TestDirReport) => DirAnnotations(d.path, d.failures), tests);
    assert Seqs.Map(xs => Seqs.Map(ann, xs), ll) == Seqs.Map((d: LintDirReport) => DirAnnotations(d.path, d.failures), lints);
  }
}

=== FILE: composer_factory.dfy ===
/** `TableSetFactory` of src/composer/factory.ts, the composer generation: the same
    aggregation as src/table/factory.ts over the composer tables, with the failure
    table kept untyped. Its `multi` left-joins the groups' failure tables, which drops
    the failures of every group but the first; `MultiAsWritten` models that, `Multi`
    appends the failure rows instead. */
module ComposerFactories {
  import opened Wrappers
  import opened Types
  import Seqs
  import Reports
  import TypedTables
  import UntypedTables
  import BaseTables
  import SummaryTables
  import FailureTables
  import Outcomes
  import TableFactories

  /** An `XmlFileGroup` of this generation (it has no title), with the reporters made
      for its directories in directory order. */
  datatype XmlFileGroup = XmlFileGroup(kind: ReporterType, reporters: seq<TableFactories.Reporter>)

  /** `TableSet`, whose failure table is untyped. */
  datatype TableSet = TableSet(
    result: Result, summary: UntypedTables.Table, failures: UntypedTables.Table, annotations: seq<string>)

  predicate GroupMatches(g: XmlFileGroup)
  {
    TableFactories.Matches(g.kind, TableFactories.Summaries(g.reporters))
  }

  /** The summary table: the golangci-lint table iff the group is golangci-lint,
      otherwise the gotestsum table, as an untyped table that passes the constructor's
      checks, one row per reporter in order. */
  function SummaryTable(g: XmlFileGroup): (r: UntypedTables.Table)
    requires GroupMatches(g)
    ensures r.Valid() && r.Rows() == |g.reporters|
    ensures r.header.values == (if g.kind == GolangCILint then [Some("Result")]
      else [Some("Version"), Some("Result"), Some("Passed"), Some("Failed"), Some("Time")])
    ensures forall k :: 0 <= k < |g.reporters| ==> r.records[k].index == g.reporters[k].summary.Index()
  {
    var summaries := TableFactories.Summaries(g.reporters);
    if g.kind == GolangCILint then BaseTables.ToUntyped(SummaryTables.ComposerGolangCILintTable(TableFactories.LintReports(summaries)))
    else BaseTables.ToUntyped(SummaryTables.ComposerGotestsumTable(TableFactories.TestReports(summaries)))
  }

  /** `new FailureTable(failures).toTable().toUntyped()` with the default limit: the
      File/Type/Case/Message header over the first ten failures, each as its index and
      its record's type, test and message, then one overflow row counting the rest when
      there are more than ten. */
  function FailureTableOf(failures: seq<Reports.FailureReport>): (r: UntypedTables.Table)
    ensures r.Valid() && r.Columns() == 3
    ensures r.header == UntypedTables.Row("File", [Some("Type"), Some("Case"), Some("Message")])
    ensures r.Rows() == (if |failures| > 10 then 11 else |failures|)
    ensures forall k :: 0 <= k < |failures| && k < 10 ==>
      r.records[k] == UntypedTables.Row(failures[k].index, Reports.FailureValues(failures[k].record))
    ensures |failures| > 10 ==>
      r.records[10] == UntypedTables.Row("-", [Some("-"), Some("-"), Some(FailureTables.OverflowMessage(|failures| - 10))])
  {
    var t := TypedTables.Table(FailureTables.Header, FailureTables.ComposerSeparator, FailureTables.ReportRows(failures));
    var cut := FailureTables.Truncated(t, FailureTables.DefaultLimit);
    FailureTables.TruncatedSpec(t, FailureTables.DefaultLimit);
    TruncatedWellFormed(t, FailureTables.DefaultLimit);
    FailureTables.TruncatedRecords(t, FailureTables.DefaultLimit);
    BaseTables.ToUntyped(cut)
  }

  /** Truncating a failure table keeps every row three cells wide. */
  lemma TruncatedWellFormed(t: TypedTables.Table, limit: nat)
    requires BaseTables.WellFormed(t) && |t.header.values| == 3
    ensures BaseTables.WellFormed(FailureTables.Truncated(t, limit))
  {
    var r := FailureTables.Truncated(t, limit);
    forall k | 0 <= k < |r.records| ensures |r.records[k].values| == 3 {
      if k < FailureTables.Min(limit, |t.records|) {
        assert r.records[k] == t.records[k];
      }
    }
  }

  /** `single(context, group)` */
  function Single(g: XmlFileGroup): (s: TableSet)
    requires GroupMatches(g)
    ensures s.failures.Valid() && s.summary.Valid()
  {
    var failures := TableFactories.Failures(g.reporters);
    TableSet(
      Outcomes.ToResult(TableFactories.Results(g.reporters)),
      SummaryTable(g),
      FailureTableOf(failures),
      Outcomes.Annotations(failures))
  }

  /** `single` fails iff some reporter failed; its summary is the group's summary table;
      its failure table and its annotations come from the same flattened failure list:
      one annotation per failure, in order, and the first ten table rows are the first
      ten failures, followed by one overflow row when there are more. */
  lemma SingleSpec(g: XmlFileGroup)
    requires GroupMatches(g)
    ensures var s := Single(g); var fs := TableFactories.Failures(g.reporters); var n := |fs|;
      && (s.result == Failed <==> exists k :: 0 <= k < |g.reporters| && g.reporters[k].result == Failed)
      && s.summary == SummaryTable(g)
      && s.annotations == Outcomes.Annotations(fs)
      && |s.annotations| == n
      && s.failures.Rows() == (if n > 10 then 11 else n)
      && (forall k :: 0 <= k < n && k < 10 ==>
            s.failures.records[k] == UntypedTables.Row(fs[k].index, Reports.FailureValues(fs[k].record))
            && s.annotations[k] == fs[k].annotation.record.body)
  {
    if Single(g).result == Failed {
      var k :| 0 <= k < |g.reporters| && TableFactories.Results(g.reporters)[k] == Failed;
    }
  }

  function Singles(groups: seq<XmlFileGroup>): (sets: seq<TableSet>)
    requires forall i :: 0 <= i < |groups| ==> GroupMatches(groups[i])
    ensures |sets| == |groups| && forall i :: 0 <= i < |groups| ==> sets[i] == Single(groups[i])
  {
    seq(|groups|, i requires 0 <= i < |groups| && GroupMatches(groups[i]) => Single(groups[i]))
  }

  function SetResults(sets: seq<TableSet>): seq<Result>
  {
    seq(|sets|, i requires 0 <= i < |sets| => sets[i].result)
  }

  function SetSummaries(sets: seq<TableSet>): seq<UntypedTables.Table>
  {
    seq(|sets|, i requires 0 <= i < |sets| => sets[i].summary)
  }

  function SetFailures(sets: seq<TableSet>): seq<UntypedTables.Table>
  {
    seq(|sets|, i requires 0 <= i < |sets| => sets[i].failures)
  }

  function SetAnnotations(sets: seq<TableSet>): seq<seq<string>>
  {
    seq(|sets|, i requires 0 <= i < |sets| => sets[i].annotations)
  }

  /** The records of the tables, table by table. */
  function SetRecords(tables: seq<UntypedTables.Table>): seq<seq<UntypedTables.Row>>
  {
    seq(|tables|, i requires 0 <= i < |tables| => tables[i].records)
  }

  /** The first table's header and separator over the records of all the tables. */
  function Appended(t: UntypedTables.Table, others: seq<UntypedTables.Table>): (r: UntypedTables.Table)
    ensures r.header == t.header && r.separator == t.separator
    ensures |r.records| >= |t.records| && r.records[..|t.records|] == t.records
  {
    UntypedTables.Table(t.header, t.separator, t.records + Seqs.Flatten(SetRecords(others)))
  }

  /** Tables as wide as t append to a table that passes the constructor's checks. */
  lemma AppendedValid(t: UntypedTables.Table, others: seq<UntypedTables.Table>)
    requires t.Valid()
    requires forall i :: 0 <= i < |others| ==> others[i].Valid() && others[i].Columns() == t.Columns()
    ensures Appended(t, others).Valid()
  {
    var rs := Seqs.Flatten(SetRecords(others));
    forall x | x in rs ensures |x.values| == t.Columns() {
      FlattenMember(SetRecords(others), x);
    }
    var r := Appended(t, others);
    forall k | 0 <= k < |r.records| ensures |r.records[k].values| == |r.header.values| {
      if k >= |t.records| {
        assert r.records[k] == rs[k - |t.records|];
      }
    }
  }

  /** An element of a flattened list is an element of one of its blocks. */
  lemma {:induction false} FlattenMember<T>(xss: seq<seq<T>>, x: T)
    requires x in Seqs.Flatten(xss)
    ensures exists i :: 0 <= i < |xss| && x in xss[i]
  {
    var last := xss[|xss| - 1];
    if x !in last {
      FlattenMember(xss[..|xss| - 1], x);
      var i :| 0 <= i < |xss| - 1 && x in xss[..|xss| - 1][i];
      assert x in xss[i];
    }
  }

  /** The failures of each group, group by group. */
  function GroupFailures(groups: seq<XmlFileGroup>): seq<seq<Reports.FailureReport>>
  {
    seq(|groups|, i requires 0 <= i < |groups| => TableFactories.Failures(groups[i].reporters))
  }

  /** The groups' annotations together are one per failure of every group: the
      annotations of every group's failures, in group order. */
  lemma AnnotationsCount(groups: seq<XmlFileGroup>)
    requires forall i :: 0 <= i < |groups| ==> GroupMatches(groups[i])
    ensures |Seqs.Flatten(SetAnnotations(Singles(groups)))| == Seqs.TotalLength(GroupFailures(groups))
    ensures Seqs.Flatten(SetAnnotations(Singles(groups))) == Outcomes.Annotations(Seqs.Flatten(GroupFailures(groups)))
  {
    var sets := Singles(groups);
    var fss := GroupFailures(groups);
    Outcomes.AnnotationsFlatten(fss);
    assert SetAnnotations(sets) == Outcomes.AnnotationLists(fss);
    forall i | 0 <= i < |groups| ensures |SetAnnotations(sets)[i]| == |fss[i]| {
      SingleSpec(groups[i]);
    }
    Seqs.FlattenLength(SetAnnotations(sets));
    Seqs.TotalLengthEqual(SetAnnotations(sets), fss);
  }

  /** The groups' results together are Failed iff some reporter of some group failed. */
  lemma ResultsFailed(groups: seq<XmlFileGroup>)
    requires forall i :: 0 <= i < |groups| ==> GroupMatches(groups[i])
    ensures Outcomes.ToResult(SetResults(Singles(groups))) == Failed <==>
      exists i, k :: 0 <= i < |groups| && 0 <= k < |groups[i].reporters| && groups[i].reporters[k].result == Failed
  {
    var sets := Singles(groups);
    if Outcomes.ToResult(SetResults(sets)) == Failed {
      var i :| 0 <= i < |sets| && SetResults(sets)[i] == Failed;
      SingleSpec(groups[i]);
      var k :| 0 <= k < |groups[i].reporters| && groups[i].reporters[k].result == Failed;
    } else {
      forall i, k | 0 <= i < |groups| && 0 <= k < |groups[i].reporters|
        ensures groups[i].reporters[k].result != Failed
      {
        assert SetResults(sets)[i] != Failed;
        SingleSpec(groups[i]);
      }
    }
  }

  /** Each group's own summary table, in group order. */
  function GroupSummaryTables(groups: seq<XmlFileGroup>): (r: seq<UntypedTables.Table>)
    requires forall i :: 0 <= i < |groups| ==> GroupMatches(groups[i])
    ensures |r| == |groups| && forall i :: 0 <= i < |groups| ==> r[i] == SummaryTable(groups[i])
  {
    seq(|groups|, i requires 0 <= i < |groups| && GroupMatches(groups[i]) => SummaryTable(groups[i]))
  }

  /** The groups' summaries left-joined are the first group's summary table left-joined
      with every other group's, in group order; they pass the table checks and have a
      row per reporter of the first group. */
  lemma SummariesJoined(groups: seq<XmlFileGroup>)
    requires |groups| > 0
    requires forall i :: 0 <= i < |groups| ==> GroupMatches(groups[i])
    ensures var sets := Singles(groups); var j := UntypedTables.Joined(sets[0].summary, SetSummaries(sets[1..]));
      var ss := GroupSummaryTables(groups);
      && j == UntypedTables.Joined(ss[0], ss[1..])
      && j.Valid() && j.Rows() == |groups[0].reporters|
  {
    var sets := Singles(groups);
    var ss := GroupSummaryTables(groups);
    var others := SetSummaries(sets[1..]);
    assert others == ss[1..];
    UntypedTables.JoinedValid(ss[0], others);
    UntypedTables.JoinedShape(ss[0], others);
  }

  /** How `multi` combines the groups' table sets as written: the failure tables are
      left-joined by file index like the summaries. */
  function CombinedAsWritten(sets: seq<TableSet>): TableSet
    requires |sets| > 0
  {
    TableSet(
      Outcomes.ToResult(SetResults(sets)),
      UntypedTables.Joined(sets[0].summary, SetSummaries(sets[1..])),
      UntypedTables.Joined(sets[0].failures, SetFailures(sets[1..])),
      Seqs.Flatten(SetAnnotations(sets)))
  }

  /** `multi(context, groups)` as written. */
  function MultiAsWritten(groups: seq<XmlFileGroup>): (r: Option<TableSet>)
    requires forall i :: 0 <= i < |groups| ==> GroupMatches(groups[i])
    ensures r.None? <==> |groups| == 0
  {
    if |groups| == 0 then None else Some(CombinedAsWritten(Singles(groups)))
  }

  /** As written, the failure table has the rows of the first group only, while there
      is an annotation for every failure of every group: when the first group has no
      failure, the table is empty whatever failed elsewhere. */
  lemma MultiAsWrittenDropsFailures(groups: seq<XmlFileGroup>)
    requires |groups| > 0
    requires forall i :: 0 <= i < |groups| ==> GroupMatches(groups[i])
    ensures var m := MultiAsWritten(groups).value;
      && m.failures.Rows() == Single(groups[0]).failures.Rows()
      && |m.annotations| == Seqs.TotalLength(GroupFailures(groups))
      && (TableFactories.Failures(groups[0].reporters) == [] ==> m.failures.Rows() == 0)
  {
    var sets := Singles(groups);
    UntypedTables.JoinedShape(sets[0].failures, SetFailures(sets[1..]));
    AnnotationsCount(groups);
    SingleSpec(groups[0]);
  }

  /** A first group without failures followed by a group with some: as written the
      failure table is empty; appended, it has the second group's failure rows. */
  lemma LaterFailuresDropped(g0: XmlFileGroup, g1: XmlFileGroup)
    requires GroupMatches(g0) && GroupMatches(g1)
    requires TableFactories.Failures(g0.reporters) == [] && TableFactories.Failures(g1.reporters) != []
    ensures MultiAsWritten([g0, g1]).value.failures.Rows() == 0
    ensures Multi([g0, g1]).value.failures.Rows() > 0
  {
    var sets := Singles([g0, g1]);
    SingleSpec(g0);
    SingleSpec(g1);
    LaterRowsOfTwo(sets);
  }

  /** Of two table sets whose first failure table is empty and second is not, the
      joined failure table is empty and the appended one is not. */
  lemma LaterRowsOfTwo(sets: seq<TableSet>)
    requires |sets| == 2 && sets[0].failures.Rows() == 0 && sets[1].failures.Rows() > 0
    ensures CombinedAsWritten(sets).failures.Rows() == 0
    ensures Combined(sets).failures.Rows() > 0
  {
    UntypedTables.JoinedShape(sets[0].failures, SetFailures(sets[1..]));
    var rs := SetRecords(SetFailures(sets[1..]));
    assert rs == [sets[1].failures.records];
    assert Seqs.Flatten(rs) == Seqs.Flatten(rs[..0]) + rs[0];
  }

  /** How `multi` combines the groups' table sets with the failure rows appended. */
  function Combined(sets: seq<TableSet>): TableSet
    requires |sets| > 0
  {
    TableSet(
      Outcomes.ToResult(SetResults(sets)),
      UntypedTables.Joined(sets[0].summary, SetSummaries(sets[1..])),
      Appended(sets[0].failures, SetFailures(sets[1..])),
      Seqs.Flatten(SetAnnotations(sets)))
  }

  /** `multi(context, groups)` with the failure tables appended: nothing for no group;
      otherwise the first group's summary left-joined with the others', every group's
      failure rows under the first group's header, and every group's annotations in
      group order. */
  function Multi(groups: seq<XmlFileGroup>): (r: Option<TableSet>)
    requires forall i :: 0 <= i < |groups| ==> GroupMatches(groups[i])
    ensures r.None? <==> |groups| == 0
  {
    if |groups| == 0 then None else Some(Combined(Singles(groups)))
  }

  /** `multi` fails iff some reporter of some group failed; its summary is the first
      group's summary table left-joined with the others', in group order; both its tables
      pass the table checks; its summary has a row per reporter of the first group; its failure
      table keeps every group's failure rows, in group order; and it has one annotation
      per failure of every group. */
  lemma MultiSpec(groups: seq<XmlFileGroup>)
    requires |groups| > 0
    requires forall i :: 0 <= i < |groups| ==> GroupMatches(groups[i])
    ensures var m := Multi(groups).value;
      && (m.result == Failed <==>
            exists i, k :: 0 <= i < |groups| && 0 <= k < |groups[i].reporters| && groups[i].reporters[k].result == Failed)
      && m.summary == UntypedTables.Joined(GroupSummaryTables(groups)[0], GroupSummaryTables(groups)[1..])
      && m.summary.Valid() && m.summary.Rows() == |groups[0].reporters|
      && m.failures.Valid() && m.failures.Columns() == 3
      && m.failures.records == Seqs.Flatten(SetRecords(SetFailures(Singles(groups))))
      && |m.annotations| == Seqs.TotalLength(GroupFailures(groups))
      && m.annotations == Outcomes.Annotations(Seqs.Flatten(GroupFailures(groups)))
  {
    ResultsFailed(groups);
    SummariesJoined(groups);
    MultiFailures(groups);
    AnnotationsCount(groups);
  }

  /** The failure table passes the table checks, keeps three columns and holds every
      group's failure rows in group order. */
  lemma MultiFailures(groups: seq<XmlFileGroup>)
    requires |groups| > 0
    requires forall i :: 0 <= i < |groups| ==> GroupMatches(groups[i])
    ensures var m := Multi(groups).value;
      && m.failures.Valid() && m.failures.Columns() == 3
      && m.failures.records == Seqs.Flatten(SetRecords(SetFailures(Singles(groups))))
  {
    var sets := Singles(groups);
    var fs := SetFailures(sets);
    assert fs[1..] == SetFailures(sets[1..]);
    FailureTablesValid(groups);
    AppendedAll(fs);
    assert Multi(groups).value.failures == Appended(fs[0], fs[1..]);
  }

  lemma FailureTablesValid(groups: seq<XmlFileGroup>)
    requires forall i :: 0 <= i < |groups| ==> GroupMatches(groups[i])
    ensures var fs := SetFailures(Singles(groups));
      forall i :: 0 <= i < |fs| ==> fs[i].Valid() && fs[i].Columns() == 3
  {
    var fs := SetFailures(Singles(groups));
    forall i | 0 <= i < |fs| ensures fs[i].Valid() && fs[i].Columns() == 3 {
      assert fs[i] == Single(groups[i]).failures;
    }
  }

  /** Appending tables of three valid columns gives a valid table of all their rows. */
  lemma AppendedAll(fs: seq<UntypedTables.Table>)
    requires |fs| > 0
    requires forall i :: 0 <= i < |fs| ==> fs[i].Valid() && fs[i].Columns() == 3
    ensures Appended(fs[0], fs[1..]).Valid() && Appended(fs[0], fs[1..]).Columns() == 3
    ensures Appended(fs[0], fs[1..]).records == Seqs.Flatten(SetRecords(fs))
  {
    AppendedValid(fs[0], fs[1..]);
    assert SetRecords(fs) == [fs[0].records] + SetRecords(fs[1..]);
    Seqs.FlattenConcat([fs[0].records], SetRecords(fs[1..]));
    assert Seqs.Flatten([fs[0].records]) == Seqs.Flatten([fs[0].records][..0]) + fs[0].records;
  }
}

=== FILE: failure_tables.dfy ===
/** The failure tables: `FailureTable` of src/table/failure.ts and of
    src/composer/failure.ts, and `toFailuresTable` of src/composer/table.ts. Each keeps the
    first `limit` failures and stands for the rest with one overflow row. */
module FailureTables {
  import opened Wrappers
  import opened Types
  import Text
  import Reports
  import TypedTables

  /** The default `limit`. */
  const DefaultLimit: nat := 10

  const Header := TypedTables.Row("File", [Some("Type"), Some("Case"), Some("Message")])

  /** The separator of src/table/failure.ts: every column left-aligned. */
  const AlignedSeparator := TypedTables.Row(AlignCell(Left),
    [Some(AlignCell(Left)), Some(AlignCell(Left)), Some(AlignCell(Left))])

  /** The separator of src/composer/failure.ts and src/composer/table.ts. */
  const ComposerSeparator := TypedTables.Row(":---", [Some(":---"), Some(":---"), Some(":------")])

  /** `{ index: report.index, values: report.record }` */
  function ReportRow(r: Reports.FailureReport): TypedTables.Row
  {
    TypedTables.Row(r.index, Reports.FailureValues(r.record))
  }

  function ReportRows(reports: seq<Reports.FailureReport>): (rows: seq<TypedTables.Row>)
    ensures |rows| == |reports|
    ensures forall k :: 0 <= k < |reports| ==> rows[k] == ReportRow(reports[k])
  {
    seq(|reports|, k requires 0 <= k < |reports| => ReportRow(reports[k]))
  }

  /** `:warning: and ${hidden} more...` */
  function OverflowMessage(hidden: nat): string
  {
    ":warning: and " + Text.NatToString(hidden) + " more..."
  }

  /** The row standing for `hidden` failures beyond the limit. */
  function OverflowRow(hidden: nat): TypedTables.Row
  {
    TypedTables.Row("-", [Some("-"), Some("-"), Some(OverflowMessage(hidden))])
  }

  function Min(a: nat, b: nat): nat
  {
    if a < b then a else b
  }

  /** The table t cut to its first `limit` records, with an overflow row naming how many
      were cut when there were more. */
  function Truncated(t: TypedTables.Table, limit: nat): TypedTables.Table
  {
    var n := |t.records|;
    TypedTables.Table(t.header, t.separator,
      t.records[..Min(limit, n)] + (if n > limit then [OverflowRow(n - limit)] else []))
  }

  /** The truncated table keeps the header, the separator and the first min(limit, n)
      records unchanged; it has limit + 1 rows, the last one the overflow row counting
      the n - limit cut records, when n > limit, and all n records otherwise. */
  lemma TruncatedSpec(t: TypedTables.Table, limit: nat)
    ensures var r := Truncated(t, limit); var n := t.Rows();
      && r.header == t.header && r.separator == t.separator
      && r.Rows() == (if n > limit then limit + 1 else n)
      && r.records[..Min(limit, n)] == t.records[..Min(limit, n)]
      && (n > limit ==> r.records[limit] == OverflowRow(n - limit))
      && (n <= limit ==> r.records == t.records)
  {
  }

  /** Each record the truncation keeps is the original record at the same place. */
  lemma TruncatedRecords(t: TypedTables.Table, limit: nat)
    ensures forall k :: 0 <= k < Min(limit, t.Rows()) ==> Truncated(t, limit).records[k] == t.records[k]
  {
    var r := Truncated(t, limit);
    forall k | 0 <= k < Min(limit, t.Rows()) ensures r.records[k] == t.records[k] {
      assert r.records[k] == r.records[..Min(limit, t.Rows())][k];
    }
  }

  /** The overflow row's count reads back from its message. */
  lemma OverflowCount(hidden: nat)
    ensures var m := OverflowMessage(hidden);
      && m[..14] == ":warning: and "
      && Text.Decimal(m[14..]) == hidden
  {
    var digits := Text.NatToString(hidden);
    var m := OverflowMessage(hidden);
    assert m[14..] == digits + " more...";
    Text.LeadingDigitsOfDigits(digits);
    LeadingDigitsStop(digits, " more...");
  }

  lemma {:induction false} LeadingDigitsStop(digits: string, rest: string)
    requires Text.AllDigits(digits)
    requires |rest| > 0 && !Text.IsDigit(rest[0])
    ensures Text.LeadingDigits(digits + rest) == digits
  {
    if |digits| > 0 {
      assert (digits + rest)[1..] == digits[1..] + rest;
      LeadingDigitsStop(digits[1..], rest);
    } else {
      assert digits + rest == rest;
    }
  }

  /** `FailureTable` of src/table/failure.ts. */
  class FailureTable {
    const table: TypedTables.Table

    /** `new FailureTable(reports)`: one row per report, in order. */
    constructor (reports: seq<Reports.FailureReport>)
      ensures table == TypedTables.Table(Header, AlignedSeparator, ReportRows(reports))
    {
      table := TypedTables.Table(Header, AlignedSeparator, ReportRows(reports));
    }

    /** `toTable(limit)`: slices the records and pushes the overflow row onto the copy. */
    method ToTable(limit: nat) returns (r: TypedTables.Table)
      ensures r == Truncated(table, limit)
    {
      var numRows := table.Rows();
      var limited := table.records[..Min(limit, numRows)];
      if numRows > limit {
        limited := limited + [OverflowRow(numRows - limit)];
      }
      r := TypedTables.Table(table.header, table.separator, limited);
    }
  }

  /** `FailureTable` of src/composer/failure.ts. */
  class ComposerFailureTable {
    const table: TypedTables.Table

    /** `new FailureTable(reports)`: one row per report, in order. */
    constructor (reports: seq<Reports.FailureReport>)
      ensures table == TypedTables.Table(Header, ComposerSeparator, ReportRows(reports))
    {
      table := TypedTables.Table(Header, ComposerSeparator, ReportRows(reports));
    }

    /** `toTable(limit)`: slices the records and pushes the overflow row onto the copy.
        src/composer/failure.ts repeats the method of src/table/failure.ts word for word,
        so this is the same method as `FailureTable.ToTable`; the two classes differ only
        in their separator. */
    method ToTable(limit: nat) returns (r: TypedTables.Table)
      ensures r == Truncated(table, limit)
    {
      var numRows := table.Rows();
      var limited := table.records[..Min(limit, numRows)];
      if numRows > limit {
        limited := limited + [OverflowRow(numRows - limit)];
      }
      r := TypedTables.Table(table.header, table.separator, limited);
    }
  }

  /** `TableComposerImpl.toFailuresTable(reports, limit)` of src/composer/table.ts: slices
      the reports, maps them to rows and pushes the overflow row. It builds the same
      table as the composer `FailureTable` over the same reports. */
  method ToFailuresTable(reports: seq<Reports.FailureReport>, limit: nat) returns (r: TypedTables.Table)
    ensures r == Truncated(TypedTables.Table(Header, ComposerSeparator, ReportRows(reports)), limit)
    ensures r.Rows() == (if |reports| > limit then limit + 1 else |reports|)
  {
    var limited := ReportRows(reports[..Min(limit, |reports|)]);
    if |reports| > limit {
      limited := limited + [OverflowRow(|reports| - limit)];
    }
    r := TypedTables.Table(Header, ComposerSeparator, limited);
    assert ReportRows(reports[..Min(limit, |reports|)]) == ReportRows(reports)[..Min(limit, |reports|)];
  }
}

=== FILE: go_module.dfy ===
/** `Module`: one Go module of the repository with its gotestsum report and, when there is
    one, its golangci-lint report, and the table records and annotations it contributes
    (src/module.ts). The reports are the `JUnitReport` readings of src/junit/type.ts. */
module GoModules {
  import opened Wrappers
  import opened Types
  import Text
  import Seqs
  import Paths
  import Reports
  import DataViews
  import Outcomes

  /** `TestCase` of src/junit/type.ts: where a failure is, relative to its module. */
  datatype TestCase = TestCase(subDir: string, file: string, line: nat, test: string, message: string)

  /** What a `JUnitReport` reads as; a time is the text `toFixed(1)` gives. */
  datatype JunitReading = JunitReading(
    result: Result, tests: nat, passed: int, failed: int, skipped: nat,
    time: Option<string>, version: Option<string>, failures: seq<TestCase>)

  datatype Module = Module(directory: string, testReport: JunitReading, lintReport: Option<JunitReading>)

  /** `ModuleTableRecord` */
  datatype ModuleTableRecord = ModuleTableRecord(
    name: string, version: string, testResult: string, testPassed: string, testFailed: string,
    testElapsed: string, lintResult: string)

  /** `FailedTestTableRecord` and `FailedLintTableRecord`, which have the same fields. */
  datatype FailedTableRecord = FailedTableRecord(file: string, test: string, message: string)

  /** `hasLintReport` */
  predicate HasLintReport(m: Module)
  {
    m.lintReport.Some?
  }

  /** The results of the module's reports: the test report's, then the lint report's. */
  function ReportResults(m: Module): seq<Result>
  {
    [m.testReport.result] + (if HasLintReport(m) then [m.lintReport.value.result] else [])
  }

  /** `result`: Failed when either report failed, Passed otherwise. */
  function ModuleResult(m: Module): (r: Result)
    ensures r == Failed <==>
      m.testReport.result == Failed || (HasLintReport(m) && m.lintReport.value.result == Failed)
    ensures r == Passed <==>
      m.testReport.result != Failed && (HasLintReport(m) ==> m.lintReport.value.result != Failed)
  {
    if m.testReport.result == Failed || (m.lintReport.Some? && m.lintReport.value.result == Failed)
    then Failed
    else Passed
  }

  /** A module's result is the verdict over its reports, as the table factories compute it. */
  lemma ModuleResultIsVerdict(m: Module)
    ensures ModuleResult(m) == Outcomes.ToResult(ReportResults(m))
  {
    assert Failed in ReportResults(m) <==>
      m.testReport.result == Failed || (HasLintReport(m) && m.lintReport.value.result == Failed);
  }

  /** `makeModuleTableRecord`: the module as a link to its directory at the commit, the
      test report's version, result, counts and time, and the lint report's result, '-'
      without one. */
  function MakeModuleTableRecord(m: Module, owner: string, repo: string, sha: string): (r: ModuleTableRecord)
    ensures r.name == DataViews.PathLink(m.directory, owner, repo, sha)
    ensures r.version == "-" <==> m.testReport.version.None? || m.testReport.version == Some("-")
    ensures r.testResult == Reports.FailedMark <==> m.testReport.result == Failed
    ensures r.testResult == Reports.PassedMark <==> m.testReport.result != Failed
    ensures Text.SignedDecimal(r.testPassed) == m.testReport.passed
    ensures Text.SignedDecimal(r.testFailed) == m.testReport.failed
    ensures r.testElapsed == "-" <==> m.testReport.time.None?
    ensures r.lintResult == "-" <==> !HasLintReport(m)
    ensures r.lintResult == Reports.FailedMark <==> HasLintReport(m) && m.lintReport.value.result == Failed
  {
    var t := m.testReport;
    Text.SignedDecimalIntToString(t.passed);
    Text.SignedDecimalIntToString(t.failed);
    ModuleTableRecord(
      DataViews.PathLink(m.directory, owner, repo, sha),
      t.version.GetOr("-"),
      Reports.ResultMark(t.result),
      Text.IntToString(t.passed),
      Text.IntToString(t.failed),
      Reports.TimeCell(t.time),
      if m.lintReport.None? then "-" else Reports.ResultMark(m.lintReport.value.result))
  }

  /** The module's record shows the cells of the summary views of its two reports. */
  lemma ModuleRecordAsSummaryViews(m: Module, owner: string, repo: string, sha: string)
    ensures var t := m.testReport;
      var r := MakeModuleTableRecord(m, owner, repo, sha);
      var v := DataViews.RenderGotestsum(
        m.directory, DataViews.GotestsumSummary(t.result, t.passed, t.failed, t.version, t.time), owner, repo, sha);
      && r.name == v.path && r.version == v.version && r.testResult == v.result
      && r.testPassed == v.passed && r.testFailed == v.failed && r.testElapsed == v.time
    ensures HasLintReport(m) ==>
      MakeModuleTableRecord(m, owner, repo, sha).lintResult
        == DataViews.RenderGolangCILint(m.directory, m.lintReport.value.result, owner, repo, sha).result
  {
  }

  /** A failure as the data views read it. */
  function AsFailure(c: TestCase, kind: ReporterType): DataViews.Failure
  {
    DataViews.Failure(c.subDir, c.file, c.line, c.test, c.message, kind)
  }

  /** The record of one failure: a link titled with its location to that line of the
      file at the commit, the test, and the message on one line. */
  function FailedRecord(directory: string, c: TestCase, owner: string, repo: string, sha: string): FailedTableRecord
  {
    var fullPath := Paths.JoinPaths([directory, c.subDir, c.file]);
    var fileTitle := Location(fullPath, c.line);
    var fileLink := BlobUrl(owner, repo, sha, fullPath) + "#L" + Text.NatToString(c.line);
    FailedTableRecord(MarkdownLink(fileTitle, fileLink), c.test, Text.ReplaceNewlines(c.message))
  }

  /** A failure's record holds the cells of its failure view. */
  predicate ShowsView(r: FailedTableRecord, v: DataViews.FailureRow)
  {
    r.file == v.file && r.test == v.test && r.message == v.message
  }

  /** `makeFailedTestTableRecords`: one record per failure of the test report, in order,
      each showing what the failure view shows. */
  function MakeFailedTestTableRecords(m: Module, owner: string, repo: string, sha: string)
    : (r: seq<FailedTableRecord>)
    ensures |r| == |m.testReport.failures|
    ensures forall i :: 0 <= i < |r| ==>
      ShowsView(r[i], DataViews.RenderFailure(m.directory, AsFailure(m.testReport.failures[i], Gotestsum), owner, repo, sha))
  {
    Seqs.Map((c: TestCase) => FailedRecord(m.directory, c, owner, repo, sha), m.testReport.failures)
  }

  /** `makeFailedLintTableRecords`: none without a lint report; otherwise one record per
      failure of the lint report, in order, each showing what the failure view shows. */
  function MakeFailedLintTableRecords(m: Module, owner: string, repo: string, sha: string)
    : (r: seq<FailedTableRecord>)
    ensures !HasLintReport(m) ==> r == []
    ensures HasLintReport(m) ==> |r| == |m.lintReport.value.failures|
    ensures HasLintReport(m) ==> forall i :: 0 <= i < |r| ==>
      ShowsView(r[i], DataViews.RenderFailure(
        m.directory, AsFailure(m.lintReport.value.failures[i], GolangCILint), owner, repo, sha))
  {
    match m.lintReport
    case None => []
    case Some(lint) => Seqs.Map((c: TestCase) => FailedRecord(m.directory, c, owner, repo, sha), lint.failures)
  }

  /** `makeAnnotationMessages`: one `::error` command per failure of the test report, in
      order, the message verbatim; the lint report's failures are not annotated. */
  function MakeAnnotationMessages(m: Module): (r: seq<string>)
    ensures |r| == |m.testReport.failures|
    ensures forall i :: 0 <= i < |r| ==>
      r[i] == DataViews.RenderAnnotation(m.directory, AsFailure(m.testReport.failures[i], Gotestsum)).body
  {
    Seqs.Map((c: TestCase) =>
      "::error file=" + Paths.JoinPaths([m.directory, c.subDir, c.file]) + ",line=" + Text.NatToString(c.line)
        + "::" + c.message,
      m.testReport.failures)
  }
}

=== FILE: gotestsum_report.dfy ===
/** `GotestsumReport`: the later reading of a gotestsum JUnit report as a `Reportable`
    (src/junit/gotestsum.ts), next to the reporter generation it replaced. */
module GotestsumReports {
  import opened Wrappers
  import opened Types
  import Text
  import Paths
  import opened JunitXml
  import Readings
  import JunitTestCases
  import GotestsumReporters

  /** A report read from the file at path. */
  datatype GotestsumReport = GotestsumReport(path: string, junit: Report)

  /** `unknown(path)`: the report of a directory without a report file, `{ testsuites: {} }`. */
  function UnknownReport(path: string): (rep: GotestsumReport)
    ensures rep.path == path && rep.junit.testsuites.attrs.None? && rep.junit.testsuites.testsuite.None?
  {
    GotestsumReport(path, Report(TestSuites(None, None)))
  }

  function Tests(rep: GotestsumReport): nat
  {
    Readings.Count(rep.junit.testsuites.attrs, Readings.TestsCount)
  }

  function Failed(rep: GotestsumReport): nat
  {
    Readings.Count(rep.junit.testsuites.attrs, Readings.FailuresCount)
  }

  function Skipped(rep: GotestsumReport): nat
  {
    Readings.Count(rep.junit.testsuites.attrs, Readings.SkippedCount)
  }

  /** `passed`: the tests that did not fail, negative when the attributes count more
      failures than tests. */
  function Passed(rep: GotestsumReport): (n: int)
    ensures n + Failed(rep) == Tests(rep)
    ensures n >= 0 <==> Failed(rep) <= Tests(rep)
  {
    Tests(rep) - Failed(rep)
  }

  /** `version`: absent when no suite has a `go.version` property; otherwise the version
      they agree on, or an error when they disagree or the value names no version. */
  function Version(rep: GotestsumReport): (r: Fallible<Option<string>>)
    ensures var values := Readings.VersionValues(rep.junit.testsuites.testsuite);
      r == Ok(None) <==> values == []
    ensures var values := Readings.VersionValues(rep.junit.testsuites.testsuite);
      r.Ok? && r.value.Some? <==>
        values != [] && Readings.AllSame(values) && GoVersionMatch(values[0]).Some?
    ensures var values := Readings.VersionValues(rep.junit.testsuites.testsuite);
      r.Ok? && r.value.Some? ==> forall i :: 0 <= i < |values| ==> GoVersionMatch(values[i]) == r.value
    ensures var values := Readings.VersionValues(rep.junit.testsuites.testsuite);
      values != [] && r.Throws? ==> r.message == Readings.SingleGoVersion(values).message
  {
    var values := Readings.VersionValues(rep.junit.testsuites.testsuite);
    if values == [] then Ok(None)
    else
      match Readings.SingleGoVersion(values)
      case Throws(m) => Throws(m)
      case Ok(v) => Ok(Some(v))
  }

  /** `failures`: the located failing test cases, in the report's directory. */
  function Failures(rep: GotestsumReport, matcher: Matcher): (r: seq<JunitTestCases.TestCase>)
    ensures forall t :: t in r ==> t.moduleDir == Paths.Directory(rep.path) && JunitTestCases.Located(t)
  {
    JunitTestCases.Failures(Paths.Directory(rep.path), matcher, rep.junit.testsuites.testsuite)
  }

  /** The unknown report reads as Unknown, with no tests, no version and no failures. */
  lemma UnknownReadings(path: string, matcher: Matcher)
    ensures var rep := UnknownReport(path);
      && Readings.AttrsResult(rep.junit.testsuites.attrs) == Unknown
      && Tests(rep) == 0 && Failed(rep) == 0 && Skipped(rep) == 0 && Passed(rep) == 0
      && Version(rep) == Ok(None) && Failures(rep, matcher) == []
  {
    assert Readings.VersionValues(None) == [];
  }

  /** The two generations count passed tests alike, except for a report that counts
      failures but no tests: the reporter says 0 passed, this report a negative number. */
  lemma PassedGenerations(path: string, junit: Report)
    ensures var reporter := GotestsumReporters.Reporter(path, junit);
      var report := GotestsumReport(path, junit);
      GotestsumReporters.Passed(reporter) != Passed(report) <==> Tests(report) == 0 && Failed(report) > 0
  {
  }

  /** The two generations read the same version from a report with `go.version`
      properties; without any, the reporter raises where this report has none. */
  lemma VersionGenerations(path: string, junit: Report)
    ensures var reporter := GotestsumReporters.Reporter(path, junit);
      var report := GotestsumReport(path, junit);
      var values := Readings.VersionValues(junit.testsuites.testsuite);
      && (values != [] ==> GotestsumReporters.Version(reporter) == Version(report))
      && (values == [] && junit.testsuites.testsuite.Some? && junit.testsuites.testsuite.value != [] ==>
            GotestsumReporters.Version(reporter).Throws? && Version(report) == Ok(None))
  {
    var suites := junit.testsuites.testsuite;
    if suites.None? || suites.value == [] {
      assert Readings.VersionValues(suites) == [];
    }
  }
}

=== FILE: gotestsum_reporter.dfy ===
/** `GotestsumReporterImpl`: the reading of one module's gotestsum JUnit report into a
    summary and failure reports (src/reporter/gotestsum.ts). The failure expression
    `.+\s*([\w\d]+_test.go):(\d+):.+` is the `matcher` parameter. */
module GotestsumReporters {
  import opened Wrappers
  import opened Types
  import Text
  import Seqs
  import opened JunitXml
  import Readings
  import Reports

  /** A reporter for the report found in a module directory. */
  datatype Reporter = Reporter(path: string, junit: Report)

  /** The failure report made from a match in a failure text of test case c: the file and
      the line are the two groups and the message is the whole match. */
  function MatchReport(path: string, c: TestCase, m: RegexMatch): Reports.FailureReportImpl
  {
    Reports.FailureReportImpl(Gotestsum, path, c.classname, m.group1, Text.Decimal(m.group2), c.name, m.whole)
  }

  /** Failure report f comes from failure element fl of test case c: fl has a text and
      the expression matches it. */
  predicate FromText(path: string, matcher: Matcher, f: Reports.FailureReportImpl, c: TestCase, fl: JunitXml.Failure)
  {
    fl.text.Some? && matcher(fl.text.value).Some? && f == MatchReport(path, c, matcher(fl.text.value).value)
  }

  /** `failure.map(f => f._?.match(regex) ?? null).filter(m => m !== null).map(…)` for
      the failure elements of test case c. */
  function TextReports(path: string, matcher: Matcher, c: TestCase, fs: seq<JunitXml.Failure>)
    : (r: seq<Reports.FailureReportImpl>)
    ensures |r| <= |fs|
    ensures forall f :: f in r <==> exists fl :: fl in fs && FromText(path, matcher, f, c, fl)
  {
    if |fs| == 0 then []
    else
      var rest := TextReports(path, matcher, c, fs[1..]);
      assert forall fl :: fl in fs <==> fl == fs[0] || fl in fs[1..];
      var first := fs[0].text.Some? && matcher(fs[0].text.value).Some?;
      var r := if first then [MatchReport(path, c, matcher(fs[0].text.value).value)] + rest else rest;
      assert forall f :: f in r <==> exists fl :: fl in fs && FromText(path, matcher, f, c, fl) by {
        forall f ensures f in r <==> exists fl :: fl in fs && FromText(path, matcher, f, c, fl) {
          if first && f == r[0] {
            assert FromText(path, matcher, f, c, fs[0]);
          }
        }
      }
      r
  }

  /** The reports of each case in turn. */
  function CaseReports(path: string, matcher: Matcher, cases: seq<TestCase>): (r: seq<Reports.FailureReportImpl>)
    ensures forall f :: f in r <==>
      exists c, fl :: c in cases && fl in c.failure.GetOr([]) && FromText(path, matcher, f, c, fl)
  {
    if |cases| == 0 then []
    else
      assert forall c :: c in cases <==> c == cases[0] || c in cases[1..];
      TextReports(path, matcher, cases[0], cases[0].failure.GetOr([])) + CaseReports(path, matcher, cases[1..])
  }

  /** The reports of earlier test cases come first. */
  lemma {:induction false} CaseReportsConcat(path: string, matcher: Matcher, a: seq<TestCase>, b: seq<TestCase>)
    ensures CaseReports(path, matcher, a + b) == CaseReports(path, matcher, a) + CaseReports(path, matcher, b)
  {
    if |a| > 0 {
      assert (a + b)[1..] == a[1..] + b;
      CaseReportsConcat(path, matcher, a[1..], b);
    } else {
      assert a + b == b;
    }
  }

  /** The failing test cases of the report, suite by suite. */
  function Failing(rep: Reporter): seq<TestCase>
  {
    match rep.junit.testsuites.testsuite
    case None => []
    case Some(suites) => FailingCases(suites)
  }

  /** `failures`: one report per failure text the expression matches, none without a
      suite list; each names the module, the test case's classname as sub-directory and
      its name, and the file, line and text of the match. */
  function Failures(rep: Reporter, matcher: Matcher): (r: seq<Reports.FailureReportImpl>)
    ensures rep.junit.testsuites.testsuite.None? ==> r == []
    ensures forall f :: f in r <==>
      exists c, fl :: c in Failing(rep) && fl in c.failure.GetOr([]) && FromText(rep.path, matcher, f, c, fl)
    ensures forall f :: f in r ==> f.kind == Gotestsum && f.moduleDir == rep.path
  {
    match rep.junit.testsuites.testsuite
    case None => []
    case Some(suites) =>
      FailingCasesFlatFirst(suites);
      CaseReports(rep.path, matcher, JunitXml.Failing(Seqs.Flatten(MapCases(suites))))
  }

  /** `tests`, from the top-level attribute, 0 without it. */
  function Tests(rep: Reporter): nat
  {
    Readings.Count(rep.junit.testsuites.attrs, Readings.TestsCount)
  }

  /** `failed`, from the top-level attribute, 0 without it. */
  function Failed(rep: Reporter): nat
  {
    Readings.Count(rep.junit.testsuites.attrs, Readings.FailuresCount)
  }

  /** `passed`: 0 for a report without tests, otherwise the tests that did not fail. */
  function Passed(rep: Reporter): (n: int)
    ensures Tests(rep) == 0 ==> n == 0
    ensures Tests(rep) > 0 ==> n + Failed(rep) == Tests(rep)
  {
    if Tests(rep) == 0 then 0 else Tests(rep) - Failed(rep)
  }

  const VersionNotFound := "go.version property not found"

  /** `version`: absent for a report without suites; for one with suites, the version its
      `go.version` properties agree on, or an error when there is none, when they
      disagree, or when the value names no version. */
  function Version(rep: Reporter): (r: Fallible<Option<string>>)
    ensures var suites := rep.junit.testsuites.testsuite;
      r == Ok(None) <==> suites.None? || suites.value == []
    ensures var suites := rep.junit.testsuites.testsuite;
      var values := Readings.VersionValues(suites);
      suites.Some? && suites.value != [] && values == [] ==> r == Throws(VersionNotFound)
    ensures var values := Readings.VersionValues(rep.junit.testsuites.testsuite);
      r.Ok? && r.value.Some? <==>
        values != [] && Readings.AllSame(values) && GoVersionMatch(values[0]).Some?
    ensures var values := Readings.VersionValues(rep.junit.testsuites.testsuite);
      r.Ok? && r.value.Some? ==> forall i :: 0 <= i < |values| ==> GoVersionMatch(values[i]) == r.value
    ensures var values := Readings.VersionValues(rep.junit.testsuites.testsuite);
      values != [] && r.Throws? ==> r.message == Readings.SingleGoVersion(values).message
  {
    var suites := rep.junit.testsuites.testsuite;
    if suites.None? || suites.value == [] then
      assert Readings.VersionValues(suites) == [];
      Ok(None)
    else
      var values := Readings.VersionValues(suites);
      if values == [] then Throws(VersionNotFound)
      else
        match Readings.SingleGoVersion(values)
        case Throws(m) => Throws(m)
        case Ok(v) => Ok(Some(v))
  }

  /** `time`: the top-level attribute, kept as text. */
  function Time(rep: Reporter): Option<string>
  {
    match rep.junit.testsuites.attrs
    case None => None
    case Some(a) => Some(a.time)
  }

  /** `summary`: the module's row, which fails exactly when reading the version fails. */
  function Summary(rep: Reporter): (r: Fallible<Reports.GotestsumReportImpl>)
    ensures r.Ok? <==> Version(rep).Ok?
    ensures r.Throws? ==> r.message == Version(rep).message
    ensures r.Ok? ==> r.value.moduleDir == rep.path && r.value.version == Version(rep).value
    ensures r.Ok? ==> r.value.result == Readings.AttrsResult(rep.junit.testsuites.attrs)
    ensures r.Ok? ==> r.value.passed == Passed(rep) && r.value.failed == Failed(rep)
  {
    match Version(rep)
    case Throws(m) => Throws(m)
    case Ok(v) =>
      Ok(Reports.GotestsumReportImpl(
        rep.path, Readings.AttrsResult(rep.junit.testsuites.attrs), Passed(rep), Failed(rep), v, Time(rep)))
  }
}

=== FILE: input.dfy ===
/** The decisions of src/main/input.ts on the action's raw inputs: the reporter type of
    each config entry, the pull-request number and the commit sha. Reading the inputs,
    the YAML and schema parsing of the config and the event payload are not modelled:
    the functions take the parsed entries, the raw strings and the payload's values. */
module Inputs {
  import opened Wrappers
  import opened Types
  import Text

  /** A config entry after parsing: its type as written, its directories and its report
      file name. */
  datatype ConfigEntry = ConfigEntry(kind: string, directories: seq<string>, fileName: string)

  /** The file group `getConfig` returns for an entry. */
  datatype FileGroup = FileGroup(kind: ReporterType, directories: seq<string>, fileName: string)

  const TypeError := "Invalid reporter type: "
  const ConfigError := "Invalid config: Error: "

  /** The type names the switch accepts. */
  predicate Known(kind: string)
  {
    kind == "gotestsum" || kind == "golangci-lint"
  }

  /** The switch on `c.type`: the reporter type whose name is written, or the error for
      any other name. */
  function ParseType(kind: string): (r: Fallible<ReporterType>)
    ensures r.Ok? <==> Known(kind)
    ensures r.Ok? ==> ReporterTypeName(r.value) == kind
    ensures r.Throws? ==> r.message == TypeError + kind
  {
    match kind
    case "gotestsum" => Ok(Gotestsum)
    case "golangci-lint" => Ok(GolangCILint)
    case _ => Throws(TypeError + kind)
  }

  /** Every reporter type is read back from its name. */
  lemma ParseTypeName(t: ReporterType)
    ensures ParseType(ReporterTypeName(t)) == Ok(t)
  {
  }

  /** The position of the first entry with an unknown type, |entries| when there is none. */
  function FirstUnknown(entries: seq<ConfigEntry>): (k: nat)
    ensures k <= |entries|
    ensures forall j :: 0 <= j < k ==> Known(entries[j].kind)
    ensures k < |entries| ==> !Known(entries[k].kind)
  {
    if |entries| == 0 then 0
    else if !Known(entries[0].kind) then 0
    else 1 + FirstUnknown(entries[1..])
  }

  /** `Object.values(config).map(…)`: one group per entry, in order, with its type read
      from its name and its directories and file name copied; the error of the first
      entry with an unknown type. */
  function Groups(entries: seq<ConfigEntry>): (r: Fallible<seq<FileGroup>>)
    ensures r.Ok? <==> forall k :: 0 <= k < |entries| ==> Known(entries[k].kind)
    ensures r.Ok? ==> |r.value| == |entries|
    ensures r.Ok? ==> forall k :: 0 <= k < |entries| ==>
      && ReporterTypeName(r.value[k].kind) == entries[k].kind
      && r.value[k].directories == entries[k].directories
      && r.value[k].fileName == entries[k].fileName
    ensures r.Throws? ==>
      FirstUnknown(entries) < |entries| && r.message == TypeError + entries[FirstUnknown(entries)].kind
  {
    if |entries| == 0 then Ok([])
    else
      var e := entries[0];
      match ParseType(e.kind)
      case Throws(m) => Throws(m)
      case Ok(t) =>
        match Groups(entries[1..])
        case Throws(m) => Throws(m)
        case Ok(rest) => Ok([FileGroup(t, e.directories, e.fileName)] + rest)
  }

  /** `getConfig` after parsing: the groups, or the error rewrapped as an invalid config. */
  function Config(entries: seq<ConfigEntry>): (r: Fallible<seq<FileGroup>>)
    ensures r.Ok? <==> forall k :: 0 <= k < |entries| ==> Known(entries[k].kind)
    ensures r.Ok? ==> r == Groups(entries)
    ensures r.Throws? ==>
      FirstUnknown(entries) < |entries|
      && r.message == ConfigError + (TypeError + entries[FirstUnknown(entries)].kind)
  {
    match Groups(entries)
    case Ok(groups) => Ok(groups)
    case Throws(m) => Throws(ConfigError + m)
  }

  const NotANumber := "`pull-request-number` must be a number"

  /** `getPullRequestNumber`: the event's pull-request number (possibly absent) for an
      empty input; the value of an input of decimal digits; an error for anything else. */
  function PullRequestNumber(raw: string, eventNumber: Option<nat>): (r: Fallible<Option<nat>>)
    ensures raw == "" ==> r == Ok(eventNumber)
    ensures raw != "" ==> (r.Ok? <==> Text.AllDigits(raw))
    ensures raw != "" && r.Ok? ==> r.value.Some? && Text.Decimal(raw) == r.value.value
    ensures r.Throws? ==> r.message == NotANumber
  {
    if raw == "" then Ok(eventNumber)
    else if !Text.AllDigits(raw) then Throws(NotANumber)
    else
      Text.LeadingDigitsOfDigits(raw);
      Ok(Some(Text.DigitsValue(raw)))
  }

  /** A number written in decimal is read back as that number, whatever the event says. */
  lemma PullRequestNumberOfDecimal(n: nat, eventNumber: Option<nat>)
    ensures PullRequestNumber(Text.NatToString(n), eventNumber) == Ok(Some(n))
  {
    Text.DecimalNatToString(n);
  }

  /** '456' is 456; 'abc' is refused. */
  lemma PullRequestNumberExamples(eventNumber: Option<nat>)
    ensures PullRequestNumber("456", eventNumber) == Ok(Some(456))
    ensures PullRequestNumber("abc", eventNumber) == Throws(NotANumber)
  {
    assert !Text.IsDigit("abc"[0]);
    assert "456"[..2] == "45" && "45"[..1] == "4" && "4"[..0] == "";
    Text.LeadingDigitsOfDigits("456");
  }

  /** `getSha`: the input, or the context's sha when the input is empty. */
  function Sha(raw: string, contextSha: string): (sha: string)
    ensures raw != "" ==> sha == raw
    ensures raw == "" ==> sha == contextSha
  {
    if raw == "" then contextSha else raw
  }
}

=== FILE: junit_cases.dfy ===
/** The failing test cases that the JUnit report classes of src/junit/gotestsum.ts and
    src/junit/report.ts read out of a gotestsum report: one per failing test case whose
    failure text names a test file and a line. The failure expression
    `\s*([\w\d]+_test.go):(\d+):` is the `matcher` parameter. */
module JunitTestCases {
  import opened Wrappers
  import Text
  import Paths
  import JunitXml
  import Readings

  /** `TestCase` */
  datatype TestCase = TestCase(
    moduleDir: string, subDir: string, file: string, line: nat, test: string, message: string)

  /** `fullPath`: `path.join(moduleDir, subDir, file)`, which keeps exactly the names of
      its three parts, in order. */
  function FullPath(t: TestCase): (p: string)
    ensures Paths.Segments(p) == Paths.AllSegments([t.moduleDir, t.subDir, t.file])
  {
    Paths.JoinPathsSegments([t.moduleDir, t.subDir, t.file]);
    Paths.JoinPaths([t.moduleDir, t.subDir, t.file])
  }

  lemma Names(moduleDir: string, subDir: string, file: string)
    requires moduleDir == "path/to" && subDir == "foo/bar" && file == "baz_test.go"
    ensures moduleDir == Text.Join(["path", "to"], "/") && subDir == Text.Join(["foo", "bar"], "/")
    ensures Paths.IsName("path") && Paths.IsName("to") && Paths.IsName("foo") && Paths.IsName("bar")
    ensures Paths.IsName(file)
  {
    Text.JoinTwo("path", "to", "/");
    Text.JoinTwo("foo", "bar", "/");
  }

  /** path/to, foo/bar and baz_test.go join to path/to/foo/bar/baz_test.go. */
  lemma FullPathExample(moduleDir: string, subDir: string, file: string)
    requires moduleDir == "path/to" && subDir == "foo/bar" && file == "baz_test.go"
    ensures FullPath(TestCase(moduleDir, subDir, file, 1, "Test1", "message"))
         == "path" + "/" + "to" + "/" + "foo" + "/" + "bar" + "/" + "baz_test.go"
  {
    var joined := Text.Join(["path", "to", "foo", "bar", file], "/");
    assert FullPath(TestCase(moduleDir, subDir, file, 1, "Test1", "message")) == joined by {
      Names(moduleDir, subDir, file);
      Paths.FullPathOfNames(["path", "to"], ["foo", "bar"], file);
      assert ["path", "to"] + ["foo", "bar"] + [file] == ["path", "to", "foo", "bar", file];
    }
    assert joined == "path" + "/" + "to" + "/" + "foo" + "/" + "bar" + "/" + file by {
      JoinFive("path", "to", "foo", "bar", file);
    }
  }

  lemma JoinFive(a: string, b: string, c: string, d: string, e: string)
    ensures Text.Join([a, b, c, d, e], "/") == a + "/" + b + "/" + c + "/" + d + "/" + e
  {
    assert [a, b, c, d, e][1..] == [b, c, d, e];
    assert [b, c, d, e][1..] == [c, d, e];
    Text.JoinThree(c, d, e, "/");
  }

  /** A sub-directory '.' is dropped: path/to/baz_test.go. */
  lemma FullPathDotSubDirExample(moduleDir: string, file: string)
    requires moduleDir == "path/to" && file == "baz_test.go"
    ensures FullPath(TestCase(moduleDir, ".", file, 1, "Test1", "message")) == "path" + "/" + "to" + "/" + "baz_test.go"
  {
    var joined := Text.Join(["path", "to", file], "/");
    assert FullPath(TestCase(moduleDir, ".", file, 1, "Test1", "message")) == joined by {
      Names(moduleDir, "foo/bar", file);
      Paths.FullPathDotSubDir(["path", "to"], file);
      assert ["path", "to"] + [file] == ["path", "to", file];
    }
    assert joined == "path" + "/" + "to" + "/" + file by {
      Text.JoinThree("path", "to", file, "/");
    }
  }

  /** A module directory '.' is dropped: foo/bar/baz_test.go. */
  lemma FullPathDotModuleExample(subDir: string, file: string)
    requires subDir == "foo/bar" && file == "baz_test.go"
    ensures FullPath(TestCase(".", subDir, file, 1, "Test1", "message")) == "foo" + "/" + "bar" + "/" + "baz_test.go"
  {
    var joined := Text.Join(["foo", "bar", file], "/");
    assert FullPath(TestCase(".", subDir, file, 1, "Test1", "message")) == joined by {
      Text.JoinTwo("foo", "bar", "/");
      assert subDir == "foo" + "/" + "bar";
      assert Paths.IsName("foo") && Paths.IsName("bar") && Paths.IsName(file);
      Paths.FullPathDotModule(["foo", "bar"], file);
      assert ["foo", "bar"] + [file] == ["foo", "bar", file];
    }
    assert joined == "foo" + "/" + "bar" + "/" + file by {
      Text.JoinThree("foo", "bar", file, "/");
    }
  }

  /** The test case made for a failing case c: its failure texts joined as the message,
      and the file and line of the first match in that message, '' and 0 without one. */
  function Matched(directory: string, matcher: JunitXml.Matcher, c: JunitXml.TestCase): TestCase
  {
    var message := Readings.CaseMessage(c);
    var m := matcher(message);
    TestCase(
      directory, c.classname,
      if m.Some? then m.value.group1 else "",
      if m.Some? then Text.Decimal(m.value.group2) else 0,
      c.name, message)
  }

  /** The filter `testcase.file !== '' && testcase.line !== 0`. */
  predicate Located(t: TestCase)
  {
    t.file != "" && t.line != 0
  }

  /** The test case made from one failing case, when it is located. */
  function Head(directory: string, matcher: JunitXml.Matcher, c: JunitXml.TestCase): seq<TestCase>
  {
    var t := Matched(directory, matcher, c);
    if Located(t) then [t] else []
  }

  /** `cases.map(…).filter(…)`: the located test cases made from the failing cases,
      in their order. A case whose message the expression does not match is dropped. */
  function MatchedCases(directory: string, matcher: JunitXml.Matcher, cases: seq<JunitXml.TestCase>)
    : (r: seq<TestCase>)
    ensures |r| <= |cases|
    ensures forall t :: t in r ==> t.moduleDir == directory && Located(t)
  {
    if |cases| == 0 then []
    else Head(directory, matcher, cases[0]) + MatchedCases(directory, matcher, cases[1..])
  }

  /** The test cases kept are exactly the located ones made from the failing cases; a case
      whose message the expression does not match makes none. */
  lemma {:induction false} MatchedCasesMembers(
    directory: string, matcher: JunitXml.Matcher, cases: seq<JunitXml.TestCase>)
    ensures forall t :: t in MatchedCases(directory, matcher, cases) <==>
      exists c :: c in cases && t == Matched(directory, matcher, c) && Located(t)
    ensures forall c :: c in cases && matcher(Readings.CaseMessage(c)).None? ==> !Located(Matched(directory, matcher, c))
  {
    if |cases| > 0 {
      MatchedCasesMembers(directory, matcher, cases[1..]);
      assert forall c :: c in cases <==> c == cases[0] || c in cases[1..];
    }
  }

  /** The test cases of earlier failing cases come first. */
  lemma {:induction false} MatchedCasesConcat(
    directory: string, matcher: JunitXml.Matcher, a: seq<JunitXml.TestCase>, b: seq<JunitXml.TestCase>)
    ensures MatchedCases(directory, matcher, a + b)
         == MatchedCases(directory, matcher, a) + MatchedCases(directory, matcher, b)
  {
    if |a| > 0 {
      assert (a + b)[1..] == a[1..] + b;
      MatchedCasesConcat(directory, matcher, a[1..], b);
    } else {
      assert a + b == b;
    }
  }

  /** `failures`: the located test cases of the failing cases, suite by suite, each in
      the report's directory; none without a suite list. */
  function Failures(directory: string, matcher: JunitXml.Matcher, suites: Option<seq<JunitXml.TestSuite>>)
    : (r: seq<TestCase>)
    ensures suites.None? ==> r == []
    ensures suites.Some? ==> r == MatchedCases(directory, matcher, JunitXml.FailingCases(suites.value))
    ensures forall t :: t in r ==> t.moduleDir == directory && Located(t)
  {
    match suites
    case None => []
    case Some(ss) => MatchedCases(directory, matcher, JunitXml.FailingCases(ss))
  }
}

=== FILE: junit_report.dfy ===
/** `JunitReport`: the earliest `Reportable` reading of a gotestsum JUnit report
    (src/junit/report.ts), which requires the top-level attribute block. */
module JunitReports {
  import opened Wrappers
  import opened Types
  import Text
  import Paths
  import opened JunitXml
  import Readings
  import JunitTestCases
  import GotestsumReports

  /** A report read from the file at path: its attributes, which this reading assumes
      present, and its suites. */
  datatype JunitReport = JunitReport(path: string, attrs: SuitesAttrs, testsuite: Option<seq<TestSuite>>)

  /** `result`: Failed when `failures` is not '0', Skipped when `skipped` is present and
      not '0', else Passed; never Unknown. */
  function ReportResult(rep: JunitReport): (r: Result)
    ensures r != Unknown
    ensures r == Result.Failed <==> rep.attrs.failures != "0"
    ensures r == Result.Skipped <==> rep.attrs.failures == "0" && rep.attrs.skipped.Some? && rep.attrs.skipped.value != "0"
  {
    Readings.AttrsResult(Some(rep.attrs))
  }

  /** `tests`: `parseInt` of the attribute. */
  function Tests(rep: JunitReport): (n: nat)
    ensures forall k: nat {:trigger Text.NatToString(k)} :: rep.attrs.tests == Text.NatToString(k) ==> n == k
  {
    Readings.Count(Some(rep.attrs), Readings.TestsCount)
  }

  /** `failed`: `parseInt` of the attribute. */
  function Failed(rep: JunitReport): (n: nat)
    ensures forall k: nat {:trigger Text.NatToString(k)} :: rep.attrs.failures == Text.NatToString(k) ==> n == k
  {
    Readings.Count(Some(rep.attrs), Readings.FailuresCount)
  }

  /** `skipped`: 0 without the attribute. */
  function Skipped(rep: JunitReport): (n: nat)
    ensures rep.attrs.skipped.None? ==> n == 0
    ensures forall k: nat {:trigger Text.NatToString(k)} :: rep.attrs.skipped == Some(Text.NatToString(k)) ==> n == k
  {
    Readings.Count(Some(rep.attrs), Readings.SkippedCount)
  }

  /** `passed`: the tests that did not fail. */
  function Passed(rep: JunitReport): (n: int)
    ensures n + Failed(rep) == Tests(rep)
  {
    Tests(rep) - Failed(rep)
  }

  /** `failures`: the located failing test cases, in the report's directory. */
  function Failures(rep: JunitReport, matcher: Matcher): (r: seq<JunitTestCases.TestCase>)
    ensures rep.testsuite.None? ==> r == []
    ensures forall t :: t in r ==> t.moduleDir == Paths.Directory(rep.path) && JunitTestCases.Located(t)
  {
    JunitTestCases.Failures(Paths.Directory(rep.path), matcher, rep.testsuite)
  }

  /** The later `GotestsumReport` reads a report that has attributes exactly as this one
      does: the same result, counts and failures. */
  lemma SameAsGotestsumReport(rep: JunitReport, matcher: Matcher)
    ensures var later := GotestsumReports.GotestsumReport(rep.path, Report(TestSuites(Some(rep.attrs), rep.testsuite)));
      && ReportResult(rep) == Readings.AttrsResult(later.junit.testsuites.attrs)
      && Tests(rep) == GotestsumReports.Tests(later) && Failed(rep) == GotestsumReports.Failed(later)
      && Skipped(rep) == GotestsumReports.Skipped(later) && Passed(rep) == GotestsumReports.Passed(later)
      && Failures(rep, matcher) == GotestsumReports.Failures(later, matcher)
  {
  }
}

=== FILE: junit_xml.dfy ===
/** The JUnit XML document as the XML reader hands it over (attributes under `$`,
    text under `_`), and the regular-expression matches the reports take apart. */
module JunitXml {
  import opened Wrappers
  import Seqs
  import Text

  datatype SuitesAttrs = SuitesAttrs(
    tests: string, errors: string, failures: string, skipped: Option<string>, time: string)

  datatype SuiteAttrs = SuiteAttrs(
    name: string, tests: string, errors: Option<string>, failures: string,
    skipped: Option<string>, time: Option<string>, timestamp: Option<string>)

  /** A `<property name=… value=…>` element. */
  datatype Property = Property(name: string, value: string)

  /** A `<properties>` element. */
  datatype Properties = Properties(property: seq<Property>)

  /** A `<failure>` or `<skipped>` element: its message and type attributes and its text. */
  datatype Failure = Failure(message: string, kind: string, text: Option<string>)

  datatype TestCase = TestCase(
    classname: string, file: Option<string>, name: string, time: Option<string>,
    failure: Option<seq<Failure>>, skipped: Option<seq<Failure>>)

  datatype TestSuite = TestSuite(
    attrs: SuiteAttrs, testcase: Option<seq<TestCase>>, properties: Option<seq<Properties>>)

  datatype TestSuites = TestSuites(attrs: Option<SuitesAttrs>, testsuite: Option<seq<TestSuite>>)

  /** `{ testsuites: … }` */
  datatype Report = Report(testsuites: TestSuites)

  /** A match of a regular expression with two groups: `match[0]`, `match[1]`, `match[2]`. */
  datatype RegexMatch = RegexMatch(whole: string, group1: string, group2: string)

  /** `text.match(regex)` for a fixed regular expression, with None for null. */
  type Matcher = string -> Option<RegexMatch>

  /** The test cases of a suite that carry a `<failure>` element. */
  function FailingCasesOf(suite: TestSuite): (r: seq<TestCase>)
    ensures forall c :: c in r <==> c in suite.testcase.GetOr([]) && c.failure.Some?
  {
    Failing(suite.testcase.GetOr([]))
  }

  /** `cases.filter(testcase => testcase.failure !== undefined)` */
  function Failing(cases: seq<TestCase>): (r: seq<TestCase>)
    ensures forall c :: c in r <==> c in cases && c.failure.Some?
    ensures |r| <= |cases|
  {
    if |cases| == 0 then []
    else (if cases[0].failure.Some? then [cases[0]] else []) + Failing(cases[1..])
  }

  function MapFailingCases(suites: seq<TestSuite>): seq<seq<TestCase>>
  {
    seq(|suites|, i requires 0 <= i < |suites| => FailingCasesOf(suites[i]))
  }

  function MapCases(suites: seq<TestSuite>): seq<seq<TestCase>>
  {
    seq(|suites|, i requires 0 <= i < |suites| => suites[i].testcase.GetOr([]))
  }

  /** `suites.map(suite => suite.testcase?.filter(c => c.failure !== undefined) ?? []).flat()`:
      the failing test cases, suite by suite. */
  function FailingCases(suites: seq<TestSuite>): seq<TestCase>
  {
    Seqs.Flatten(MapFailingCases(suites))
  }

  lemma {:induction false} FailingFlatten(xss: seq<seq<TestCase>>)
    ensures Failing(Seqs.Flatten(xss))
         == Seqs.Flatten(seq(|xss|, i requires 0 <= i < |xss| => Failing(xss[i])))
    decreases |xss|
  {
    if |xss| > 0 {
      var init := xss[..|xss| - 1];
      FailingFlatten(init);
      FailingConcat(Seqs.Flatten(init), xss[|xss| - 1]);
      var fs := seq(|xss|, i requires 0 <= i < |xss| => Failing(xss[i]));
      assert fs[..|fs| - 1] == seq(|init|, i requires 0 <= i < |init| => Failing(init[i]));
    }
  }

  lemma {:induction false} FailingConcat(a: seq<TestCase>, b: seq<TestCase>)
    ensures Failing(a + b) == Failing(a) + Failing(b)
  {
    if |a| > 0 {
      assert (a + b)[1..] == a[1..] + b;
      FailingConcat(a[1..], b);
    } else {
      assert a + b == b;
    }
  }

  /** Filtering failing cases suite by suite or after flattening all cases gives the
      same list: the two orders the reports use agree. */
  lemma FailingCasesFlatFirst(suites: seq<TestSuite>)
    ensures FailingCases(suites) == Failing(Seqs.Flatten(MapCases(suites)))
  {
    var xss := MapCases(suites);
    FailingFlatten(xss);
    var fs := seq(|xss|, i requires 0 <= i < |xss| => Failing(xss[i]));
    assert forall i :: 0 <= i < |fs| ==> fs[i] == MapFailingCases(suites)[i];
    assert fs == MapFailingCases(suites);
  }

  /** The properties of all suites, in document order. */
  function AllProperties(suites: seq<TestSuite>): seq<Property>
  {
    if |suites| == 0 then []
    else PropertiesOf(suites[0].properties.GetOr([])) + AllProperties(suites[1..])
  }

  function PropertiesOf(ps: seq<Properties>): seq<Property>
  {
    if |ps| == 0 then [] else ps[0].property + PropertiesOf(ps[1..])
  }

  /** The values of the `go.version` properties, in document order. */
  function GoVersionValues(props: seq<Property>): (r: seq<string>)
    ensures forall v :: v in r <==> exists p :: p in props && p.name == "go.version" && p.value == v
  {
    if |props| == 0 then []
    else
      var rest := GoVersionValues(props[1..]);
      assert forall p :: p in props <==> p == props[0] || p in props[1..];
      if props[0].name == "go.version" then [props[0].value] + rest else rest
  }

  predicate IsVersionChar(c: char)
  {
    Text.IsDigit(c) || c == '.'
  }

  /** `[\w\d/]` */
  predicate IsWordOrSlash(c: char)
  {
    ('a' <= c <= 'z') || ('A' <= c <= 'Z') || Text.IsDigit(c) || c == '_' || c == '/'
  }

  /** The longest run of `[\d.]` s starts with. */
  function VersionRun(s: string): (r: string)
    ensures |r| <= |s| && r == s[..|r|]
    ensures forall i :: 0 <= i < |r| ==> IsVersionChar(r[i])
    ensures |r| < |s| ==> !IsVersionChar(s[|r|])
  {
    if |s| == 0 || !IsVersionChar(s[0]) then "" else [s[0]] + VersionRun(s[1..])
  }

  lemma {:induction false} VersionRunOf(a: string, b: string)
    requires forall i :: 0 <= i < |a| ==> IsVersionChar(a[i])
    requires |b| > 0 && !IsVersionChar(b[0])
    ensures VersionRun(a + b) == a
  {
    if |a| > 0 {
      assert (a + b)[1..] == a[1..] + b;
      VersionRunOf(a[1..], b);
    } else {
      assert a + b == b;
    }
  }

  /** `/go([\d.]+) ([\w\d/])+/` matches at position i. Since a space is not in `[\d.]`,
      the group is the whole run of `[\d.]` after "go", followed by a space and a
      word character or slash. */
  predicate VersionAt(s: string, i: nat)
  {
    i + 2 <= |s| && s[i..i + 2] == "go" &&
    var run := VersionRun(s[i + 2..]);
    |run| >= 1 && i + 2 + |run| + 1 < |s| &&
    s[i + 2 + |run|] == ' ' && IsWordOrSlash(s[i + 2 + |run| + 1])
  }

  function FindVersionFrom(s: string, i: nat): (r: Option<nat>)
    requires i <= |s|
    ensures r.Some? ==> i <= r.value < |s| && VersionAt(s, r.value)
    ensures r.Some? ==> forall j :: i <= j < r.value ==> !VersionAt(s, j)
    ensures r.None? ==> forall j :: i <= j < |s| ==> !VersionAt(s, j)
    decreases |s| - i
  {
    if i == |s| then None
    else if VersionAt(s, i) then Some(i)
    else FindVersionFrom(s, i + 1)
  }

  /** `value.match(/go([\d.]+) ([\w\d/])+/)?.[1]`: the version in a `go.version`
      property, taken at the leftmost place the expression matches: the whole run of
      `[\d.]` after the "go" of that match. */
  function GoVersionMatch(value: string): (r: Option<string>)
    ensures r.None? <==> forall j :: 0 <= j < |value| ==> !VersionAt(value, j)
    ensures r.Some? ==> |r.value| >= 1 && forall k :: 0 <= k < |r.value| ==> IsVersionChar(r.value[k])
    ensures r.Some? ==> exists i ::
      && 0 <= i < |value| && VersionAt(value, i)
      && (forall j :: 0 <= j < i ==> !VersionAt(value, j))
      && r.value == VersionRun(value[i + 2..])
  {
    match FindVersionFrom(value, 0)
    case None => None
    case Some(i) => Some(VersionRun(value[i + 2..]))
  }

  /** A value that starts with "go", a version and a space followed by a word character
      or slash yields that version. */
  lemma GoVersionAtStart(version: string, platform: string)
    requires |version| >= 1 && forall i :: 0 <= i < |version| ==> IsVersionChar(version[i])
    requires |platform| >= 2 && platform[0] == ' ' && IsWordOrSlash(platform[1])
    ensures GoVersionMatch("go" + version + platform) == Some(version)
  {
    var s := "go" + version + platform;
    assert s[2..] == version + platform;
    assert VersionRun(s[2..]) == version by {
      VersionRunOf(version, platform);
    }
    assert FindVersionFrom(s, 0) == Some(0) by {
      assert s[0..2] == "go";
      assert s[2 + |version|] == platform[0] && s[2 + |version| + 1] == platform[1];
      assert VersionAt(s, 0);
    }
  }

  /** The property written by `go test -json` on Linux yields the bare version. */
  lemma GoVersionExample()
    ensures GoVersionMatch("go" + "1.23.2" + " linux/amd64") == Some("1.23.2")
  {
    var version, platform := "1.23.2", " linux/amd64";
    assert forall i :: 0 <= i < |version| ==> IsVersionChar(version[i]);
    assert IsWordOrSlash(platform[1]);
    GoVersionAtStart(version, platform);
  }
}

=== FILE: lint_junit_reporter.dfy ===
/** `GolangCILintReport`: the `JUnitReport` reading of a golangci-lint JUnit report
    (src/junit/reporter/golangcilint.ts), whose failures are test cases located in the
    report's directory. */
module GolangCILintJunitReports {
  import opened Wrappers
  import opened Types
  import opened JunitXml
  import Seqs
  import Paths
  import Readings
  import JunitTestCases
  import GolangCILintParsers

  /** A report read from the file at path. */
  datatype LintReport = LintReport(path: string, junit: Report)

  function Suites(rep: LintReport): Option<seq<TestSuite>>
  {
    rep.junit.testsuites.testsuite
  }

  /** `directory`: the path without its last segment, '.' when nothing is left. */
  function Directory(rep: LintReport): (d: string)
    ensures Paths.LastSlash(rep.path).None? ==> d == "."
    ensures Paths.LastSlash(rep.path).Some? && Paths.LastSlash(rep.path).value > 0 ==>
      d == rep.path[..Paths.LastSlash(rep.path).value]
  {
    Paths.DirectoryIsDirname(rep.path);
    Paths.Directory(rep.path)
  }

  /** `result`: Passed exactly when there are no suites, since golangci-lint writes
      suites only for findings. */
  function ReportResult(rep: LintReport): (r: Result)
    ensures r == Result.Passed <==> Suites(rep).None?
    ensures r == Result.Failed <==> Suites(rep).Some?
  {
    Readings.LintResult(Suites(rep))
  }

  function Tests(rep: LintReport): nat
  {
    Readings.Sum(Suites(rep), Readings.TestsCount)
  }

  function Failed(rep: LintReport): nat
  {
    Readings.Sum(Suites(rep), Readings.FailuresCount)
  }

  function Skipped(rep: LintReport): nat
  {
    Readings.Sum(Suites(rep), Readings.SkippedCount)
  }

  /** `passed`: the tests that did not fail. */
  function Passed(rep: LintReport): (n: int)
    ensures Suites(rep).None? ==> n == 0
    ensures n + Failed(rep) == Tests(rep)
  {
    Readings.LintPassed(Suites(rep))
  }

  function ToTestCase(directory: string, f: Readings.LintFailure): JunitTestCases.TestCase
  {
    JunitTestCases.TestCase(directory, f.subDir, f.file, f.line, f.test, f.message)
  }

  /** `failures`: one test case per failing test case, in the report's directory and in
      order, each carrying what that case reads as; the error of the first case that
      does not hold exactly one failure element. */
  function Failures(rep: LintReport): (r: Fallible<seq<JunitTestCases.TestCase>>)
    ensures Suites(rep).None? ==> r == Ok([])
    ensures var cases := Readings.LintCases(Suites(rep));
      r.Ok? <==> forall i :: 0 <= i < |cases| ==> Readings.Readable(cases[i])
    ensures r.Throws? ==> r.message == Readings.LintFailures(Suites(rep)).message
    ensures r.Ok? ==> |r.value| == |Readings.LintCases(Suites(rep))|
    ensures var cases := Readings.LintCases(Suites(rep));
      r.Ok? ==> forall i :: 0 <= i < |cases| ==>
        && r.value[i].moduleDir == Directory(rep)
        && Readings.ParseLintCase(cases[i]) == Ok(Readings.LintFailure(
             r.value[i].subDir, r.value[i].file, r.value[i].line, r.value[i].test, r.value[i].message))
  {
    var d := Directory(rep);
    match Readings.LintFailures(Suites(rep))
    case Throws(m) => Throws(m)
    case Ok(fs) => Ok(Seqs.Map((f: Readings.LintFailure) => ToTestCase(d, f), fs))
  }

  /** This report and the parser of the same document agree: the same result, counts
      and failures, the parser's failures sitting in the directory it is given. */
  lemma SameAsParser(rep: LintReport, context: GitHubContext)
    ensures var p := GolangCILintParsers.Parser(context, Directory(rep), rep.junit);
      && ReportResult(rep) == GolangCILintParsers.Summary(p).result
      && Tests(rep) == GolangCILintParsers.Tests(p) && Failed(rep) == GolangCILintParsers.Failed(p)
      && Skipped(rep) == GolangCILintParsers.Skipped(p) && Passed(rep) == GolangCILintParsers.Passed(p)
      && Failures(rep).Ok? == GolangCILintParsers.Failures(p).Ok?
      && (Failures(rep).Ok? ==> |Failures(rep).value| == |GolangCILintParsers.Failures(p).value|)
      && (Failures(rep).Ok? ==> forall i :: 0 <= i < |Failures(rep).value| ==>
            (var f := GolangCILintParsers.Failures(p).value[i];
             Failures(rep).value[i] == JunitTestCases.TestCase(f.moduleDir, f.subDir, f.file, f.line, f.test, f.message)))
  {
  }
}

=== FILE: lint_parser.dfy ===
/** `GolangCILintParser`: the reading of a golangci-lint JUnit report into a summary row
    and failure reports (src/parse/golangcilint.ts). golangci-lint writes one suite per
    file with findings and one failing test case per finding. */
module GolangCILintParsers {
  import opened Wrappers
  import opened Types
  import opened JunitXml
  import Seqs
  import Readings
  import Reports

  /** A parser for the report found at path. */
  datatype Parser = Parser(context: GitHubContext, path: string, junit: Report)

  function Suites(p: Parser): Option<seq<TestSuite>>
  {
    p.junit.testsuites.testsuite
  }

  /** `summary`: the root directory's row, Passed exactly when there are no suites. */
  function Summary(p: Parser): (r: Reports.GolangCILintReportImpl)
    ensures r.rootDir == p.path
    ensures r.result == Result.Passed <==> Suites(p).None?
    ensures r.result == Result.Failed <==> Suites(p).Some?
  {
    Reports.GolangCILintReportImpl(p.path, Readings.LintResult(Suites(p)))
  }

  /** The failure report of one finding, in the parser's directory. */
  function ToReport(path: string, f: Readings.LintFailure): Reports.FailureReportImpl
  {
    Reports.FailureReportImpl(GolangCILint, path, f.subDir, f.file, f.line, f.test, f.message)
  }

  /** `failures`: one golangci-lint report per failing test case, in order, each carrying
      what that case reads as; the error of the first case that does not hold exactly
      one failure element. */
  function Failures(p: Parser): (r: Fallible<seq<Reports.FailureReportImpl>>)
    ensures Suites(p).None? ==> r == Ok([])
    ensures var cases := Readings.LintCases(Suites(p));
      r.Ok? <==> forall i :: 0 <= i < |cases| ==> Readings.Readable(cases[i])
    ensures r.Throws? ==> r.message == Readings.LintFailures(Suites(p)).message
    ensures r.Ok? ==> |r.value| == |Readings.LintCases(Suites(p))|
    ensures var cases := Readings.LintCases(Suites(p));
      r.Ok? ==> forall i :: 0 <= i < |cases| ==>
        && r.value[i].kind == GolangCILint && r.value[i].moduleDir == p.path
        && Readings.ParseLintCase(cases[i]) == Ok(Readings.LintFailure(
             r.value[i].subDir, r.value[i].file, r.value[i].line, r.value[i].test, r.value[i].message))
  {
    match Readings.LintFailures(Suites(p))
    case Throws(m) => Throws(m)
    case Ok(fs) => Ok(Seqs.Map((f: Readings.LintFailure) => ToReport(p.path, f), fs))
  }

  /** `tests`, `failed`, `skipped`: the suites' attributes summed, 0 without suites. */
  function Tests(p: Parser): nat
  {
    Readings.Sum(Suites(p), Readings.TestsCount)
  }

  function Failed(p: Parser): nat
  {
    Readings.Sum(Suites(p), Readings.FailuresCount)
  }

  function Skipped(p: Parser): nat
  {
    Readings.Sum(Suites(p), Readings.SkippedCount)
  }

  /** `passed`: the tests that did not fail, 0 without suites. */
  function Passed(p: Parser): (n: int)
    ensures Suites(p).None? ==> n == 0
    ensures n + Failed(p) == Tests(p)
  {
    Readings.LintPassed(Suites(p))
  }
}

=== FILE: lint_report.dfy ===
/** `GolangCILintReportImpl`: the later reading of a golangci-lint JUnit report into a
    summary and plain failure records (src/junit/golangcilint.ts). */
module GolangCILintReports {
  import opened Wrappers
  import opened Types
  import opened JunitXml
  import Seqs
  import Readings

  /** A report read from the file at path. */
  datatype GolangCILintReport = GolangCILintReport(path: string, junit: Report)

  /** `GolangCILintSummary` */
  datatype Summary = Summary(result: Result)

  /** `Failure`: a finding, tagged with the reporter type. */
  datatype FailureRecord = FailureRecord(
    subDir: string, file: string, line: nat, test: string, message: string, kind: ReporterType)

  function Suites(rep: GolangCILintReport): Option<seq<TestSuite>>
  {
    rep.junit.testsuites.testsuite
  }

  /** `summary`: only the result, Passed exactly when there are no suites. */
  function ReportSummary(rep: GolangCILintReport): (s: Summary)
    ensures s.result == Result.Passed <==> Suites(rep).None?
    ensures s.result == Result.Failed <==> Suites(rep).Some?
  {
    Summary(Readings.LintResult(Suites(rep)))
  }

  function ToRecord(f: Readings.LintFailure): FailureRecord
  {
    FailureRecord(f.subDir, f.file, f.line, f.test, f.message, GolangCILint)
  }

  /** `failures`: one record per failing test case, suite by suite, each carrying what
      that case reads as; the error of the first case that does not hold exactly one
      failure element. */
  function Failures(rep: GolangCILintReport): (r: Fallible<seq<FailureRecord>>)
    ensures Suites(rep).None? ==> r == Ok([])
    ensures var cases := Readings.LintCases(Suites(rep));
      r.Ok? <==> forall i :: 0 <= i < |cases| ==> Readings.Readable(cases[i])
    ensures r.Throws? ==> r.message == Readings.LintFailures(Suites(rep)).message
    ensures r.Ok? ==> |r.value| == |Readings.LintCases(Suites(rep))|
    ensures var cases := Readings.LintCases(Suites(rep));
      r.Ok? ==> forall i :: 0 <= i < |cases| ==>
        && r.value[i].kind == GolangCILint
        && Readings.ParseLintCase(cases[i]) == Ok(Readings.LintFailure(
             r.value[i].subDir, r.value[i].file, r.value[i].line, r.value[i].test, r.value[i].message))
  {
    match Readings.LintFailures(Suites(rep))
    case Throws(m) => Throws(m)
    case Ok(fs) => Ok(Seqs.Map(ToRecord, fs))
  }

  function Tests(rep: GolangCILintReport): nat
  {
    Readings.Sum(Suites(rep), Readings.TestsCount)
  }

  function Failed(rep: GolangCILintReport): nat
  {
    Readings.Sum(Suites(rep), Readings.FailuresCount)
  }

  function Skipped(rep: GolangCILintReport): nat
  {
    Readings.Sum(Suites(rep), Readings.SkippedCount)
  }

  /** `passed`: the tests that did not fail, 0 without suites. */
  function Passed(rep: GolangCILintReport): (n: int)
    ensures Suites(rep).None? ==> n == 0
    ensures n + Failed(rep) == Tests(rep)
  {
    Readings.LintPassed(Suites(rep))
  }
}

=== FILE: markdown.dfy ===
/** The GitHub Flavored Markdown pipe tables every table class renders (the Tables
    extension, section 4.10 of the GitHub Flavored Markdown Spec). */
module Markdown {
  import Text

  /** `| ${index} | ${cells.join(' | ')} |` */
  function PipeLine(index: string, cells: seq<string>): (line: string)
    ensures |line| >= 4 && line[..2] == "| " && line[|line| - 2..] == " |"
  {
    "| " + index + " | " + Text.Join(cells, " | ") + " |"
  }

  /** A line is free of line breaks when its index and cells are. */
  lemma PipeLineFree(index: string, cells: seq<string>)
    requires '\n' !in index
    requires forall k :: 0 <= k < |cells| ==> '\n' !in cells[k]
    ensures '\n' !in PipeLine(index, cells)
  {
    Text.JoinFree(cells, " | ", '\n');
  }

  /** `[header, separator, ...records].join('\n')` */
  function TableText(header: string, separator: string, records: seq<string>): string
  {
    Text.Join([header, separator] + records, "\n")
  }

  /** A rendered table has one line per record below its header and separator lines. */
  lemma TableTextLines(header: string, separator: string, records: seq<string>)
    requires '\n' !in header && '\n' !in separator
    requires forall k :: 0 <= k < |records| ==> '\n' !in records[k]
    ensures Text.Split(TableText(header, separator, records), "\n") == [header, separator] + records
    ensures |Text.Split(TableText(header, separator, records), "\n")| == |records| + 2
  {
    var lines := [header, separator] + records;
    forall k | 0 <= k < |lines| ensures '\n' !in lines[k] {
      if k >= 2 {
        assert lines[k] == records[k - 2];
      }
    }
    Text.SplitJoin(lines, '\n');
  }
}

=== FILE: markdown_report.dfy ===
/** The Markdown comment that `Repository.makeMarkdownReport` (src/repository.ts) and
    `Monorepo.makeMarkdownReport` (src/monorepo.ts) assemble: a heading linking the
    workflow run, the result line, the module table, an optional section with the
    failure table, and a footer naming the commit. Both files write the same template
    and the same failure and annotation lines; they differ in the result line and in the
    tables, which their own modules build. */
module MarkdownReports {
  import opened Types
  import Text
  import Seqs
  import Paths
  import Markdown
  import Reports
  import DataViews
  import JunitTestCases

  /** `MarkdownContext`: the repository, the commit, the pull request and the run. */
  datatype MarkdownContext = MarkdownContext(
    owner: string, repo: string, sha: string, pullNumber: nat, runId: nat, actor: string)

  /** The repository and the commit the table links point into. */
  function TableContext(c: MarkdownContext): (t: GitHubContext)
    ensures t.owner == c.owner && t.repo == c.repo && t.sha == c.sha
  {
    GitHubContext(c.owner, c.repo, c.sha)
  }

  /** `https://github.com/${owner}/${repo}/actions/runs/${runId}` */
  function RunUrl(c: MarkdownContext): string
  {
    "https://github.com/" + c.owner + "/" + c.repo + "/actions/runs/" + Text.NatToString(c.runId)
  }

  /** `https://github.com/${owner}/${repo}/pull/${pullNumber}/commits/${sha}` */
  function CommitUrl(c: MarkdownContext): string
  {
    "https://github.com/" + c.owner + "/" + c.repo + "/pull/" + Text.NatToString(c.pullNumber) + "/commits/" + c.sha
  }

  /** The heading, with the run linked as CI. */
  function Heading(c: MarkdownContext): string
  {
    "## \U{1F97D} Go Test Report <sup>[CI](" + RunUrl(c) + ")</sup>"
  }

  /** Everything above the module table: the heading and the result line. */
  function Top(c: MarkdownContext, result: string): string
  {
    Heading(c) + "\n\n#### Result: " + result + "\n\n"
  }

  const FooterOpening := "---\n*This comment is created for the commit ["

  /** The footer names the commit by its first seven characters, linked to the commit
      in the pull request, and the actor who pushed it. */
  function Footer(c: MarkdownContext): (f: string)
    ensures var short := Text.Prefix(c.sha, 7);
      && |short| == (if |c.sha| < 7 then |c.sha| else 7) && short == c.sha[..|short|]
      && |f| >= |FooterOpening| + |short| + 2
      && f[..|FooterOpening| + |short| + 2] == FooterOpening + short + "]("
      && f[|FooterOpening| + |short| + 2..] == CommitUrl(c) + ") pushed by @" + c.actor + ".*"
  {
    var short := Text.Prefix(c.sha, 7);
    var opening := FooterOpening + short + "](";
    var rest := CommitUrl(c) + ") pushed by @" + c.actor + ".*";
    var f := opening + rest;
    assert f[..|opening|] == opening && f[|opening|..] == rest;
    f
  }

  const PassedText := "`Passed`\U{1F646}\U{200D}\U{2640}\U{FE0F}"
  const FailedText := "`Failed`\U{1F645}\U{200D}\U{2642}\U{FE0F}"

  const NoResults := "No test results found."
  const SectionOpening := "\n<br/>\n\n<details open>\n<summary> Failed Tests </summary>\n\n"
  const SectionClosing := "\n\n</details>\n"

  /** The failed-tests section: empty when either table is, otherwise the failure table
      inside an open `<details>` block. */
  function FailureSection(moduleTable: string, failedTable: string): (s: string)
    ensures s == "" <==> moduleTable == "" || failedTable == ""
    ensures s != "" ==>
      && |s| == |SectionOpening| + |failedTable| + |SectionClosing|
      && s[..|SectionOpening|] == SectionOpening
      && s[|SectionOpening|..|s| - |SectionClosing|] == failedTable
      && s[|s| - |SectionClosing|..] == SectionClosing
  {
    if moduleTable == "" || failedTable == "" then ""
    else
      var s := SectionOpening + failedTable + SectionClosing;
      assert s[|SectionOpening|..|s| - |SectionClosing|] == failedTable;
      s
  }

  /** The template with its first and last line breaks sliced off. With no module table
      the body is 'No test results found.' and there is no failure section; with both
      tables the failure section sits between the module table and the footer. */
  function Document(c: MarkdownContext, result: string, moduleTable: string, failedTable: string): (doc: string)
    ensures moduleTable == "" ==> doc == Top(c, result) + NoResults + "\n\n" + Footer(c)
    ensures moduleTable != "" && failedTable == "" ==> doc == Top(c, result) + moduleTable + "\n\n" + Footer(c)
    ensures moduleTable != "" && failedTable != "" ==>
      doc == Top(c, result) + moduleTable + "\n" + SectionOpening + failedTable + SectionClosing + "\n" + Footer(c)
  {
    var top, foot := Top(c, result), Footer(c);
    var body := if moduleTable == "" then NoResults else moduleTable;
    var section := FailureSection(moduleTable, failedTable);
    if section == "" then
      EmptyBetween(top + body, foot);
      top + body + "\n" + section + "\n" + foot
    else
      Inline(top + body + "\n", SectionOpening, failedTable, SectionClosing, "\n", foot);
      top + body + "\n" + section + "\n" + foot
  }

  /** A part spliced in as a whole reads as its pieces spliced in one by one. */
  lemma Inline(a: string, p: string, q: string, r: string, b: string, c: string)
    ensures a + (p + q + r) + b + c == a + p + q + r + b + c
  {
    assert a + (p + q + r) == a + p + q + r;
  }

  /** An empty part between two line breaks leaves a blank line. */
  lemma EmptyBetween(a: string, b: string)
    ensures a + "\n" + "" + "\n" + b == a + "\n\n" + b
  {
    assert "\n" + "\n" == "\n\n";
    assert a + "\n" + "" == a + "\n";
    assert a + "\n" + "\n" == a + "\n\n";
  }

  /** The view of a test case that the failure and annotation views of src/data/ render. */
  function AsFailure(t: JunitTestCases.TestCase): (f: DataViews.Failure)
    ensures DataViews.FailurePath(t.moduleDir, f) == JunitTestCases.FullPath(t)
  {
    DataViews.Failure(t.subDir, t.file, t.line, t.test, t.message, Gotestsum)
  }

  const FailureHeader := "| File | Test | Message |"
  const FailureSeparator := "| :--- | :--- | :------ |"
  const Ellipsis := "| ... | ... | ... |"

  /** A failure's row: its location linked to that line of the file at the commit, the
      test, and the message on one line; the same cells as the failure view renders. */
  function FailureLine(c: GitHubContext, t: JunitTestCases.TestCase): (line: string)
    ensures var v := DataViews.RenderFailure(t.moduleDir, AsFailure(t), c.owner, c.repo, c.sha);
      line == "| " + v.file + " | " + v.test + " | " + v.message + " |"
    ensures line[..2] == "| " && line[|line| - 2..] == " |"
  {
    var fullPath := JunitTestCases.FullPath(t);
    var fileColumn := MarkdownLink(
      Location(fullPath, t.line), BlobUrl(c.owner, c.repo, c.sha, fullPath) + "#L" + Text.NatToString(t.line));
    "| " + fileColumn + " | " + t.test + " | " + Text.ReplaceNewlines(t.message) + " |"
  }

  /** `::error file=${fullPath},line=${line}::${message}`: the annotation view's body. */
  function AnnotationLine(t: JunitTestCases.TestCase): (line: string)
    ensures line == DataViews.RenderAnnotation(t.moduleDir, AsFailure(t)).body
    ensures line == Reports.AnnotationBody(Reports.AnnotationReportImpl(JunitTestCases.FullPath(t), t.line, t.message)).body
  {
    "::error file=" + JunitTestCases.FullPath(t) + ",line=" + Text.NatToString(t.line) + "::" + t.message
  }

  /** `failures.map(…)` of the annotation lines, one per failure in order. */
  function AnnotationLines(failures: seq<JunitTestCases.TestCase>): (r: seq<string>)
    ensures |r| == |failures|
    ensures forall k :: 0 <= k < |failures| ==> r[k] == DataViews.RenderAnnotation(failures[k].moduleDir, AsFailure(failures[k])).body
    ensures forall k :: 0 <= k < |failures| ==>
      r[k] == Reports.AnnotationBody(Reports.AnnotationReportImpl(
        JunitTestCases.FullPath(failures[k]), failures[k].line, failures[k].message)).body
  {
    Seqs.Map(AnnotationLine, failures)
  }

  /** The annotation lines of two lists of failures follow each other. */
  lemma AnnotationLinesConcat(a: seq<JunitTestCases.TestCase>, b: seq<JunitTestCases.TestCase>)
    ensures AnnotationLines(a + b) == AnnotationLines(a) + AnnotationLines(b)
  {
    Seqs.MapConcat(AnnotationLine, a, b);
  }

  lemma JoinCons(a: string, xs: seq<string>, sep: string)
    requires |xs| >= 1
    ensures Text.Join([a] + xs, sep) == a + sep + Text.Join(xs, sep)
  {
    var p := [a] + xs;
    assert p[0] == a && p[1..] == xs;
  }

  /** Two parts in front of at least one more, joined. */
  lemma JoinFront(a: string, b: string, xs: seq<string>, sep: string)
    requires |xs| >= 1
    ensures Text.Join([a, b] + xs, sep) == a + sep + b + sep + Text.Join(xs, sep)
  {
    var rest := [b] + xs;
    assert [a, b] + xs == [a] + rest;
    JoinCons(a, rest, sep);
    JoinCons(b, xs, sep);
  }

  /** `[header, separator, ...lines].join('\n')` written as the template does it. */
  lemma TemplateTable(header: string, separator: string, lines: seq<string>)
    requires |lines| >= 1
    ensures header + "\n" + separator + "\n" + Text.Join(lines, "\n") == Markdown.TableText(header, separator, lines)
  {
    JoinFront(header, separator, lines, "\n");
  }

  /** A table whose line list ends in one more line, written as the template does it. */
  lemma TemplateTableSnoc(header: string, separator: string, lines: seq<string>, last: string, sep: string)
    requires |lines| >= 1
    ensures header + sep + separator + sep + Text.Join(lines, sep) + (sep + last)
         == Text.Join([header, separator] + (lines + [last]), sep)
  {
    var front := header + sep + separator + sep;
    var body := Text.Join(lines, sep);
    var whole := lines + [last];
    assert Text.Join(whole, sep) == body + sep + last by {
      Paths.JoinSnoc(lines, last, sep);
    }
    assert Text.Join([header, separator] + whole, sep) == front + Text.Join(whole, sep) by {
      JoinFront(header, separator, whole, sep);
    }
    Regroup(front, body, sep, last);
  }

  lemma Regroup(a: string, b: string, c: string, d: string)
    ensures a + b + (c + d) == a + (b + c + d)
  {
    assert b + c + d == b + (c + d);
  }
}

=== FILE: monorepo.dfy ===
/** `Monorepo` (src/monorepo.ts): the earlier generation of the Markdown comment and the
    annotation lines, over `Reportable` reports: a two-way result line, a module table
    without a version column, and a failure table that lists every failure. */
module Monorepos {
  import opened Types
  import Text
  import Seqs
  import Paths
  import Markdown
  import Reports
  import DataViews
  import JunitTestCases
  import MarkdownReports
  import Repositories

  /** A `Reportable` as the monorepo reads it; its time, always present, is the text
      `toFixed(1)` gives. */
  datatype Reportable = Reportable(
    directory: string, result: Result, passed: int, failed: nat, skipped: nat,
    time: string, failures: seq<JunitTestCases.TestCase>)

  function ResultOf(r: Reportable): Result
  {
    r.result
  }

  function Results(reporters: seq<Reportable>): (rs: seq<Result>)
    ensures |rs| == |reporters| && forall k :: 0 <= k < |reporters| ==> rs[k] == reporters[k].result
  {
    Seqs.Map(ResultOf, reporters)
  }

  /** The result line: `Passed` with its emoji when every reporter passed (so also for
      none), else `Failed` with its emoji. */
  function ResultText(results: seq<Result>): (text: string)
    ensures text == MarkdownReports.PassedText <==> forall k :: 0 <= k < |results| ==> results[k] == Passed
    ensures text == MarkdownReports.FailedText <==> exists k :: 0 <= k < |results| && results[k] != Passed
  {
    assert MarkdownReports.PassedText[1] == 'P' && MarkdownReports.FailedText[1] == 'F';
    var result := if forall k :: 0 <= k < |results| ==> results[k] == Passed then "Passed" else "Failed";
    var emoji := if result == "Passed" then "\U{1F646}\U{200D}\U{2640}\U{FE0F}" else "\U{1F645}\U{200D}\U{2642}\U{FE0F}";
    "`" + result + "`" + emoji
  }

  /** The two generations write the same result line unless no reporter failed and some
      was skipped or unknown: this one then says Failed, the repository says Unknown. */
  lemma ResultGenerations(results: seq<Result>)
    ensures ResultText(results) != Repositories.ResultText(results) <==>
      Failed !in results && (Skipped in results || Unknown in results)
    ensures ResultText(results) != Repositories.ResultText(results) ==>
      ResultText(results) == MarkdownReports.FailedText && Repositories.ResultText(results) == Repositories.UnknownText
  {
    assert Repositories.UnknownText[1] == 'U' && MarkdownReports.FailedText[1] == 'F';
    if Skipped in results || Unknown in results {
      var k :| 0 <= k < |results| && (results[k] == Skipped || results[k] == Unknown);
      assert results[k] != Passed;
    }
    if Failed in results {
      var k :| 0 <= k < |results| && results[k] == Failed;
      assert results[k] != Passed;
    }
  }

  const ModuleHeader := "| Module | Result | Passed | Failed | Skipped | Time |"
  const ModuleSeparator := "| :----- | :----- | -----: | -----: | ------: | ---: |"

  /** The cells of a module's row after its link: the result mark, the passed, failed and
      skipped counts in decimal, and the time in seconds. */
  function ModuleCells(r: Reportable): (cells: seq<string>)
    ensures |cells| == 5
    ensures cells[0] == Reports.FailedMark <==> r.result == Failed
    ensures cells[0] == Reports.PassedMark <==> r.result != Failed
    ensures Text.SignedDecimal(cells[1]) == r.passed
    ensures Text.Decimal(cells[2]) == r.failed && Text.Decimal(cells[3]) == r.skipped
    ensures |cells[4]| == |r.time| + 1 && cells[4][..|r.time|] == r.time && cells[4][|r.time|] == 's'
  {
    Text.SignedDecimalIntToString(r.passed);
    Text.DecimalNatToString(r.failed);
    Text.DecimalNatToString(r.skipped);
    var time := r.time + "s";
    assert time[..|r.time|] == r.time;
    [Reports.ResultMark(r.result), Text.IntToString(r.passed),
     Text.NatToString(r.failed), Text.NatToString(r.skipped), time]
  }

  /** `| [dir](blob url) | mark | passed | failed | skipped | time |` */
  function ModuleLine(c: GitHubContext, r: Reportable): string
  {
    Markdown.PipeLine(DataViews.PathLink(r.directory, c.owner, c.repo, c.sha), ModuleCells(r))
  }

  /** `makeModuleTable`: '' without reporters, otherwise a table with one row per
      reporter, in order. */
  function ModuleTable(c: GitHubContext, reporters: seq<Reportable>): (t: string)
    ensures t == "" <==> reporters == []
    ensures reporters != [] ==>
      t == Markdown.TableText(ModuleHeader, ModuleSeparator, Seqs.Map((r: Reportable) => ModuleLine(c, r), reporters))
  {
    if |reporters| == 0 then ""
    else
      var lines := Seqs.Map((r: Reportable) => ModuleLine(c, r), reporters);
      MarkdownReports.TemplateTable(ModuleHeader, ModuleSeparator, lines);
      ModuleHeader + "\n" + ModuleSeparator + "\n" + Text.Join(lines, "\n")
  }

  function FailuresOf(r: Reportable): seq<JunitTestCases.TestCase>
  {
    r.failures
  }

  /** `reporters.map(reporter => reporter.failures).flat()` */
  function Failures(reporters: seq<Reportable>): seq<JunitTestCases.TestCase>
  {
    Seqs.Flatten(Seqs.Map(FailuresOf, reporters))
  }

  /** The failures of two lists of reporters follow each other; none without reporters. */
  lemma FailuresConcat(a: seq<Reportable>, b: seq<Reportable>)
    ensures Failures(a + b) == Failures(a) + Failures(b)
    ensures Failures([]) == []
  {
    Seqs.MapConcat(FailuresOf, a, b);
    Seqs.FlattenConcat(Seqs.Map(FailuresOf, a), Seqs.Map(FailuresOf, b));
  }

  /** The failure table: '' without failures, otherwise one row per failure, in order. */
  function FailureTable(c: GitHubContext, failures: seq<JunitTestCases.TestCase>): (t: string)
    ensures t == "" <==> failures == []
    ensures failures != [] ==>
      t == Markdown.TableText(MarkdownReports.FailureHeader, MarkdownReports.FailureSeparator,
        Seqs.Map((f: JunitTestCases.TestCase) => MarkdownReports.FailureLine(c, f), failures))
  {
    if |failures| == 0 then ""
    else
      var lines := Seqs.Map((f: JunitTestCases.TestCase) => MarkdownReports.FailureLine(c, f), failures);
      MarkdownReports.TemplateTable(MarkdownReports.FailureHeader, MarkdownReports.FailureSeparator, lines);
      MarkdownReports.FailureHeader + "\n" + MarkdownReports.FailureSeparator + "\n" + Text.Join(lines, "\n")
  }

  /** This failure table is the repository's with a limit no smaller than the number of
      failures: nothing is cut and no ellipsis is added. */
  lemma FailureTableUnlimited(c: GitHubContext, failures: seq<JunitTestCases.TestCase>, limit: nat)
    requires limit >= |failures|
    ensures FailureTable(c, failures) == Repositories.FailureTable(c, failures, limit)
  {
    if failures != [] {
      var lines := Seqs.Map((f: JunitTestCases.TestCase) => MarkdownReports.FailureLine(c, f), failures);
      assert Repositories.Shown(failures, limit) == failures;
      assert lines + [] == lines;
    }
  }

  /** `makeMarkdownReport`: the comment, with the failure section present exactly when
      some reporter has a failure. */
  function MarkdownReport(c: MarkdownReports.MarkdownContext, reporters: seq<Reportable>): (doc: string)
    ensures reporters == [] ==>
      doc == MarkdownReports.Top(c, MarkdownReports.PassedText) + MarkdownReports.NoResults + "\n\n" + MarkdownReports.Footer(c)
    ensures reporters != [] && Failures(reporters) == [] ==>
      doc == MarkdownReports.Top(c, ResultText(Results(reporters)))
        + ModuleTable(MarkdownReports.TableContext(c), reporters) + "\n\n" + MarkdownReports.Footer(c)
    ensures Failures(reporters) != [] ==>
      doc == MarkdownReports.Top(c, ResultText(Results(reporters)))
        + ModuleTable(MarkdownReports.TableContext(c), reporters) + "\n" + MarkdownReports.SectionOpening
        + FailureTable(MarkdownReports.TableContext(c), Failures(reporters))
        + MarkdownReports.SectionClosing + "\n" + MarkdownReports.Footer(c)
  {
    var t := MarkdownReports.TableContext(c);
    MarkdownReports.Document(c, ResultText(Results(reporters)), ModuleTable(t, reporters), FailureTable(t, Failures(reporters)))
  }

  /** `makeAnnotationMessages`: one `::error` line per failure, reporters in order. */
  function AnnotationMessages(reporters: seq<Reportable>): (r: seq<string>)
    ensures |r| == |Failures(reporters)|
    ensures forall k :: 0 <= k < |r| ==>
      r[k] == Reports.AnnotationBody(Reports.AnnotationReportImpl(
        JunitTestCases.FullPath(Failures(reporters)[k]), Failures(reporters)[k].line, Failures(reporters)[k].message)).body
  {
    MarkdownReports.AnnotationLines(Failures(reporters))
  }

  /** The annotations of two lists of reporters follow each other. */
  lemma AnnotationMessagesConcat(a: seq<Reportable>, b: seq<Reportable>)
    ensures AnnotationMessages(a + b) == AnnotationMessages(a) + AnnotationMessages(b)
  {
    FailuresConcat(a, b);
    MarkdownReports.AnnotationLinesConcat(Failures(a), Failures(b));
  }

  lemma ThreeDigits(n: nat, text: string)
    requires 100 <= n < 1000
    requires |text| == 3 && text[0] == Text.DigitChar(n / 100) && text[1] == Text.DigitChar(n / 10 % 10)
    requires text[2] == Text.DigitChar(n % 10)
    ensures Text.NatToString(n) == text
  {
    assert Text.NatToString(n / 100) == [Text.DigitChar(n / 100)];
    assert n / 10 / 10 == n / 100;
    assert Text.NatToString(n / 10) == [Text.DigitChar(n / 100), Text.DigitChar(n / 10 % 10)];
  }

  lemma RunUrlExample(c: MarkdownReports.MarkdownContext)
    requires c == MarkdownReports.MarkdownContext("owner", "repo", "abcdef123456", 123, 456, "actor")
    ensures MarkdownReports.RunUrl(c) == "https://github.com/" + "owner" + "/" + "repo" + "/actions/runs/" + "456"
  {
    ThreeDigits(456, "456");
  }

  lemma CommitUrlExample(c: MarkdownReports.MarkdownContext)
    requires c == MarkdownReports.MarkdownContext("owner", "repo", "abcdef123456", 123, 456, "actor")
    ensures MarkdownReports.CommitUrl(c)
         == "https://github.com/" + "owner" + "/" + "repo" + "/pull/" + "123" + "/commits/" + "abcdef123456"
  {
    ThreeDigits(123, "123");
  }

  lemma HeadingExample(c: MarkdownReports.MarkdownContext)
    requires c == MarkdownReports.MarkdownContext("owner", "repo", "abcdef123456", 123, 456, "actor")
    ensures MarkdownReports.Heading(c) == "## \U{1F97D} Go Test Report <sup>[CI]("
      + ("https://github.com/" + "owner" + "/" + "repo" + "/actions/runs/" + "456") + ")</sup>"
  {
    RunUrlExample(c);
  }

  lemma FooterExample(c: MarkdownReports.MarkdownContext)
    requires c == MarkdownReports.MarkdownContext("owner", "repo", "abcdef123456", 123, 456, "actor")
    ensures MarkdownReports.Footer(c) == "---\n*This comment is created for the commit [" + "abcdef1" + "]("
      + ("https://github.com/" + "owner" + "/" + "repo" + "/pull/" + "123" + "/commits/" + "abcdef123456")
      + ") pushed by @" + "actor" + ".*"
  {
    CommitUrlExample(c);
    assert Text.Prefix(c.sha, 7) == "abcdef1";
  }

  /** A run without reports: the comment says that no results were found, and the
      footer names the commit abcdef123456 as abcdef1. The expected text is written in
      the pieces the template joins. */
  lemma EmptyReportExample(c: MarkdownReports.MarkdownContext)
    requires c == MarkdownReports.MarkdownContext("owner", "repo", "abcdef123456", 123, 456, "actor")
    ensures MarkdownReport(c, []) ==
      "## \U{1F97D} Go Test Report <sup>[CI]("
      + ("https://github.com/" + "owner" + "/" + "repo" + "/actions/runs/" + "456") + ")</sup>"
      + "\n\n#### Result: " + "`Passed`\U{1F646}\U{200D}\U{2640}\U{FE0F}" + "\n\n"
      + "No test results found." + "\n\n"
      + ("---\n*This comment is created for the commit [" + "abcdef1" + "]("
        + ("https://github.com/" + "owner" + "/" + "repo" + "/pull/" + "123" + "/commits/" + "abcdef123456")
        + ") pushed by @" + "actor" + ".*")
  {
    HeadingExample(c);
    FooterExample(c);
  }

  lemma ExampleNames(moduleDir: string, file: string)
    requires moduleDir == "go/app1" && file == "foo_test.go"
    ensures moduleDir == Text.Join(["go", "app1"], "/")
    ensures Paths.IsName("go") && Paths.IsName("app1") && Paths.IsName(file)
  {
    Text.JoinTwo("go", "app1", "/");
  }

  lemma ExampleFullPath(moduleDir: string, file: string)
    requires moduleDir == "go/app1" && file == "foo_test.go"
    ensures JunitTestCases.FullPath(JunitTestCases.TestCase(moduleDir, ".", file, 1, "Test1/Case", "failed"))
         == "go/app1" + "/" + "foo_test.go"
  {
    ExampleNames(moduleDir, file);
    Paths.FullPathDotSubDir(["go", "app1"], file);
    assert ["go", "app1"] + [file] == ["go", "app1", file];
    Text.JoinThree("go", "app1", file, "/");
  }

  /** The failures of a single reporter are its own. */
  lemma FailuresOne(r: Reportable)
    ensures Failures([r]) == r.failures
  {
    var blocks := Seqs.Map(FailuresOf, [r]);
    assert blocks == [r.failures] && blocks[..0] == [];
    assert Seqs.Flatten(blocks) == Seqs.Flatten(blocks[..0]) + blocks[0];
    assert [] + r.failures == r.failures;
  }

  /** A failing module with one failure (test Test1/Case at line 1 of foo_test.go in
      module go/app1) and a passing module without failures give one annotation, for
      the failure, with its message verbatim. */
  lemma AnnotationExample(failing: Reportable, passing: Reportable, moduleDir: string, file: string)
    requires moduleDir == "go/app1" && file == "foo_test.go"
    requires failing.failures == [JunitTestCases.TestCase(moduleDir, ".", file, 1, "Test1/Case", "failed")]
    requires passing.failures == []
    ensures AnnotationMessages([failing, passing])
         == ["::error file=" + ("go/app1" + "/" + "foo_test.go") + ",line=" + "1" + "::" + "failed"]
  {
    FailuresConcat([failing], [passing]);
    FailuresOne(failing);
    FailuresOne(passing);
    assert [failing] + [passing] == [failing, passing];
    var t := failing.failures[0];
    assert Failures([failing, passing]) == [t];
    ExampleFullPath(moduleDir, file);
    assert Text.NatToString(1) == "1";
    var line := "::error file=" + ("go/app1" + "/" + "foo_test.go") + ",line=" + "1" + "::" + "failed";
    assert MarkdownReports.AnnotationLine(t) == line;
    assert MarkdownReports.AnnotationLines([t]) == [line];
  }
}

=== FILE: old_table.dfy ===
/** The older `Table` of src/table.ts, whose rows carry a `record` object. */
module OldTables {
  import Text
  import Markdown

  /** `Record<T>`: an index and the values of the record object, in key order. */
  datatype Record = Record(index: string, record: seq<string>)

  datatype Table = Table(header: Record, separator: Record, records: seq<Record>)
  {
    /** `rows` */
    function Rows(): nat
    {
      |records|
    }

    /** `columns`: `Object.keys(this.header).length` counts the two keys of the header
        row itself, `index` and `record`, whatever the record holds. */
    function Columns(): nat
    {
      2
    }
  }

  /** `| ${index} | ${Object.values(record).join(' | ')} |` */
  function Line(r: Record): string
  {
    Markdown.PipeLine(r.index, r.record)
  }

  function RecordLines(records: seq<Record>): (lines: seq<string>)
    ensures |lines| == |records|
  {
    seq(|records|, k requires 0 <= k < |records| => Line(records[k]))
  }

  /** `render()`: '' for a table without records. */
  function Render(t: Table): (s: string)
    ensures s == "" <==> t.Rows() == 0
  {
    if t.Rows() == 0 then ""
    else
      assert ([Line(t.header), Line(t.separator)] + RecordLines(t.records))[0] == Line(t.header);
      Markdown.TableText(Line(t.header), Line(t.separator), RecordLines(t.records))
  }

  predicate NoLineBreaks(r: Record)
  {
    '\n' !in r.index && forall k :: 0 <= k < |r.record| ==> '\n' !in r.record[k]
  }

  /** A table with records renders as rows + 2 lines: header, separator, then each
      record in order. */
  lemma RenderLines(t: Table)
    requires t.Rows() > 0
    requires NoLineBreaks(t.header) && NoLineBreaks(t.separator)
    requires forall k :: 0 <= k < |t.records| ==> NoLineBreaks(t.records[k])
    ensures Text.Split(Render(t), "\n") == [Line(t.header), Line(t.separator)] + RecordLines(t.records)
    ensures |Text.Split(Render(t), "\n")| == t.Rows() + 2
  {
    Markdown.PipeLineFree(t.header.index, t.header.record);
    Markdown.PipeLineFree(t.separator.index, t.separator.record);
    forall k | 0 <= k < |t.records| ensures '\n' !in RecordLines(t.records)[k] {
      Markdown.PipeLineFree(t.records[k].index, t.records[k].record);
    }
    Markdown.TableTextLines(Line(t.header), Line(t.separator), RecordLines(t.records));
  }

  /** The column count ignores the number of fields: it is 2 even for a one-field or a
      five-field header. */
  lemma ColumnsIgnoresFields(t: Table)
    requires |t.header.record| != 2
    ensures t.Columns() != |t.header.record|
  {
  }
}

=== FILE: outcomes.dfy ===
/** `toResult` (src/table/result.ts, and `ResultComposer.toResult` of
    src/composer/result.ts, which has the same body) and `toAnnotations`
    (src/table/annotation.ts, and `AnnotationComposer.toArray` of
    src/composer/annotation.ts): how a list of reports collapses into one result and
    one list of annotation lines. */
module Outcomes {
  import opened Types
  import Reports
  import Seqs

  /** `results.some(result => result == Result.Failed) ? Result.Failed : Result.Passed` */
  function ToResult(results: seq<Result>): (r: Result)
    ensures r == Failed <==> Failed in results
    ensures r == Passed <==> Failed !in results
  {
    if Failed in results then Failed else Passed
  }

  /** Only membership matters: reordering or repeating results does not change the
      verdict, and Skipped or Unknown never make it Failed. */
  lemma ToResultMembership(a: seq<Result>, b: seq<Result>)
    requires forall x :: x in a <==> x in b
    ensures ToResult(a) == ToResult(b)
  {
  }

  /** A permutation of the results has the same verdict. */
  lemma ToResultPermutation(a: seq<Result>, b: seq<Result>)
    requires multiset(a) == multiset(b)
    ensures ToResult(a) == ToResult(b)
  {
    assert forall x :: x in a <==> x in multiset(a);
    assert forall x :: x in b <==> x in multiset(b);
    ToResultMembership(a, b);
  }

  /** The verdict of two lists together is Failed iff either list's verdict is. */
  lemma ToResultConcat(a: seq<Result>, b: seq<Result>)
    ensures ToResult(a + b) == (if ToResult(a) == Failed || ToResult(b) == Failed then Failed else Passed)
  {
    assert Failed in a + b <==> Failed in a || Failed in b;
  }

  /** `failures.map(failure => failure.annotation.record.body)` */
  function Annotations(failures: seq<Reports.FailureReport>): (r: seq<string>)
    ensures |r| == |failures|
    ensures forall k :: 0 <= k < |failures| ==> r[k] == failures[k].annotation.record.body
  {
    seq(|failures|, k requires 0 <= k < |failures| => failures[k].annotation.record.body)
  }

  /** The annotations of two lists of failures are the two lists of annotations, in order. */
  lemma AnnotationsConcat(a: seq<Reports.FailureReport>, b: seq<Reports.FailureReport>)
    ensures Annotations(a + b) == Annotations(a) + Annotations(b)
  {
  }

  /** The annotation lists of several failure lists, list by list. */
  function AnnotationLists(fss: seq<seq<Reports.FailureReport>>): (r: seq<seq<string>>)
    ensures |r| == |fss| && forall i :: 0 <= i < |fss| ==> r[i] == Annotations(fss[i])
  {
    seq(|fss|, i requires 0 <= i < |fss| => Annotations(fss[i]))
  }

  /** Annotating the failures of several lists together gives each list's annotations
      in list order. */
  lemma {:induction false} AnnotationsFlatten(fss: seq<seq<Reports.FailureReport>>)
    ensures Annotations(Seqs.Flatten(fss)) == Seqs.Flatten(AnnotationLists(fss))
  {
    if |fss| > 0 {
      var init := fss[..|fss| - 1];
      AnnotationsFlatten(init);
      AnnotationsConcat(Seqs.Flatten(init), fss[|fss| - 1]);
      assert AnnotationLists(fss)[..|fss| - 1] == AnnotationLists(init);
    }
  }
}

=== FILE: paths.dfy ===
/** The slash-separated path arithmetic of the action: the module directory of a
    report file, Node's `path.basename`, `path.dirname` and `path.join`. */
module Paths {
  import opened Wrappers
  import Text
  import Seqs

  /** The position of the last '/' of p. */
  function LastSlash(p: string): (r: Option<nat>)
    ensures r.Some? ==> r.value < |p| && p[r.value] == '/' && '/' !in p[r.value + 1..]
    ensures r.None? ==> '/' !in p
  {
    Text.LastIndexOf(p, '/')
  }

  /** `p.split('/').slice(0, -1).join('/')`, or '.' when that is empty: the directory
      of a report file, as every report class computes it. */
  function Directory(p: string): string
  {
    var parts := Text.Split(p, "/");
    var parsed := Text.Join(parts[..|parts| - 1], "/");
    if parsed == "" then "." else parsed
  }

  /** `path.basename(p)`: what follows the last '/' (trailing slashes are not modelled). */
  function Basename(p: string): (r: string)
    ensures '/' !in r
    ensures |r| <= |p| && p[|p| - |r|..] == r
    ensures LastSlash(p).None? ==> r == p
  {
    match LastSlash(p)
    case None => p
    case Some(k) => p[k + 1..]
  }

  /** `path.dirname(p)`: what precedes the last '/', "/" for a file at the root and
      "." for a bare file name (trailing slashes are not modelled). */
  function Dirname(p: string): (r: string)
    ensures LastSlash(p).None? ==> r == "."
    ensures LastSlash(p).Some? && LastSlash(p).value > 0 ==> r == p[..LastSlash(p).value]
  {
    match LastSlash(p)
    case None => "."
    case Some(k) => if k == 0 then "/" else p[..k]
  }

  /** dirname and basename split a path with a directory at its last '/'. */
  lemma DirnameBasename(p: string)
    requires LastSlash(p).Some? && LastSlash(p).value > 0
    ensures Dirname(p) + "/" + Basename(p) == p
  {
    var k := LastSlash(p).value;
    assert p == p[..k] + [p[k]] + p[k + 1..];
  }

  lemma JoinSnoc(xs: seq<string>, y: string, sep: string)
    requires |xs| >= 1
    ensures Text.Join(xs + [y], sep) == Text.Join(xs, sep) + sep + y
    decreases |xs|
  {
    if |xs| == 1 {
      assert (xs + [y])[1..] == [y];
    } else {
      assert (xs + [y])[1..] == xs[1..] + [y];
      JoinSnoc(xs[1..], y, sep);
    }
  }

  /** The directory of a report file is `path.dirname` of it, except for a file at the
      root, whose directory is '.'. */
  lemma {:induction false} DirectoryIsDirname(p: string)
    ensures LastSlash(p).None? ==> Directory(p) == "."
    ensures LastSlash(p).Some? ==> Directory(p) == (if LastSlash(p).value == 0 then "." else Dirname(p))
  {
    var parts := Text.Split(p, "/");
    Text.JoinSplit(p, "/");
    Text.SplitPartsFree(p, '/');
    var n := |parts|;
    if n == 1 {
      assert Text.Join(parts, "/") == parts[0];
      assert '/' !in p;
    } else {
      var init, last := parts[..n - 1], parts[n - 1];
      var x := Text.Join(init, "/");
      assert p == x + "/" + last by {
        assert parts == init + [last];
        JoinSnoc(init, last, "/");
      }
      assert LastSlash(p) == Some(|x|) by {
        assert '/' !in last;
        assert x + "/" + last == x + ['/'] + last;
        Text.LastIndexOfJoin(x, '/', last);
      }
      assert p[..|x|] == x;
    }
  }

  /** A path segment that `path.join` keeps: neither empty nor '.'. */
  predicate IsName(s: string)
  {
    s != "" && s != "." && '/' !in s
  }

  function KeepNames(xs: seq<string>): (r: seq<string>)
    ensures forall i :: 0 <= i < |r| ==> r[i] in xs && r[i] != "" && r[i] != "."
  {
    if |xs| == 0 then []
    else if xs[0] == "" || xs[0] == "." then KeepNames(xs[1..])
    else [xs[0]] + KeepNames(xs[1..])
  }

  /** The segments of p that `path.join` keeps. */
  function Segments(p: string): (r: seq<string>)
    ensures forall i :: 0 <= i < |r| ==> IsName(r[i])
  {
    var parts := Text.Split(p, "/");
    Text.SplitPartsFree(p, '/');
    KeepNamesNames(parts);
    KeepNames(parts)
  }

  lemma {:induction false} KeepNamesNames(xs: seq<string>)
    requires forall i :: 0 <= i < |xs| ==> '/' !in xs[i]
    ensures forall i :: 0 <= i < |KeepNames(xs)| ==> IsName(KeepNames(xs)[i])
  {
    if |xs| > 0 {
      KeepNamesNames(xs[1..]);
    }
  }

  lemma {:induction false} KeepNamesOfNames(xs: seq<string>)
    requires forall i :: 0 <= i < |xs| ==> IsName(xs[i])
    ensures KeepNames(xs) == xs
  {
    if |xs| > 0 {
      KeepNamesOfNames(xs[1..]);
      assert xs == [xs[0]] + xs[1..];
    }
  }

  function AllSegments(paths: seq<string>): (r: seq<string>)
    ensures forall i :: 0 <= i < |r| ==> IsName(r[i])
  {
    if |paths| == 0 then []
    else
      var r := Segments(paths[0]) + AllSegments(paths[1..]);
      assert forall i :: 0 <= i < |r| ==> IsName(r[i]) by {
        forall i | 0 <= i < |r| ensures IsName(r[i]) {
          if i < |Segments(paths[0])| {
            assert r[i] == Segments(paths[0])[i];
          } else {
            assert r[i] == AllSegments(paths[1..])[i - |Segments(paths[0])|];
          }
        }
      }
      r
  }

  /** `path.join(...paths)` for relative paths: the kept segments of all of them joined
      by '/', '.' when none is kept ('..' and a leading '/' are not modelled). */
  function JoinPaths(paths: seq<string>): string
  {
    var segs := AllSegments(paths);
    if segs == [] then "." else Text.Join(segs, "/")
  }

  /** `path.join` loses no segment and adds none: the joined path has exactly the
      segments of its arguments, in order. */
  lemma JoinPathsSegments(paths: seq<string>)
    ensures Segments(JoinPaths(paths)) == AllSegments(paths)
  {
    var segs := AllSegments(paths);
    if segs == [] {
      assert Text.IndexOf(".", "/").None? by {
        assert "."[0] != '/';
        assert !Text.OccursAt(".", "/", 0);
      }
      assert Text.Split(".", "/") == ["."];
      assert KeepNames(["."]) == KeepNames([]);
    } else {
      forall k | 0 <= k < |segs| ensures '/' !in segs[k] {
        assert IsName(segs[k]);
      }
      Text.SplitJoin(segs, '/');
      KeepNamesOfNames(segs);
    }
  }

  /** A path written as '/'-separated names has exactly those names as segments. */
  lemma SegmentsOfNames(names: seq<string>)
    requires |names| >= 1
    requires forall i :: 0 <= i < |names| ==> IsName(names[i])
    ensures Segments(Text.Join(names, "/")) == names
  {
    forall k | 0 <= k < |names| ensures '/' !in names[k] {
      assert IsName(names[k]);
    }
    Text.SplitJoin(names, '/');
    KeepNamesOfNames(names);
  }

  lemma AllSegmentsOfThree(a: string, b: string, c: string)
    ensures AllSegments([a, b, c]) == Segments(a) + Segments(b) + Segments(c)
  {
    assert [a, b, c][1..] == [b, c];
    assert [b, c][1..] == [c];
    assert [c][1..] == [];
    assert AllSegments([c]) == Segments(c);
  }

  /** The segments of '.': none. */
  lemma SegmentsDot()
    ensures Segments(".") == []
  {
    JoinPathsSegments([]);
  }

  /** `TestCase.fullPath` of a module directory, a sub-directory and a file, each
      written as '/'-separated names: the names in order, separated by '/'. */
  lemma FullPathOfNames(moduleDir: seq<string>, subDir: seq<string>, file: string)
    requires |moduleDir| >= 1 && |subDir| >= 1
    requires forall i :: 0 <= i < |moduleDir| ==> IsName(moduleDir[i])
    requires forall i :: 0 <= i < |subDir| ==> IsName(subDir[i])
    requires IsName(file)
    ensures JoinPaths([Text.Join(moduleDir, "/"), Text.Join(subDir, "/"), file])
         == Text.Join(moduleDir + subDir + [file], "/")
  {
    AllSegmentsOfThree(Text.Join(moduleDir, "/"), Text.Join(subDir, "/"), file);
    SegmentsOfNames(moduleDir);
    SegmentsOfNames(subDir);
    SegmentsOfNames([file]);
  }

  lemma AllSegmentsDot(a: string, b: string)
    ensures AllSegments([a, ".", b]) == Segments(a) + Segments(b)
    ensures AllSegments([".", a, b]) == Segments(a) + Segments(b)
  {
    AllSegmentsOfThree(a, ".", b);
    AllSegmentsOfThree(".", a, b);
    SegmentsDot();
  }

  /** path.join drops a sub-directory '.'. */
  lemma FullPathDotSubDir(moduleDir: seq<string>, file: string)
    requires |moduleDir| >= 1
    requires forall i :: 0 <= i < |moduleDir| ==> IsName(moduleDir[i])
    requires IsName(file)
    ensures JoinPaths([Text.Join(moduleDir, "/"), ".", file]) == Text.Join(moduleDir + [file], "/")
  {
    AllSegmentsDot(Text.Join(moduleDir, "/"), file);
    NamesThenFile(moduleDir, file);
  }

  /** path.join drops a module directory '.'. */
  lemma FullPathDotModule(subDir: seq<string>, file: string)
    requires |subDir| >= 1
    requires forall i :: 0 <= i < |subDir| ==> IsName(subDir[i])
    requires IsName(file)
    ensures JoinPaths([".", Text.Join(subDir, "/"), file]) == Text.Join(subDir + [file], "/")
  {
    AllSegmentsDot(Text.Join(subDir, "/"), file);
    NamesThenFile(subDir, file);
  }

  /** The segments of a path written as names, then those of a file name. */
  lemma NamesThenFile(names: seq<string>, file: string)
    requires |names| >= 1
    requires forall i :: 0 <= i < |names| ==> IsName(names[i])
    requires IsName(file)
    ensures Segments(Text.Join(names, "/")) + Segments(file) == names + [file]
  {
    SegmentsOfNames(names);
    SegmentsOfNames([file]);
    assert Text.Join([file], "/") == file;
  }
}

=== FILE: readings.dfy ===
/** The readings of a parsed JUnit document that several report classes share: the
    outcome from the top-level attributes, counts read from attributes or summed over
    suites, the message of a failing test case, the split of a golangci-lint test case
    into file, line and message, and the Go version of a gotestsum report. */
module Readings {
  import opened Wrappers
  import opened Types
  import Seqs
  import Text
  import Paths
  import opened JunitXml
  import Reports

  /** The outcome the gotestsum reports read from `testsuites.$`: Unknown without an
      attribute block, then Failed when `failures` is not '0', then Skipped when
      `skipped` is present and not '0', else Passed. */
  function AttrsResult(attrs: Option<SuitesAttrs>): (r: Result)
    ensures r == Unknown <==> attrs.None?
    ensures r == Failed <==> attrs.Some? && attrs.value.failures != "0"
    ensures r == Skipped <==>
      attrs.Some? && attrs.value.failures == "0" && attrs.value.skipped.Some? && attrs.value.skipped.value != "0"
    ensures r == Passed <==> attrs.Some? && attrs.value.failures == "0" && attrs.value.skipped.GetOr("0") == "0"
  {
    match attrs
    case None => Unknown
    case Some(a) =>
      if a.failures != "0" then Failed
      else if a.skipped.Some? && a.skipped.value != "0" then Skipped
      else Passed
  }

  lemma NatToStringZero(n: nat)
    ensures Text.NatToString(n) == "0" <==> n == 0
  {
    if n >= 10 {
      assert |Text.NatToString(n)| >= 2 by {
        assert Text.NatToString(n) == Text.NatToString(n / 10) + [Text.DigitChar(n % 10)];
      }
    } else {
      assert Text.NatToString(n) == [Text.DigitChar(n)];
    }
  }

  /** For attributes that render counts, a report is Failed exactly when some test failed,
      and Skipped exactly when none failed and some were skipped. */
  lemma ResultOfCounts(a: SuitesAttrs, failed: nat, skipped: nat)
    requires a.failures == Text.NatToString(failed)
    requires a.skipped == Some(Text.NatToString(skipped))
    ensures AttrsResult(Some(a)) == Failed <==> failed > 0
    ensures AttrsResult(Some(a)) == Skipped <==> failed == 0 && skipped > 0
    ensures AttrsResult(Some(a)) == Passed <==> failed == 0 && skipped == 0
  {
    NatToStringZero(failed);
    NatToStringZero(skipped);
  }

  /** The top-level counts. */
  datatype Counter = TestsCount | FailuresCount | SkippedCount

  function Attribute(a: SuitesAttrs, c: Counter): Option<string>
  {
    match c
    case TestsCount => Some(a.tests)
    case FailuresCount => Some(a.failures)
    case SkippedCount => a.skipped
  }

  /** `parseInt(testsuites.$?.<counter> ?? '0')`: the count an attribute renders, 0
      when the attribute block or the attribute is missing. */
  function Count(attrs: Option<SuitesAttrs>, c: Counter): (n: nat)
    ensures attrs.None? || Attribute(attrs.value, c).None? ==> n == 0
    ensures forall k: nat {:trigger Text.NatToString(k)} ::
      attrs.Some? && Attribute(attrs.value, c) == Some(Text.NatToString(k)) ==> n == k
  {
    forall k: nat ensures Text.Decimal(Text.NatToString(k)) == k {
      Text.DecimalNatToString(k);
    }
    assert Text.Decimal("0") == 0 by {
      assert Text.LeadingDigits("0") == "0" by {
        assert "0"[1..] == "";
      }
      assert "0"[..0] == "";
    }
    Text.Decimal(if attrs.Some? then Attribute(attrs.value, c).GetOr("0") else "0")
  }

  function SuiteAttribute(a: SuiteAttrs, c: Counter): string
  {
    match c
    case TestsCount => a.tests
    case FailuresCount => a.failures
    case SkippedCount => a.skipped.GetOr("0")
  }

  /** `suites.reduce((acc, suite) => acc + parseInt(suite.$.<counter>), 0)` */
  function SuiteSum(suites: seq<TestSuite>, c: Counter): nat
  {
    if |suites| == 0 then 0
    else SuiteSum(suites[..|suites| - 1], c) + Text.Decimal(SuiteAttribute(suites[|suites| - 1].attrs, c))
  }

  /** Summing over two runs of suites adds their sums. */
  lemma {:induction false} SuiteSumConcat(a: seq<TestSuite>, b: seq<TestSuite>, c: Counter)
    ensures SuiteSum(a + b, c) == SuiteSum(a, c) + SuiteSum(b, c)
    decreases |b|
  {
    if |b| == 0 {
      assert a + b == a;
    } else {
      var b' := b[..|b| - 1];
      assert (a + b)[..|a + b| - 1] == a + b';
      SuiteSumConcat(a, b', c);
    }
  }

  /** A sum over the suite list, 0 when there is none. */
  function Sum(suites: Option<seq<TestSuite>>, c: Counter): (n: nat)
    ensures suites.None? ==> n == 0
    ensures suites.Some? ==> n == SuiteSum(suites.value, c)
  {
    if suites.Some? then SuiteSum(suites.value, c) else 0
  }

  /** Two suites that render counts k1 and k2 sum to k1 + k2. */
  lemma SumOfTwo(s1: TestSuite, s2: TestSuite, c: Counter, k1: nat, k2: nat)
    requires SuiteAttribute(s1.attrs, c) == Text.NatToString(k1)
    requires SuiteAttribute(s2.attrs, c) == Text.NatToString(k2)
    ensures Sum(Some([s1, s2]), c) == k1 + k2
  {
    SuiteSumConcat([s1], [s2], c);
    assert [s1] + [s2] == [s1, s2];
    Text.DecimalNatToString(k1);
    Text.DecimalNatToString(k2);
    assert [s1][..0] == [];
    assert [s2][..0] == [];
  }

  /** `passed` of the golangci-lint reports: the summed tests less the summed failures,
      which is 0 for the linter, whose every test case is a finding. */
  function LintPassed(suites: Option<seq<TestSuite>>): (n: int)
    ensures suites.None? ==> n == 0
    ensures n + Sum(suites, FailuresCount) == Sum(suites, TestsCount)
  {
    Sum(suites, TestsCount) - Sum(suites, FailuresCount)
  }

  /** Suites of 3 and of 2 findings: 5 tests, 5 failed, none skipped, none passed. */
  lemma LintCountsExample(s1: TestSuite, s2: TestSuite)
    requires s1.attrs.tests == "3" && s1.attrs.failures == "3" && s1.attrs.skipped.None?
    requires s2.attrs.tests == "2" && s2.attrs.failures == "2" && s2.attrs.skipped.None?
    ensures Sum(Some([s1, s2]), TestsCount) == 5 && Sum(Some([s1, s2]), FailuresCount) == 5
    ensures Sum(Some([s1, s2]), SkippedCount) == 0 && LintPassed(Some([s1, s2])) == 0
  {
    assert Text.NatToString(3) == "3" by { assert Text.DigitChar(3) == '3'; }
    assert Text.NatToString(2) == "2" by { assert Text.DigitChar(2) == '2'; }
    assert Text.NatToString(0) == "0" by { assert Text.DigitChar(0) == '0'; }
    SumOfTwo(s1, s2, TestsCount, 3, 2);
    SumOfTwo(s1, s2, FailuresCount, 3, 2);
    SumOfTwo(s1, s2, SkippedCount, 0, 0);
  }

  /** The outcome the golangci-lint reports read: the linter writes suites only for
      findings, so the report passed exactly when there is no suite list. */
  function LintResult(suites: Option<seq<TestSuite>>): (r: Result)
    ensures r == Passed <==> suites.None?
    ensures r == Failed <==> suites.Some?
  {
    if suites.None? then Passed else Failed
  }

  /** `failure.map(f => f._ ?? '').join('\n')`: the texts of a test case's failures, one
      after the other, a missing text counting as empty. */
  function CaseMessage(c: TestCase): string
  {
    Text.Join(Seqs.Map((f: JunitXml.Failure) => f.text.GetOr(""), c.failure.GetOr([])), "\n")
  }

  /** The joined message splits back into the failure texts when none of them spans
      several lines. */
  lemma CaseMessageSplit(c: TestCase)
    requires c.failure.Some? && |c.failure.value| >= 1
    requires forall i :: 0 <= i < |c.failure.value| ==> '\n' !in c.failure.value[i].text.GetOr("")
    ensures Text.Split(CaseMessage(c), "\n")
         == Seqs.Map((f: JunitXml.Failure) => f.text.GetOr(""), c.failure.value)
  {
    var texts := Seqs.Map((f: JunitXml.Failure) => f.text.GetOr(""), c.failure.value);
    Text.SplitJoin(texts, '\n');
  }

  /** `message.split(': ').slice(1).join(': ').trim()`: a golangci-lint message without
      the location in front of it. */
  function LintMessage(message: string): (r: string)
  {
    Text.Trim(Text.AfterFirst(message, ": "))
  }

  /** A location without spaces in front of ': ' is removed from the message. */
  lemma MessageParts(location: string, text: string)
    requires ' ' !in location
    ensures LintMessage(location + ": " + text) == Text.Trim(text)
  {
    var s := location + ": " + text;
    var n := |location|;
    assert s[n..n + 2] == ": ";
    assert Text.OccursAt(s, ": ", n);
    forall j: nat | j < n ensures !Text.OccursAt(s, ": ", j) {
      assert s[j + 1] != ' ' by {
        if j + 1 < n {
          assert s[j + 1] == location[j + 1];
        }
      }
      if j + 2 <= |s| {
        assert s[j..j + 2][1] == s[j + 1];
      }
    }
    var i := Text.IndexOf(s, ": ").value;
    assert i == n;
    assert s[n + 2..] == text;
  }

  /** Where a golangci-lint finding is: the directory and the file of the classname's
      path, and its line. */
  datatype Location = Location(subDir: string, file: string, line: nat)

  /** `const [fullPath, line] = classname.split(':')`, then `path.dirname(fullPath)`,
      `path.basename(fullPath)` and `parseInt(line)`. */
  function LintLocation(classname: string): (r: Location)
    ensures '/' !in r.file
  {
    var parts := Text.Split(classname, ":");
    var fullPath := parts[0];
    var line := if |parts| >= 2 then Text.Decimal(parts[1]) else 0;
    Location(Paths.Dirname(fullPath), Paths.Basename(fullPath), line)
  }

  /** A classname 'dir/file:line:column' gives the directory, the file and the line. */
  lemma LocationParts(dir: string, file: string, line: nat, column: string)
    requires dir != "" && ':' !in dir && ':' !in file && '/' !in file && ':' !in column
    ensures LintLocation(dir + "/" + file + ":" + Text.NatToString(line) + ":" + column)
         == Location(dir, file, line)
  {
    var p := dir + "/" + file;
    var d := Text.NatToString(line);
    var classname := dir + "/" + file + ":" + d + ":" + column;
    assert Text.Split(classname, ":") == [p, d, column] by {
      assert ':' !in p;
      assert ':' !in d by {
        forall k | 0 <= k < |d| ensures d[k] != ':' {
          assert Text.IsDigit(d[k]);
        }
      }
      Text.JoinThree(p, d, column, ":");
      Text.SplitJoin([p, d, column], ':');
    }
    assert Text.Decimal(d) == line by {
      Text.DecimalNatToString(line);
    }
    assert Paths.Dirname(p) == dir && Paths.Basename(p) == file by {
      assert p == dir + ['/'] + file;
      Text.LastIndexOfJoin(dir, '/', file);
      assert p[|dir| + 1..] == file;
      assert p[..|dir|] == dir;
    }
  }

  /** A golangci-lint finding read from a failing test case. */
  datatype LintFailure = LintFailure(subDir: string, file: string, line: nat, test: string, message: string)

  const NoFailure := "golangci-lint test case has no failure"
  const MultipleFailures := "golangci-lint test case has multiple failures"

  /** A failing golangci-lint test case, which must hold exactly one failure element:
      its location from the classname, its name and the message of that failure. */
  function ParseLintCase(c: TestCase): (r: Fallible<LintFailure>)
    ensures r.Ok? <==> c.failure.Some? && |c.failure.value| == 1
    ensures r.Throws? ==> r.message == (if |c.failure.GetOr([])| == 0 then NoFailure else MultipleFailures)
    ensures r.Ok? ==> r.value.test == c.name && r.value.message == LintMessage(c.failure.value[0].message)
    ensures r.Ok? ==> var loc := LintLocation(c.classname);
      r.value.subDir == loc.subDir && r.value.file == loc.file && r.value.line == loc.line
  {
    if c.failure.None? || |c.failure.value| == 0 then Throws(NoFailure)
    else if |c.failure.value| > 1 then Throws(MultipleFailures)
    else
      var loc := LintLocation(c.classname);
      Ok(LintFailure(loc.subDir, loc.file, loc.line, c.name, LintMessage(c.failure.value[0].message)))
  }

  /** The position of the first case that cannot be read, |cases| when there is none. */
  function FirstUnreadable(cases: seq<TestCase>): (i: nat)
    ensures i <= |cases|
    ensures forall j :: 0 <= j < i ==> ParseLintCase(cases[j]).Ok?
    ensures i < |cases| ==> ParseLintCase(cases[i]).Throws?
  {
    FirstThrowing(ParseLintCase, cases)
  }

  /** `cases.map(parse)`, which throws the error of the first case that cannot be read. */
  function ParseLintCases(cases: seq<TestCase>): (r: Fallible<seq<LintFailure>>)
    ensures r.Ok? <==> FirstUnreadable(cases) == |cases|
    ensures r.Ok? ==> |r.value| == |cases|
    ensures r.Ok? ==> forall i :: 0 <= i < |cases| ==> Ok(r.value[i]) == ParseLintCase(cases[i])
    ensures r.Throws? ==> r.message == ParseLintCase(cases[FirstUnreadable(cases)]).message
  {
    MapAll(ParseLintCase, cases)
  }

  /** The failing test cases, suite by suite; none without a suite list. */
  function LintCases(suites: Option<seq<TestSuite>>): seq<TestCase>
  {
    if suites.Some? then FailingCases(suites.value) else []
  }

  /** A failing test case golangci-lint could have written: one failure element. */
  predicate Readable(c: TestCase)
  {
    c.failure.Some? && |c.failure.value| == 1
  }

  /** The findings of every failing test case, in order, or the error of the first case
      that does not hold exactly one failure element. */
  function LintFailures(suites: Option<seq<TestSuite>>): (r: Fallible<seq<LintFailure>>)
    ensures suites.None? ==> r == Ok([])
    ensures var cases := LintCases(suites);
      r.Ok? <==> forall i :: 0 <= i < |cases| ==> Readable(cases[i])
    ensures r.Ok? ==> |r.value| == |LintCases(suites)|
    ensures var cases := LintCases(suites);
      r.Ok? ==> forall i :: 0 <= i < |cases| ==> ParseLintCase(cases[i]) == Ok(r.value[i])
    ensures var cases := LintCases(suites);
      r.Throws? ==> (FirstUnreadable(cases) < |cases| && !Readable(cases[FirstUnreadable(cases)]) &&
        r.message == (if cases[FirstUnreadable(cases)].failure.GetOr([]) == [] then NoFailure else MultipleFailures))
  {
    ParseLintCases(LintCases(suites))
  }

  /** The classname 'go/app/foo_test.go:12:34' is line 12 of foo_test.go in go/app. */
  lemma LocationExample()
    ensures LintLocation("go/app/foo_test.go:12:34") == Location("go/app", "foo_test.go", 12)
  {
    Reports.Twelve();
    assert "go/app/foo_test.go:12:34" == "go/app" + "/" + "foo_test.go" + ":" + Text.NatToString(12) + ":" + "34";
    LocationParts("go/app", "foo_test.go", 12, "34");
  }

  /** The message 'go/app/foo_test.go:39:21: Error' is 'Error'. */
  lemma MessageExample(message: string)
    requires message == "go/app/foo_test.go:39:21: Error"
    ensures LintMessage(message) == "Error"
  {
    var location := "go/app/foo_test.go:39:21";
    assert ' ' !in location;
    assert message == location + ": " + "Error";
    MessageParts(location, "Error");
    TrimWord();
  }

  lemma TrimWord()
    ensures Text.Trim("Error") == "Error"
  {
    assert Text.LeadingSpaces("Error") == 0 by {
      assert !Text.IsSpace("Error"[0]);
    }
    assert Text.TrailingSpaces("Error") == 0 by {
      assert !Text.IsSpace("Error"[4]);
    }
  }

  /** The test case of a golangci-lint report: 'go/app/foo_test.go:12:34' with the
      message 'go/app/foo_test.go:39:21: Error' is an 'Error' at line 12 of foo_test.go
      in go/app. */
  lemma LintCaseExample(c: TestCase)
    requires c == TestCase(
      "go/app/foo_test.go:12:34", None, "errcheck", None,
      Some([JunitXml.Failure("go/app/foo_test.go:39:21: Error", "", None)]), None)
    ensures ParseLintCase(c) == Ok(LintFailure("go/app", "foo_test.go", 12, "errcheck", "Error"))
  {
    assert LintLocation(c.classname) == Location("go/app", "foo_test.go", 12) by {
      LocationExample();
    }
    assert LintMessage(c.failure.value[0].message) == "Error" by {
      MessageExample(c.failure.value[0].message);
    }
  }

  /** Every value is the same. */
  predicate AllSame(values: seq<string>)
  {
    forall i :: 0 <= i < |values| ==> values[i] == values[0]
  }

  function MultipleVersions(count: nat): string
  {
    "multiple go.version properties found: " + Text.NatToString(count)
  }

  function NoVersionMatch(value: string): string
  {
    "go.version does not match the regex: " + value
  }

  /** The version named by the `go.version` properties once some were found: they must
      agree (a `Set` of size 1) and their value must hold a version. */
  function SingleGoVersion(values: seq<string>): (r: Fallible<string>)
    requires |values| > 0
    ensures r.Ok? <==> AllSame(values) && GoVersionMatch(values[0]).Some?
    ensures r.Ok? ==> forall i :: 0 <= i < |values| ==> GoVersionMatch(values[i]) == Some(r.value)
    ensures !AllSame(values) ==>
      |Seqs.Distinct(values)| >= 2 && r == Throws(MultipleVersions(|Seqs.Distinct(values)|))
    ensures AllSame(values) && GoVersionMatch(values[0]).None? ==> r == Throws(NoVersionMatch(values[0]))
  {
    Seqs.DistinctOne(values);
    var size := |Seqs.Distinct(values)|;
    if size != 1 then Throws(MultipleVersions(size))
    else
      match GoVersionMatch(values[0])
      case None => Throws(NoVersionMatch(values[0]))
      case Some(v) => Ok(v)
  }

  /** The `go.version` values of all suites, in document order. */
  function VersionValues(suites: Option<seq<TestSuite>>): seq<string>
  {
    GoVersionValues(AllProperties(suites.GetOr([])))
  }
}

=== FILE: reports.dfy ===
/** The report records of src/report/type.ts and the report classes of src/report/:
    what each failure, annotation and summary contributes to a table row. */
module Reports {
  import opened Wrappers
  import opened Types
  import Text
  import Paths

  /** `FailureRecord`; `kind` is the `type` field. */
  datatype FailureRecord = FailureRecord(kind: string, test: string, message: string)

  datatype AnnotationRecord = AnnotationRecord(body: string)

  datatype AnnotationReport = AnnotationReport(index: string, record: AnnotationRecord)

  /** `FailureReport`: a report of a failure that also carries its annotation. */
  datatype FailureReport = FailureReport(index: string, record: FailureRecord, annotation: AnnotationReport)

  datatype GotestsumSummaryRecord = GotestsumSummaryRecord(
    version: Option<string>, result: string, passed: string, failed: string, time: Option<string>)

  datatype GolangCILintSummaryRecord = GolangCILintSummaryRecord(result: string)

  datatype GotestsumSummaryReport = GotestsumSummaryReport(index: string, record: GotestsumSummaryRecord)

  datatype GolangCILintSummaryReport = GolangCILintSummaryReport(index: string, record: GolangCILintSummaryRecord)

  /** `Object.values` of a failure record. */
  function FailureValues(r: FailureRecord): seq<Option<string>>
  {
    [Some(r.kind), Some(r.test), Some(r.message)]
  }

  /** `Object.values` of a gotestsum summary record. */
  function GotestsumValues(r: GotestsumSummaryRecord): seq<Option<string>>
  {
    [r.version, Some(r.result), Some(r.passed), Some(r.failed), r.time]
  }

  /** `Object.values` of a golangci-lint summary record. */
  function GolangCILintValues(r: GolangCILintSummaryRecord): seq<Option<string>>
  {
    [Some(r.result)]
  }

  const FailedMark := "\U{274C}Failed"
  const PassedMark := "\U{2705}Passed"

  /** `result === Result.Failed ? '❌Failed' : '✅Passed'` */
  function ResultMark(r: Result): (m: string)
    ensures m == FailedMark <==> r == Failed
    ensures m == PassedMark <==> r != Failed
  {
    if r == Failed then FailedMark else PassedMark
  }

  /** `time?.toFixed(1).concat('s') ?? '-'`, for a time already formatted by `toFixed(1)`. */
  function TimeCell(time: Option<string>): (cell: string)
    ensures cell == "-" <==> time.None?
    ensures time.Some? ==> cell == time.value + "s"
  {
    match time
    case None => "-"
    case Some(t) =>
      assert (t + "s")[|t|] == 's';
      t + "s"
  }

  /** `FailureReportImpl` */
  datatype FailureReportImpl = FailureReportImpl(
    kind: ReporterType, moduleDir: string, subDir: string, file: string,
    line: nat, test: string, message: string)

  function FullPath(f: FailureReportImpl): string
  {
    Paths.JoinPaths([f.moduleDir, f.subDir, f.file])
  }

  /** `toIndex()`: the joined path and the line, which the index splits back into at
      its last ':'. */
  function ToIndex(f: FailureReportImpl): (index: string)
    ensures Text.LastIndexOf(index, ':') == Some(|FullPath(f)|)
    ensures index[..|FullPath(f)|] == FullPath(f)
    ensures Text.Decimal(index[|FullPath(f)| + 1..]) == f.line
  {
    LocationSplit(FullPath(f), f.line);
    Location(FullPath(f), f.line)
  }

  /** `toRecord()`: the reporter type's name, the test, and the message on one line. */
  function ToRecord(f: FailureReportImpl): (r: FailureRecord)
    ensures r.kind == ReporterTypeName(f.kind) && r.test == f.test
    ensures |r.message| == |f.message| && '\n' !in r.message
    ensures forall k :: 0 <= k < |f.message| ==>
      r.message[k] == (if f.message[k] == '\n' then ' ' else f.message[k])
  {
    FailureRecord(ReporterTypeName(f.kind), f.test, Text.ReplaceNewlines(f.message))
  }

  /** `AnnotationReportImpl` */
  datatype AnnotationReportImpl = AnnotationReportImpl(filePath: string, line: nat, message: string)

  const ErrorCommand := "::error file="

  /** `index`: the file and the line, split back at the last ':'. */
  function AnnotationIndex(a: AnnotationReportImpl): (index: string)
    ensures Text.LastIndexOf(index, ':') == Some(|a.filePath|)
    ensures index[..|a.filePath|] == a.filePath
    ensures Text.Decimal(index[|a.filePath| + 1..]) == a.line
  {
    LocationSplit(a.filePath, a.line);
    Location(a.filePath, a.line)
  }

  /** `record`: a GitHub `::error` workflow command naming the file and the line, with
      the message kept verbatim, line breaks included, at its end. */
  function AnnotationBody(a: AnnotationReportImpl): (r: AnnotationRecord)
    ensures |r.body| >= |ErrorCommand| + |a.filePath| + |a.message|
    ensures r.body[..|ErrorCommand| + |a.filePath|] == ErrorCommand + a.filePath
    ensures r.body[|r.body| - |a.message|..] == a.message
    ensures var mid := r.body[|ErrorCommand| + |a.filePath|..|r.body| - |a.message|];
      && |mid| >= 8 && mid[..6] == ",line=" && mid[|mid| - 2..] == "::"
      && Text.AllDigits(mid[6..|mid| - 2]) && Text.Decimal(mid[6..|mid| - 2]) == a.line
  {
    var d := Text.NatToString(a.line);
    Text.DecimalNatToString(a.line);
    var body := ErrorCommand + a.filePath + ",line=" + d + "::" + a.message;
    var p := |ErrorCommand| + |a.filePath|;
    assert body[p..|body| - |a.message|] == ",line=" + d + "::";
    AnnotationRecord(ErrorCommand + a.filePath + ",line=" + Text.NatToString(a.line) + "::" + a.message)
  }

  lemma Twelve()
    ensures Text.NatToString(12) == "12"
  {
    assert Text.DigitChar(1) == '1';
    assert Text.DigitChar(2) == '2';
    assert Text.NatToString(1) == "1";
  }

  /** The index of an error at line 12 of path/to/app/foo.go. */
  lemma AnnotationIndexExample()
    ensures AnnotationIndex(AnnotationReportImpl("path/to/app/foo.go", 12, "Error")) == "path/to/app/foo.go:12"
  {
    Twelve();
  }

  /** The annotation of an error at line 12 of path/to/app/foo.go. */
  lemma AnnotationBodyExample()
    ensures AnnotationBody(AnnotationReportImpl("path/to/app/foo.go", 12, "Error")).body
         == "::error file=" + "path/to/app/foo.go" + ",line=" + "12" + "::" + "Error"
  {
    Twelve();
  }

  /** `GotestsumReportImpl`; a time is kept as the text `toFixed(1)` gives. */
  datatype GotestsumReportImpl = GotestsumReportImpl(
    moduleDir: string, result: Result, passed: int, failed: int,
    version: Option<string>, time: Option<string>)

  /** `toRecord()`: '-' for an absent version or time, the result mark, and the counts
      in decimal, which read back as the counts. */
  function GotestsumToRecord(g: GotestsumReportImpl): (r: GotestsumSummaryRecord)
    ensures r.version == Some(g.version.GetOr("-")) && r.time == Some(TimeCell(g.time))
    ensures r.result == FailedMark <==> g.result == Failed
    ensures Text.SignedDecimal(r.passed) == g.passed && Text.SignedDecimal(r.failed) == g.failed
  {
    Text.SignedDecimalIntToString(g.passed);
    Text.SignedDecimalIntToString(g.failed);
    GotestsumSummaryRecord(
      Some(g.version.GetOr("-")), ResultMark(g.result),
      Text.IntToString(g.passed), Text.IntToString(g.failed), Some(TimeCell(g.time)))
  }

  /** `GolangCILintReportImpl` */
  datatype GolangCILintReportImpl = GolangCILintReportImpl(rootDir: string, result: Result)

  /** `toRecord()`: '❌Failed' exactly for a failed lint, '✅Passed' for any other result. */
  function GolangCILintToRecord(g: GolangCILintReportImpl): (r: GolangCILintSummaryRecord)
    ensures r.result == FailedMark <==> g.result == Failed
    ensures r.result == PassedMark <==> g.result in {Passed, Skipped, Unknown}
  {
    GolangCILintSummaryRecord(ResultMark(g.result))
  }
}

=== FILE: repository.dfy ===
/** `Repository` (src/repository.ts): the Markdown comment and the annotation lines made
    from the JUnit reports of the repository's modules, with a three-way result line, a
    module table with a version column and a failure table cut at a limit. */
module Repositories {
  import opened Wrappers
  import opened Types
  import Text
  import Seqs
  import Markdown
  import Reports
  import DataViews
  import JunitTestCases
  import MarkdownReports

  /** A `JUnitReport` as the repository reads it: the module directory, the result and
      counts, the time already formatted by `toFixed(1)`, the Go version, and the
      located failing test cases. */
  datatype Reporter = Reporter(
    directory: string, result: Result, passed: int, failed: nat, skipped: nat,
    time: Option<string>, version: Option<string>, failures: seq<JunitTestCases.TestCase>)

  /** The reporters' results, in order. */
  function ResultOf(r: Reporter): Result
  {
    r.result
  }

  function Results(reporters: seq<Reporter>): (rs: seq<Result>)
    ensures |rs| == |reporters| && forall k :: 0 <= k < |reporters| ==> rs[k] == reporters[k].result
  {
    Seqs.Map(ResultOf, reporters)
  }

  const UnknownText := "`Unknown`\U{1F937}"

  /** The result line: Passed when every reporter passed (so also for none), else Failed
      when one failed, else Unknown. */
  function ResultText(results: seq<Result>): (text: string)
    ensures text == MarkdownReports.PassedText <==> forall k :: 0 <= k < |results| ==> results[k] == Passed
    ensures text == MarkdownReports.FailedText <==> Failed in results
    ensures text == UnknownText <==> Failed !in results && (Skipped in results || Unknown in results)
  {
    assert MarkdownReports.PassedText[1] == 'P' && MarkdownReports.FailedText[1] == 'F' && UnknownText[1] == 'U';
    if forall k :: 0 <= k < |results| ==> results[k] == Passed then MarkdownReports.PassedText
    else if Failed in results then MarkdownReports.FailedText
    else UnknownText
  }

  const ModuleHeader := "| Module | Version | Result | Passed | Failed | Skipped | Time |"
  const ModuleSeparator := "| :----- | ------: | :----- | -----: | -----: | ------: | ---: |"

  /** The cells of a module's row after its link: the version or '-', the result mark,
      the passed, failed and skipped counts in decimal, and the time or '-'. */
  function ModuleCells(r: Reporter): (cells: seq<string>)
    ensures |cells| == 6
    ensures cells[0] == "-" <==> r.version.None? || r.version.value == "-"
    ensures r.version.Some? ==> cells[0] == r.version.value
    ensures cells[1] == Reports.FailedMark <==> r.result == Failed
    ensures cells[1] == Reports.PassedMark <==> r.result != Failed
    ensures Text.SignedDecimal(cells[2]) == r.passed
    ensures Text.Decimal(cells[3]) == r.failed && Text.Decimal(cells[4]) == r.skipped
    ensures cells[5] == "-" <==> r.time.None?
  {
    Text.SignedDecimalIntToString(r.passed);
    Text.DecimalNatToString(r.failed);
    Text.DecimalNatToString(r.skipped);
    [r.version.GetOr("-"), Reports.ResultMark(r.result), Text.IntToString(r.passed),
     Text.NatToString(r.failed), Text.NatToString(r.skipped), Reports.TimeCell(r.time)]
  }

  /** `| [dir](blob url) | version | mark | passed | failed | skipped | time |` */
  function ModuleLine(c: GitHubContext, r: Reporter): string
  {
    Markdown.PipeLine(DataViews.PathLink(r.directory, c.owner, c.repo, c.sha), ModuleCells(r))
  }

  /** `makeModuleTable`: '' without reporters, otherwise a table with one row per
      reporter, in order. */
  function ModuleTable(c: GitHubContext, reporters: seq<Reporter>): (t: string)
    ensures t == "" <==> reporters == []
    ensures reporters != [] ==>
      t == Markdown.TableText(ModuleHeader, ModuleSeparator, Seqs.Map((r: Reporter) => ModuleLine(c, r), reporters))
  {
    if |reporters| == 0 then ""
    else
      var lines := Seqs.Map((r: Reporter) => ModuleLine(c, r), reporters);
      MarkdownReports.TemplateTable(ModuleHeader, ModuleSeparator, lines);
      ModuleHeader + "\n" + ModuleSeparator + "\n" + Text.Join(lines, "\n")
  }

  function FailuresOf(r: Reporter): seq<JunitTestCases.TestCase>
  {
    r.failures
  }

  /** `reporters.map(reporter => reporter.failures).flat()` */
  function Failures(reporters: seq<Reporter>): seq<JunitTestCases.TestCase>
  {
    Seqs.Flatten(Seqs.Map(FailuresOf, reporters))
  }

  /** The failures of two lists of reporters follow each other; none without reporters. */
  lemma FailuresConcat(a: seq<Reporter>, b: seq<Reporter>)
    ensures Failures(a + b) == Failures(a) + Failures(b)
    ensures Failures([]) == []
  {
    Seqs.MapConcat(FailuresOf, a, b);
    Seqs.FlattenConcat(Seqs.Map(FailuresOf, a), Seqs.Map(FailuresOf, b));
  }

  /** `failures.slice(0, limit)` */
  function Shown(failures: seq<JunitTestCases.TestCase>, limit: nat): (shown: seq<JunitTestCases.TestCase>)
    ensures |shown| == (if limit < |failures| then limit else |failures|)
    ensures shown == failures[..|shown|]
  {
    if limit < |failures| then failures[..limit] else failures
  }

  /** The failure table for a list of failures: '' without failures; otherwise a row for
      each of the first `limit` failures, in order, followed by an ellipsis row exactly
      when there are more than `limit`. A limit of 0 leaves an empty line above the
      ellipsis. */
  function FailureTable(c: GitHubContext, failures: seq<JunitTestCases.TestCase>, limit: nat): (t: string)
    ensures t == "" <==> failures == []
    ensures failures != [] && limit > 0 ==>
      t == Markdown.TableText(MarkdownReports.FailureHeader, MarkdownReports.FailureSeparator,
        Seqs.Map((f: JunitTestCases.TestCase) => MarkdownReports.FailureLine(c, f), Shown(failures, limit))
        + (if |failures| > limit then [MarkdownReports.Ellipsis] else []))
    ensures failures != [] && limit == 0 ==>
      t == Markdown.TableText(MarkdownReports.FailureHeader, MarkdownReports.FailureSeparator, ["", MarkdownReports.Ellipsis])
  {
    if |failures| == 0 then ""
    else
      var lines := Seqs.Map((f: JunitTestCases.TestCase) => MarkdownReports.FailureLine(c, f), Shown(failures, limit));
      var more := if |failures| > limit then "\n" + MarkdownReports.Ellipsis else "";
      var t := MarkdownReports.FailureHeader + "\n" + MarkdownReports.FailureSeparator + "\n" + Text.Join(lines, "\n") + more;
      FailureTableForm(lines, |failures| > limit, limit == 0);
      t
  }

  /** The three shapes the template gives the failure table. */
  lemma FailureTableForm(lines: seq<string>, over: bool, none: bool)
    requires none <==> lines == []
    requires none ==> over
    ensures var h, s := MarkdownReports.FailureHeader, MarkdownReports.FailureSeparator;
      var t := h + "\n" + s + "\n" + Text.Join(lines, "\n") + (if over then "\n" + MarkdownReports.Ellipsis else "");
      && (!none ==> t == Markdown.TableText(h, s, lines + (if over then [MarkdownReports.Ellipsis] else [])))
      && (none ==> t == Markdown.TableText(h, s, ["", MarkdownReports.Ellipsis]))
  {
    var h, s, e := MarkdownReports.FailureHeader, MarkdownReports.FailureSeparator, MarkdownReports.Ellipsis;
    if none {
      MarkdownReports.TemplateTableSnoc(h, s, [""], e, "\n");
      assert [""] + [e] == ["", e];
    } else if over {
      MarkdownReports.TemplateTableSnoc(h, s, lines, e, "\n");
    } else {
      assert lines + [] == lines;
      MarkdownReports.TemplateTable(h, s, lines);
    }
  }

  /** `makeMarkdownReport`: the comment, with the failure section present exactly when
      some reporter has a failure. */
  function MarkdownReport(c: MarkdownReports.MarkdownContext, reporters: seq<Reporter>, limit: nat): (doc: string)
    ensures reporters == [] ==>
      doc == MarkdownReports.Top(c, MarkdownReports.PassedText) + MarkdownReports.NoResults + "\n\n" + MarkdownReports.Footer(c)
    ensures reporters != [] && Failures(reporters) == [] ==>
      doc == MarkdownReports.Top(c, ResultText(Results(reporters)))
        + ModuleTable(MarkdownReports.TableContext(c), reporters) + "\n\n" + MarkdownReports.Footer(c)
    ensures Failures(reporters) != [] ==>
      doc == MarkdownReports.Top(c, ResultText(Results(reporters)))
        + ModuleTable(MarkdownReports.TableContext(c), reporters) + "\n" + MarkdownReports.SectionOpening
        + FailureTable(MarkdownReports.TableContext(c), Failures(reporters), limit)
        + MarkdownReports.SectionClosing + "\n" + MarkdownReports.Footer(c)
  {
    var t := MarkdownReports.TableContext(c);
    MarkdownReports.Document(
      c, ResultText(Results(reporters)), ModuleTable(t, reporters), FailureTable(t, Failures(reporters), limit))
  }

  /** `makeAnnotationMessages`: one `::error` line per failure, reporters in order. */
  function AnnotationMessages(reporters: seq<Reporter>): (r: seq<string>)
    ensures |r| == |Failures(reporters)|
    ensures forall k :: 0 <= k < |r| ==>
      r[k] == Reports.AnnotationBody(Reports.AnnotationReportImpl(
        JunitTestCases.FullPath(Failures(reporters)[k]), Failures(reporters)[k].line, Failures(reporters)[k].message)).body
  {
    MarkdownReports.AnnotationLines(Failures(reporters))
  }

  /** The annotations of two lists of reporters follow each other. */
  lemma AnnotationMessagesConcat(a: seq<Reporter>, b: seq<Reporter>)
    ensures AnnotationMessages(a + b) == AnnotationMessages(a) + AnnotationMessages(b)
  {
    FailuresConcat(a, b);
    MarkdownReports.AnnotationLinesConcat(Failures(a), Failures(b));
  }
}

=== FILE: repository_factory.dfy ===
/** `GoRepositoryFactory.fromXml`: the reading of every test and lint directory's report and
    their merge into one module per directory (src/factory.ts). The XML parser is the
    `parse` parameter; the reads happen in directory order. */
module GoRepositoryFactories {
  import opened Wrappers
  import Seqs
  import Paths
  import JunitXml
  import GotestsumReports
  import GolangCILintReports

  /** A module of the repository: its directory and the reports found there. */
  datatype GoModule = GoModule(
    path: string,
    test: Option<GotestsumReports.GotestsumReport>,
    lint: Option<GolangCILintReports.GolangCILintReport>)

  /** The report of a directory: `parser(path.join(d, fileName))`. */
  function Reader(parse: string -> JunitXml.Report, fileName: string): string -> JunitXml.Report
  {
    d => parse(Paths.JoinPaths([d, fileName]))
  }

  /** The module of directory d: the test report when d is a test directory and the lint
      report when d is a lint directory. */
  function ModuleOf(
    readTest: string -> JunitXml.Report, readLint: string -> JunitXml.Report,
    testDirectories: seq<string>, lintDirectories: seq<string>, d: string): GoModule
  {
    GoModule(
      d,
      if d in testDirectories then Some(GotestsumReports.GotestsumReport(d, readTest(d))) else None,
      if d in lintDirectories then Some(GolangCILintReports.GolangCILintReport(d, readLint(d))) else None)
  }

  /** The directories of the modules, in the order the merge sets them. */
  function ModuleDirectories(testDirectories: seq<string>, lintDirectories: seq<string>): seq<string>
  {
    Seqs.Distinct(testDirectories + lintDirectories)
  }

  /** Every test or lint directory makes exactly one module; test directories come first,
      in first-occurrence order, then the lint directories that are not test directories. */
  lemma ModuleDirectoriesSpec(testDirectories: seq<string>, lintDirectories: seq<string>)
    ensures var ds := ModuleDirectories(testDirectories, lintDirectories);
      && (forall d :: d in ds <==> d in testDirectories || d in lintDirectories)
      && (forall i, j :: 0 <= i < j < |ds| ==> ds[i] != ds[j])
      && ds == Seqs.Distinct(testDirectories) + Seqs.Distinct(Seqs.Without(lintDirectories, testDirectories))
  {
    Seqs.DistinctSpec(testDirectories + lintDirectories);
    Seqs.DistinctConcat(testDirectories, lintDirectories);
  }

  /** Setting x after xs adds x at the end unless it is already a key. */
  lemma DistinctSnoc(xs: seq<string>, x: string)
    ensures Seqs.Distinct(xs + [x]) == if x in xs then Seqs.Distinct(xs) else Seqs.Distinct(xs) + [x]
  {
    assert (xs + [x])[..|xs|] == xs;
    Seqs.DistinctSpec(xs);
  }

  /** The entries of the map after the test reports are set: each test directory's
      module holds its test report only. */
  method SetTestReports(
    readTest: string -> JunitXml.Report, testDirectories: seq<string>,
    test: seq<GotestsumReports.GotestsumReport>)
    returns (entries: map<string, GoModule>, keys: seq<string>)
    requires |test| == |testDirectories|
    requires forall i :: 0 <= i < |test| ==> test[i] == GotestsumReports.GotestsumReport(testDirectories[i], readTest(testDirectories[i]))
    ensures keys == Seqs.Distinct(testDirectories)
    ensures forall d :: d in entries <==> d in testDirectories
    ensures forall d :: d in entries ==> entries[d] == GoModule(d, Some(GotestsumReports.GotestsumReport(d, readTest(d))), None)
    ensures forall i :: 0 <= i < |keys| ==> keys[i] in entries
  {
    entries := map[];
    keys := [];
    for i := 0 to |test|
      invariant keys == Seqs.Distinct(testDirectories[..i])
      invariant forall d :: d in entries <==> d in testDirectories[..i]
      invariant forall d :: d in entries ==> entries[d] == GoModule(d, Some(GotestsumReports.GotestsumReport(d, readTest(d))), None)
      invariant forall i :: 0 <= i < |keys| ==> keys[i] in entries
    {
      var d := test[i];
      assert testDirectories[..i + 1] == testDirectories[..i] + [d.path] by {
        PrefixSnoc(testDirectories, i);
      }
      DistinctSnoc(testDirectories[..i], d.path);
      if d.path !in entries {
        keys := keys + [d.path];
      }
      entries := entries[d.path := GoModule(d.path, Some(d), None)];
    }
    assert testDirectories[..|test|] == testDirectories;
  }

  /** The entries of the map after the lint reports are set too: a lint directory's
      module keeps any test report and gains its lint report; a new one is added last. */
  method SetLintReports(
    readTest: string -> JunitXml.Report, readLint: string -> JunitXml.Report,
    testDirectories: seq<string>, lintDirectories: seq<string>, lint: seq<GolangCILintReports.GolangCILintReport>,
    entries0: map<string, GoModule>, keys0: seq<string>)
    returns (entries: map<string, GoModule>, keys: seq<string>)
    requires |lint| == |lintDirectories|
    requires forall i :: 0 <= i < |lint| ==> lint[i] == GolangCILintReports.GolangCILintReport(lintDirectories[i], readLint(lintDirectories[i]))
    requires Merged(readTest, readLint, testDirectories, [], entries0, keys0)
    ensures Merged(readTest, readLint, testDirectories, lintDirectories, entries, keys)
  {
    entries := entries0;
    keys := keys0;
    ghost var seen: seq<string> := [];
    for j := 0 to |lint|
      invariant seen == lintDirectories[..j]
      invariant Merged(readTest, readLint, testDirectories, seen, entries, keys)
    {
      var d := lint[j];
      ghost var before := entries;
      ghost var keysBefore := keys;
      entries, keys := SetLint(entries, keys, d);
      SetLintStep(readTest, readLint, testDirectories, seen, before, keysBefore, d, entries, keys);
      assert d.path == lintDirectories[j];
      PrefixSnoc(lintDirectories, j);
      seen := seen + [d.path];
    }
    assert seen == lintDirectories;
  }

  lemma PrefixSnoc<T>(xs: seq<T>, j: nat)
    requires j < |xs|
    ensures xs[..j + 1] == xs[..j] + [xs[j]]
  {
  }

  /** `Array.from(map)`: the entries in key order. */
  method Entries(entries: map<string, GoModule>, keys: seq<string>) returns (modules: seq<GoModule>)
    requires forall i :: 0 <= i < |keys| ==> keys[i] in entries
    ensures |modules| == |keys|
    ensures forall i :: 0 <= i < |keys| ==> modules[i] == entries[keys[i]]
  {
    modules := [];
    for k := 0 to |keys|
      invariant |modules| == k
      invariant forall i :: 0 <= i < k ==> modules[i] == entries[keys[i]]
    {
      modules := modules + [entries[keys[k]]];
    }
  }

  /** `map.set` of lint report d: added to the module of its directory when there is one,
      otherwise as a new module at the end. */
  method SetLint(entries0: map<string, GoModule>, keys0: seq<string>, d: GolangCILintReports.GolangCILintReport)
    returns (entries: map<string, GoModule>, keys: seq<string>)
    ensures keys == if d.path in entries0 then keys0 else keys0 + [d.path]
    ensures entries == entries0[d.path := GoModule(
      d.path, if d.path in entries0 then entries0[d.path].test else None, Some(d))]
  {
    entries, keys := entries0, keys0;
    if d.path in entries {
      entries := entries[d.path := GoModule(d.path, entries[d.path].test, Some(d))];
    } else {
      keys := keys + [d.path];
      entries := entries[d.path := GoModule(d.path, None, Some(d))];
    }
  }

  /** The map holds one module per directory of the test directories and the lint
      directories seen so far, set in that order, each with the reports of its directory. */
  ghost predicate Merged(
    readTest: string -> JunitXml.Report, readLint: string -> JunitXml.Report,
    testDirectories: seq<string>, seen: seq<string>, entries: map<string, GoModule>, keys: seq<string>)
  {
    && keys == Seqs.Distinct(testDirectories + seen)
    && (forall x :: x in entries <==> x in testDirectories || x in seen)
    && (forall x :: x in entries ==> entries[x] == ModuleOf(readTest, readLint, testDirectories, seen, x))
    && (forall i :: 0 <= i < |keys| ==> keys[i] in entries)
  }

  /** Setting the lint report of directory d keeps the map the merge of the lint
      directories seen so far and d. */
  lemma SetLintStep(
    readTest: string -> JunitXml.Report, readLint: string -> JunitXml.Report,
    testDirectories: seq<string>, seen: seq<string>, entries: map<string, GoModule>, keys: seq<string>,
    d: GolangCILintReports.GolangCILintReport, entries': map<string, GoModule>, keys': seq<string>)
    requires Merged(readTest, readLint, testDirectories, seen, entries, keys)
    requires d == GolangCILintReports.GolangCILintReport(d.path, readLint(d.path))
    requires keys' == if d.path in entries then keys else keys + [d.path]
    requires entries' == entries[d.path := GoModule(
      d.path, if d.path in entries then entries[d.path].test else None, Some(d))]
    ensures Merged(readTest, readLint, testDirectories, seen + [d.path], entries', keys')
  {
    assert testDirectories + (seen + [d.path]) == (testDirectories + seen) + [d.path];
    DistinctSnoc(testDirectories + seen, d.path);
    forall x | x in entries'
      ensures entries'[x] == ModuleOf(readTest, readLint, testDirectories, seen + [d.path], x)
    {
      if x != d.path {
        assert x in seen + [d.path] <==> x in seen;
      }
    }
  }

  /** `fromXml`: every directory's report read, then a map from directory to its test and
      lint reports filled test directories first; its entries, in key order, are the
      modules. */
  method FromXml(
    parse: string -> JunitXml.Report, testDirectories: seq<string>, lintDirectories: seq<string>,
    testReportXml: string, lintReportXml: string)
    returns (modules: seq<GoModule>)
    ensures |modules| == |ModuleDirectories(testDirectories, lintDirectories)|
    ensures forall i :: 0 <= i < |modules| ==>
      modules[i] == ModuleOf(Reader(parse, testReportXml), Reader(parse, lintReportXml),
                             testDirectories, lintDirectories, ModuleDirectories(testDirectories, lintDirectories)[i])
  {
    var readTest, readLint := Reader(parse, testReportXml), Reader(parse, lintReportXml);
    var test := Seqs.Map((d: string) => GotestsumReports.GotestsumReport(d, readTest(d)), testDirectories);
    var lint := Seqs.Map((d: string) => GolangCILintReports.GolangCILintReport(d, readLint(d)), lintDirectories);
    var entries, keys := SetTestReports(readTest, testDirectories, test);
    assert testDirectories + [] == testDirectories;
    entries, keys := SetLintReports(readTest, readLint, testDirectories, lintDirectories, lint, entries, keys);
    modules := Entries(entries, keys);
  }
}

=== FILE: seqs.dfy ===
/** Generic sequence operations: `flat()`, and the key order of a JavaScript `Map`. */
module Seqs {

  /** `xss.flat()` for an array of arrays. */
  function Flatten<T>(xss: seq<seq<T>>): seq<T>
  {
    if |xss| == 0 then [] else Flatten(xss[..|xss| - 1]) + xss[|xss| - 1]
  }

  lemma {:induction false} FlattenConcat<T>(a: seq<seq<T>>, b: seq<seq<T>>)
    ensures Flatten(a + b) == Flatten(a) + Flatten(b)
    decreases |b|
  {
    if |b| == 0 {
      assert a + b == a;
    } else {
      var b' := b[..|b| - 1];
      assert (a + b)[..|a + b| - 1] == a + b';
      FlattenConcat(a, b');
    }
  }

  /** Flattening keeps every element of every inner sequence, in order: the i-th block sits
      right after the blocks before it. */
  lemma FlattenBlock<T>(xss: seq<seq<T>>, i: nat)
    requires i < |xss|
    ensures Flatten(xss) == Flatten(xss[..i]) + xss[i] + Flatten(xss[i + 1..])
  {
    assert xss == xss[..i] + [xss[i]] + xss[i + 1..];
    FlattenConcat(xss[..i] + [xss[i]], xss[i + 1..]);
    assert (xss[..i] + [xss[i]])[..i] == xss[..i];
  }

  /** The sum of the lengths of the inner sequences. */
  function TotalLength<T>(xss: seq<seq<T>>): nat
  {
    if |xss| == 0 then 0 else TotalLength(xss[..|xss| - 1]) + |xss[|xss| - 1]|
  }

  lemma {:induction false} FlattenLength<T>(xss: seq<seq<T>>)
    ensures |Flatten(xss)| == TotalLength(xss)
  {
    if |xss| > 0 {
      FlattenLength(xss[..|xss| - 1]);
    }
  }

  /** Inner sequences of equal lengths flatten to sequences of equal length. */
  lemma {:induction false} TotalLengthEqual<T, U>(xss: seq<seq<T>>, yss: seq<seq<U>>)
    requires |xss| == |yss|
    requires forall i :: 0 <= i < |xss| ==> |xss[i]| == |yss[i]|
    ensures TotalLength(xss) == TotalLength(yss)
  {
    if |xss| > 0 {
      TotalLengthEqual(xss[..|xss| - 1], yss[..|yss| - 1]);
    }
  }

  /** `xs.map(f)` */
  function Map<T, U>(f: T -> U, xs: seq<T>): (r: seq<U>)
    ensures |r| == |xs| && forall k :: 0 <= k < |xs| ==> r[k] == f(xs[k])
  {
    seq(|xs|, k requires 0 <= k < |xs| => f(xs[k]))
  }

  lemma MapConcat<T, U>(f: T -> U, a: seq<T>, b: seq<T>)
    ensures Map(f, a + b) == Map(f, a) + Map(f, b)
  {
  }

  /** Mapping then flattening is flattening then mapping. */
  lemma {:induction false} MapFlatten<T, U>(f: T -> U, xss: seq<seq<T>>)
    ensures Map(f, Flatten(xss)) == Flatten(Map(xs => Map(f, xs), xss))
  {
    if |xss| > 0 {
      var init := xss[..|xss| - 1];
      MapFlatten(f, init);
      MapConcat(f, Flatten(init), xss[|xss| - 1]);
      assert Map(xs => Map(f, xs), xss)[..|xss| - 1] == Map(xs => Map(f, xs), init);
    }
  }

  /** The distinct elements of xs in order of first occurrence: the key order of a
      JavaScript `Map` after `set(x, …)` was called for each x of xs in turn. */
  function Distinct<T(==)>(xs: seq<T>): seq<T>
  {
    if |xs| == 0 then []
    else
      var d := Distinct(xs[..|xs| - 1]);
      if xs[|xs| - 1] in d then d else d + [xs[|xs| - 1]]
  }

  /** Every element of xs appears in Distinct(xs) exactly once, and nothing else does. */
  lemma {:induction false} DistinctSpec<T>(xs: seq<T>)
    ensures forall x :: x in Distinct(xs) <==> x in xs
    ensures forall i, j :: 0 <= i < j < |Distinct(xs)| ==> Distinct(xs)[i] != Distinct(xs)[j]
  {
    if |xs| > 0 {
      var xs' := xs[..|xs| - 1];
      DistinctSpec(xs');
      assert xs == xs' + [xs[|xs| - 1]];
    }
  }

  /** The elements of xs that are not in ys, in order. */
  function Without<T(==)>(xs: seq<T>, ys: seq<T>): seq<T>
  {
    if |xs| == 0 then []
    else
      var r := Without(xs[..|xs| - 1], ys);
      if xs[|xs| - 1] in ys then r else r + [xs[|xs| - 1]]
  }

  lemma {:induction false} WithoutSpec<T>(xs: seq<T>, ys: seq<T>)
    ensures forall x :: x in Without(xs, ys) <==> x in xs && x !in ys
  {
    if |xs| > 0 {
      var xs' := xs[..|xs| - 1];
      WithoutSpec(xs', ys);
      assert xs == xs' + [xs[|xs| - 1]];
    }
  }

  /** Keys set first keep their place: the distinct keys of a followed by b are the distinct
      keys of a, then the keys of b that a does not have, in their own first-occurrence order. */
  lemma {:induction false} DistinctConcat<T>(a: seq<T>, b: seq<T>)
    ensures Distinct(a + b) == Distinct(a) + Distinct(Without(b, a))
    decreases |b|
  {
    if |b| == 0 {
      assert a + b == a;
    } else {
      var b' := b[..|b| - 1];
      var x := b[|b| - 1];
      var w' := Without(b', a);
      assert Distinct(a + b) == if x in Distinct(a + b') then Distinct(a + b') else Distinct(a + b') + [x] by {
        assert (a + b)[..|a + b| - 1] == a + b';
      }
      DistinctConcat(a, b');
      assert x in Distinct(a + b') <==> x in a || x in b' by {
        DistinctSpec(a + b');
      }
      if x in a {
        assert Without(b, a) == w';
      } else {
        assert Without(b, a) == w' + [x];
        assert Distinct(w' + [x]) == if x in Distinct(w') then Distinct(w') else Distinct(w') + [x] by {
          assert (w' + [x])[..|w' + [x]| - 1] == w';
        }
        assert x in Distinct(w') <==> x in b' by {
          DistinctSpec(w');
          WithoutSpec(b', a);
        }
      }
    }
  }

  lemma {:induction false} DistinctAllSame<T>(xs: seq<T>)
    requires |xs| > 0 && forall i :: 0 <= i < |xs| ==> xs[i] == xs[0]
    ensures Distinct(xs) == [xs[0]]
  {
    if |xs| > 1 {
      DistinctAllSame(xs[..|xs| - 1]);
    } else {
      assert xs[..0] == [];
    }
  }

  /** A `Set` built from xs has size 1 exactly when xs is non-empty and all its elements
      are equal. */
  lemma DistinctOne<T>(xs: seq<T>)
    ensures |Distinct(xs)| == 1 <==> |xs| > 0 && forall i :: 0 <= i < |xs| ==> xs[i] == xs[0]
    ensures |xs| > 0 ==> |Distinct(xs)| >= 1
  {
    DistinctSpec(xs);
    var d := Distinct(xs);
    if |xs| > 0 {
      assert xs[0] in d;
      if forall i :: 0 <= i < |xs| ==> xs[i] == xs[0] {
        DistinctAllSame(xs);
      }
      if |d| == 1 {
        forall i | 0 <= i < |xs| ensures xs[i] == xs[0] {
          assert xs[i] in d;
        }
      }
    }
  }
}

=== FILE: summary_tables.dfy ===
/** The summary tables: `GotestsumTable` and `GolangCILintTable` of src/table/ (titled,
    with aligned separators) and of src/composer/ (fixed separators), and the untyped
    summary tables of `TableComposerImpl` in src/composer/table.ts. Each class only
    stores the table its constructor builds and hands it back from `toTable`, so each
    is modelled by the function computing that table. */
module SummaryTables {
  import opened Wrappers
  import opened Types
  import Reports
  import TypedTables
  import UntypedTables
  import BaseTables

  function GotestsumRows(reports: seq<Reports.GotestsumSummaryReport>): (rows: seq<TypedTables.Row>)
    ensures |rows| == |reports|
    ensures forall k :: 0 <= k < |reports| ==>
      rows[k] == TypedTables.Row(reports[k].index, Reports.GotestsumValues(reports[k].record))
  {
    seq(|reports|, k requires 0 <= k < |reports| =>
      TypedTables.Row(reports[k].index, Reports.GotestsumValues(reports[k].record)))
  }

  function GolangCILintRows(reports: seq<Reports.GolangCILintSummaryReport>): (rows: seq<TypedTables.Row>)
    ensures |rows| == |reports|
    ensures forall k :: 0 <= k < |reports| ==>
      rows[k] == TypedTables.Row(reports[k].index, Reports.GolangCILintValues(reports[k].record))
  {
    seq(|reports|, k requires 0 <= k < |reports| =>
      TypedTables.Row(reports[k].index, Reports.GolangCILintValues(reports[k].record)))
  }

  /** `new GotestsumTable(title, reports).toTable()` of src/table/gotestsum.ts: the result
      column is labelled with the title, the index and result left-aligned and the
      numbers right-aligned; one row per report, in order. */
  function GotestsumTable(title: string, reports: seq<Reports.GotestsumSummaryReport>): (t: TypedTables.Table)
    ensures t.header == TypedTables.Row("Module", [Some("Version"), Some(title), Some("Passed"), Some("Failed"), Some("Time")])
    ensures t.separator == TypedTables.Row(AlignCell(Left),
      [Some(AlignCell(Right)), Some(AlignCell(Left)), Some(AlignCell(Right)), Some(AlignCell(Right)), Some(AlignCell(Right))])
    ensures t.Rows() == |reports| && t.Columns() == 5
    ensures forall k :: 0 <= k < |reports| ==> t.records[k].index == reports[k].index
    ensures BaseTables.WellFormed(t) && BaseTables.ToUntyped(t).Valid()
  {
    TypedTables.Table(
      TypedTables.Row("Module", [Some("Version"), Some(title), Some("Passed"), Some("Failed"), Some("Time")]),
      TypedTables.Row(AlignCell(Left),
        [Some(AlignCell(Right)), Some(AlignCell(Left)), Some(AlignCell(Right)), Some(AlignCell(Right)), Some(AlignCell(Right))]),
      GotestsumRows(reports))
  }

  /** `new GolangCILintTable(reports).toTable()` of src/table/golangcilint.ts: a single
      left-aligned 'Result' column; one row per report, in order. */
  function GolangCILintTable(reports: seq<Reports.GolangCILintSummaryReport>): (t: TypedTables.Table)
    ensures t.header == TypedTables.Row("Module", [Some("Result")])
    ensures t.separator == TypedTables.Row(AlignCell(Left), [Some(AlignCell(Left))])
    ensures t.Rows() == |reports| && t.Columns() == 1
    ensures forall k :: 0 <= k < |reports| ==>
      t.records[k].index == reports[k].index && t.records[k].values == [Some(reports[k].record.result)]
    ensures BaseTables.WellFormed(t) && BaseTables.ToUntyped(t).Valid()
  {
    TypedTables.Table(
      TypedTables.Row("Module", [Some("Result")]),
      TypedTables.Row(AlignCell(Left), [Some(AlignCell(Left))]),
      GolangCILintRows(reports))
  }

  const ComposerGotestsumSeparator := TypedTables.Row(":-----",
    [Some("------:"), Some(":---"), Some("-----:"), Some("-----:"), Some("---:")])

  /** `new GotestsumTable(reports).toTable()` of src/composer/gotestsum.ts. */
  function ComposerGotestsumTable(reports: seq<Reports.GotestsumSummaryReport>): (t: TypedTables.Table)
    ensures t.header == TypedTables.Row("Module", [Some("Version"), Some("Result"), Some("Passed"), Some("Failed"), Some("Time")])
    ensures t.separator == ComposerGotestsumSeparator
    ensures t.Rows() == |reports| && t.Columns() == 5
    ensures forall k :: 0 <= k < |reports| ==> t.records[k].index == reports[k].index
    ensures BaseTables.WellFormed(t)
  {
    TypedTables.Table(
      TypedTables.Row("Module", [Some("Version"), Some("Result"), Some("Passed"), Some("Failed"), Some("Time")]),
      ComposerGotestsumSeparator,
      GotestsumRows(reports))
  }

  /** `new GolangCILintTable(reports).toTable()` of src/composer/golangcilint.ts. */
  function ComposerGolangCILintTable(reports: seq<Reports.GolangCILintSummaryReport>): (t: TypedTables.Table)
    ensures t.header == TypedTables.Row("Module", [Some("Result")])
    ensures t.separator == TypedTables.Row(":-----", [Some(":---")])
    ensures t.Rows() == |reports| && t.Columns() == 1
    ensures forall k :: 0 <= k < |reports| ==>
      t.records[k].index == reports[k].index && t.records[k].values == [Some(reports[k].record.result)]
    ensures BaseTables.WellFormed(t)
  {
    TypedTables.Table(
      TypedTables.Row("Module", [Some("Result")]),
      TypedTables.Row(":-----", [Some(":---")]),
      GolangCILintRows(reports))
  }

  /** The table generation labels the result column with a title where the composer
      generation writes 'Result', and aligns differently; the rows are the same. */
  lemma GotestsumGenerations(title: string, reports: seq<Reports.GotestsumSummaryReport>)
    ensures GotestsumTable(title, reports).records == ComposerGotestsumTable(reports).records
    ensures GotestsumTable("Result", reports).header == ComposerGotestsumTable(reports).header
  {
  }

  /** One row per report, in order: its index, then its version, result, passed, failed
      and time, a missing version or time left undefined. */
  function UntypedGotestsumRows(reports: seq<Reports.GotestsumSummaryReport>): (rows: seq<UntypedTables.Row>)
    ensures |rows| == |reports|
    ensures forall k :: 0 <= k < |reports| ==> var c := reports[k].record;
      && rows[k].index == reports[k].index && |rows[k].values| == 5
      && rows[k].values[0] == c.version && rows[k].values[1] == Some(c.result)
      && rows[k].values[2] == Some(c.passed) && rows[k].values[3] == Some(c.failed)
      && rows[k].values[4] == c.time
  {
    seq(|reports|, k requires 0 <= k < |reports| =>
      UntypedTables.Row(reports[k].index, [reports[k].record.version, Some(reports[k].record.result),
        Some(reports[k].record.passed), Some(reports[k].record.failed), reports[k].record.time]))
  }

  /** `TableComposerImpl.toGotestsumTable(reports)`: the untyped summary with a 'Test'
      column. The constructor's checks always pass, so it never throws. */
  function ToGotestsumTable(reports: seq<Reports.GotestsumSummaryReport>): (r: Fallible<UntypedTables.Table>)
    ensures r.Ok?
    ensures r.value.header == UntypedTables.Row("Module", [Some("Version"), Some("Test"), Some("Passed"), Some("Failed"), Some("Time")])
    ensures r.value.separator == UntypedTables.Row(ComposerGotestsumSeparator.index, ComposerGotestsumSeparator.values)
    ensures r.value.Rows() == |reports| && r.value.Columns() == 5
    ensures forall k :: 0 <= k < |reports| ==> var c := reports[k].record;
      r.value.records[k] == UntypedTables.Row(reports[k].index, [c.version, Some(c.result), Some(c.passed), Some(c.failed), c.time])
  {
    UntypedTables.New(
      UntypedTables.Row("Module", [Some("Version"), Some("Test"), Some("Passed"), Some("Failed"), Some("Time")]),
      UntypedTables.Row(ComposerGotestsumSeparator.index, ComposerGotestsumSeparator.values),
      UntypedGotestsumRows(reports))
  }

  /** The untyped gotestsum summary has the rows of the composer `GotestsumTable`. */
  lemma ToGotestsumTableRows(reports: seq<Reports.GotestsumSummaryReport>)
    ensures ToGotestsumTable(reports).value.records == BaseTables.ToUntyped(ComposerGotestsumTable(reports)).records
  {
  }

  /** One row per report, in order: its index and its result. */
  function UntypedGolangCILintRows(reports: seq<Reports.GolangCILintSummaryReport>): (rows: seq<UntypedTables.Row>)
    ensures |rows| == |reports|
    ensures forall k :: 0 <= k < |reports| ==>
      rows[k].index == reports[k].index && rows[k].values == [Some(reports[k].record.result)]
  {
    seq(|reports|, k requires 0 <= k < |reports| =>
      UntypedTables.Row(reports[k].index, [Some(reports[k].record.result)]))
  }

  /** `TableComposerImpl.toGolangCILintTable(reports)`: the untyped summary with a single
      'Lint' column; it never throws. */
  function ToGolangCILintTable(reports: seq<Reports.GolangCILintSummaryReport>): (r: Fallible<UntypedTables.Table>)
    ensures r.Ok?
    ensures r.value.header == UntypedTables.Row("Module", [Some("Lint")])
    ensures r.value.separator == UntypedTables.Row(":-----", [Some(":---")])
    ensures r.value.Rows() == |reports| && r.value.Columns() == 1
    ensures forall k :: 0 <= k < |reports| ==>
      r.value.records[k].index == reports[k].index && r.value.records[k].values == [Some(reports[k].record.result)]
  {
    UntypedTables.New(
      UntypedTables.Row("Module", [Some("Lint")]),
      UntypedTables.Row(":-----", [Some(":---")]),
      UntypedGolangCILintRows(reports))
  }
}

=== FILE: table_factory.dfy ===
/** `TableSetFactory` of src/table/factory.ts: the result, summary, failure table and
    annotations of one group of JUnit files, and of several groups together. Reading
    the files is left to the reporter factory; a group here carries the reporters it
    made, one per directory, in directory order (`Promise.all` keeps that order). */
module TableFactories {
  import opened Wrappers
  import opened Types
  import Seqs
  import Reports
  import TypedTables
  import UntypedTables
  import BaseTables
  import SummaryTables
  import FailureTables
  import Outcomes

  /** A reporter's summary report: a test summary or a lint summary. */
  datatype Summary =
    | TestSummary(test: Reports.GotestsumSummaryReport)
    | LintSummary(lint: Reports.GolangCILintSummaryReport)
  {
    function Index(): string
    {
      match this
      case TestSummary(t) => t.index
      case LintSummary(l) => l.index
    }
  }

  /** What a reporter of `JUnitReporterFactory.fromXml` offers the factory. */
  datatype Reporter = Reporter(result: Result, summary: Summary, failures: seq<Reports.FailureReport>)

  /** An `XmlFileGroup` with the reporters made for its directories. */
  datatype XmlFileGroup = XmlFileGroup(title: string, kind: ReporterType, reporters: seq<Reporter>)

  /** `TableSet` */
  datatype TableSet = TableSet(
    result: Result, summary: UntypedTables.Table, failures: TypedTables.Table, annotations: seq<string>)

  /** The reporters of a type have summaries of that type, which the casts in
      `createSummaryTable` rely on. */
  predicate Matches(kind: ReporterType, summaries: seq<Summary>)
  {
    forall k :: 0 <= k < |summaries| ==>
      (kind == Gotestsum ==> summaries[k].TestSummary?) && (kind == GolangCILint ==> summaries[k].LintSummary?)
  }

  function Summaries(reporters: seq<Reporter>): (s: seq<Summary>)
    ensures |s| == |reporters| && forall k :: 0 <= k < |reporters| ==> s[k] == reporters[k].summary
  {
    seq(|reporters|, k requires 0 <= k < |reporters| => reporters[k].summary)
  }

  function Results(reporters: seq<Reporter>): (s: seq<Result>)
    ensures |s| == |reporters| && forall k :: 0 <= k < |reporters| ==> s[k] == reporters[k].result
  {
    seq(|reporters|, k requires 0 <= k < |reporters| => reporters[k].result)
  }

  /** `reporters.map(r => r.failures).flat()` */
  function Failures(reporters: seq<Reporter>): seq<Reports.FailureReport>
  {
    Seqs.Flatten(seq(|reporters|, k requires 0 <= k < |reporters| => reporters[k].failures))
  }

  /** The failures of several reporters are theirs in reporter order. */
  lemma FailuresConcat(a: seq<Reporter>, b: seq<Reporter>)
    ensures Failures(a + b) == Failures(a) + Failures(b)
  {
    var fa := seq(|a|, k requires 0 <= k < |a| => a[k].failures);
    var fb := seq(|b|, k requires 0 <= k < |b| => b[k].failures);
    assert seq(|a + b|, k requires 0 <= k < |a + b| => (a + b)[k].failures) == fa + fb;
    Seqs.FlattenConcat(fa, fb);
  }

  function TestReports(summaries: seq<Summary>): (r: seq<Reports.GotestsumSummaryReport>)
    requires Matches(Gotestsum, summaries)
    ensures |r| == |summaries| && forall k :: 0 <= k < |r| ==> r[k].index == summaries[k].Index()
  {
    seq(|summaries|, k requires 0 <= k < |summaries| && summaries[k].TestSummary? => summaries[k].test)
  }

  function LintReports(summaries: seq<Summary>): (r: seq<Reports.GolangCILintSummaryReport>)
    requires Matches(GolangCILint, summaries)
    ensures |r| == |summaries| && forall k :: 0 <= k < |r| ==> r[k].index == summaries[k].Index()
  {
    seq(|summaries|, k requires 0 <= k < |summaries| && summaries[k].LintSummary? => summaries[k].lint)
  }

  /** `createSummaryTable(type, title, summaries)`: the golangci-lint table or the
      gotestsum table titled by the group, as an untyped table that passes the
      constructor's checks, with one row per summary in order. */
  function CreateSummaryTable(kind: ReporterType, title: string, summaries: seq<Summary>): (r: UntypedTables.Table)
    requires Matches(kind, summaries)
    ensures r.Valid() && r.Rows() == |summaries|
    ensures r.Columns() == (if kind == GolangCILint then 1 else 5)
    ensures forall k :: 0 <= k < |summaries| ==> r.records[k].index == summaries[k].Index()
    ensures kind == Gotestsum ==> r.header.values[1] == Some(title)
  {
    match kind
    case GolangCILint => BaseTables.ToUntyped(SummaryTables.GolangCILintTable(LintReports(summaries)))
    case Gotestsum => BaseTables.ToUntyped(SummaryTables.GotestsumTable(title, TestReports(summaries)))
  }

  /** `new FailureTable(failures).toTable()` with the default limit. */
  function FailureTableOf(failures: seq<Reports.FailureReport>): TypedTables.Table
  {
    FailureTables.Truncated(
      TypedTables.Table(FailureTables.Header, FailureTables.AlignedSeparator, FailureTables.ReportRows(failures)),
      FailureTables.DefaultLimit)
  }

  /** `single(context, group)` */
  function Single(group: XmlFileGroup): TableSet
    requires Matches(group.kind, Summaries(group.reporters))
  {
    var failures := Failures(group.reporters);
    TableSet(
      Outcomes.ToResult(Results(group.reporters)),
      CreateSummaryTable(group.kind, group.title, Summaries(group.reporters)),
      FailureTableOf(failures),
      Outcomes.Annotations(failures))
  }

  /** `single` fails iff some reporter failed; its summary has a row per reporter; its
      failure table and its annotations come from the same flattened failure list: one
      annotation per failure, and the first ten table rows are the first ten failures,
      followed by one overflow row when there are more. */
  lemma SingleSpec(group: XmlFileGroup)
    requires Matches(group.kind, Summaries(group.reporters))
    ensures var s := Single(group); var fs := Failures(group.reporters); var n := |fs|;
      && (s.result == Failed <==> exists k :: 0 <= k < |group.reporters| && group.reporters[k].result == Failed)
      && s.summary.Valid() && s.summary.Rows() == |group.reporters|
      && s.annotations == Outcomes.Annotations(fs)
      && |s.annotations| == n
      && s.failures.Rows() == (if n > 10 then 11 else n)
      && (forall k :: 0 <= k < n && k < 10 ==>
            s.failures.records[k].index == fs[k].index && s.annotations[k] == fs[k].annotation.record.body)
  {
    var fs := Failures(group.reporters);
    var t := TypedTables.Table(FailureTables.Header, FailureTables.AlignedSeparator, FailureTables.ReportRows(fs));
    FailureTables.TruncatedSpec(t, FailureTables.DefaultLimit);
    var r := Single(group).failures;
    forall k | 0 <= k < |fs| && k < 10 ensures r.records[k].index == fs[k].index {
      assert r.records[k] == r.records[..FailureTables.Min(10, |fs|)][k];
    }
    if Outcomes.ToResult(Results(group.reporters)) == Failed {
      var k :| 0 <= k < |group.reporters| && Results(group.reporters)[k] == Failed;
    }
  }

  function Singles(groups: seq<XmlFileGroup>): (sets: seq<TableSet>)
    requires forall i :: 0 <= i < |groups| ==> Matches(groups[i].kind, Summaries(groups[i].reporters))
    ensures |sets| == |groups| && forall i :: 0 <= i < |groups| ==> sets[i] == Single(groups[i])
  {
    seq(|groups|, i requires 0 <= i < |groups| && Matches(groups[i].kind, Summaries(groups[i].reporters)) =>
      Single(groups[i]))
  }

  function SetResults(sets: seq<TableSet>): seq<Result>
  {
    seq(|sets|, i requires 0 <= i < |sets| => sets[i].result)
  }

  function SetSummaries(sets: seq<TableSet>): seq<UntypedTables.Table>
  {
    seq(|sets|, i requires 0 <= i < |sets| => sets[i].summary)
  }

  function SetFailures(sets: seq<TableSet>): seq<TypedTables.Table>
  {
    seq(|sets|, i requires 0 <= i < |sets| => sets[i].failures)
  }

  function SetAnnotations(sets: seq<TableSet>): seq<seq<string>>
  {
    seq(|sets|, i requires 0 <= i < |sets| => sets[i].annotations)
  }

  /** `multi(context, groups)`: nothing for no group; otherwise the first group's
      summary left-joined with the others', its failure table concatenated with the
      others', and every group's annotations in group order. */
  function Multi(groups: seq<XmlFileGroup>): (r: Option<TableSet>)
    requires forall i :: 0 <= i < |groups| ==> Matches(groups[i].kind, Summaries(groups[i].reporters))
    ensures r.None? <==> |groups| == 0
  {
    if |groups| == 0 then None
    else
      var sets := Singles(groups);
      var main := sets[0];
      var others := sets[1..];
      Some(TableSet(
        Outcomes.ToResult(SetResults(sets)),
        UntypedTables.Joined(main.summary, SetSummaries(others)),
        BaseTables.Concat(main.failures, SetFailures(others)),
        Seqs.Flatten(SetAnnotations(sets))))
  }

  /** `multi` fails iff some reporter of some group failed. */
  lemma MultiResult(groups: seq<XmlFileGroup>)
    requires |groups| > 0
    requires forall i :: 0 <= i < |groups| ==> Matches(groups[i].kind, Summaries(groups[i].reporters))
    ensures Multi(groups).value.result == Failed <==>
      exists i, k :: 0 <= i < |groups| && 0 <= k < |groups[i].reporters| && groups[i].reporters[k].result == Failed
  {
    var sets := Singles(groups);
    if Multi(groups).value.result == Failed {
      var i :| 0 <= i < |sets| && SetResults(sets)[i] == Failed;
      SingleSpec(groups[i]);
      var k :| 0 <= k < |groups[i].reporters| && groups[i].reporters[k].result == Failed;
    } else {
      forall i, k | 0 <= i < |groups| && 0 <= k < |groups[i].reporters|
        ensures groups[i].reporters[k].result != Failed
      {
        assert SetResults(sets)[i] != Failed;
        SingleSpec(groups[i]);
      }
    }
  }

  /** Each group's own summary table, in group order. */
  function GroupSummaryTables(groups: seq<XmlFileGroup>): (r: seq<UntypedTables.Table>)
    requires forall i :: 0 <= i < |groups| ==> Matches(groups[i].kind, Summaries(groups[i].reporters))
    ensures |r| == |groups|
    ensures forall i :: 0 <= i < |groups| ==>
      r[i] == CreateSummaryTable(groups[i].kind, groups[i].title, Summaries(groups[i].reporters))
  {
    seq(|groups|, i requires 0 <= i < |groups| && Matches(groups[i].kind, Summaries(groups[i].reporters)) =>
      CreateSummaryTable(groups[i].kind, groups[i].title, Summaries(groups[i].reporters)))
  }

  /** The summary of `multi` is the first group's summary table left-joined with every
      other group's, in group order; it passes the table checks and has a row per
      reporter of the first group. */
  lemma MultiSummary(groups: seq<XmlFileGroup>)
    requires |groups| > 0
    requires forall i :: 0 <= i < |groups| ==> Matches(groups[i].kind, Summaries(groups[i].reporters))
    ensures var ss := GroupSummaryTables(groups);
      Multi(groups).value.summary == UntypedTables.Joined(ss[0], ss[1..])
    ensures Multi(groups).value.summary.Valid() && Multi(groups).value.summary.Rows() == |groups[0].reporters|
  {
    var sets := Singles(groups);
    var ss := GroupSummaryTables(groups);
    var others := SetSummaries(sets[1..]);
    assert others == ss[1..];
    UntypedTables.JoinedValid(ss[0], others);
    UntypedTables.JoinedShape(ss[0], others);
  }

  /** Each group's own failure table, in group order. */
  function GroupFailureTables(groups: seq<XmlFileGroup>): (r: seq<TypedTables.Table>)
    ensures |r| == |groups|
    ensures forall i :: 0 <= i < |groups| ==> r[i] == FailureTableOf(Failures(groups[i].reporters))
  {
    seq(|groups|, i requires 0 <= i < |groups| => FailureTableOf(Failures(groups[i].reporters)))
  }

  /** The failure table of `multi` has the failure header and separator over the rows of
      every group's own failure table (each cut at the limit), in group order. */
  lemma MultiFailureRows(groups: seq<XmlFileGroup>)
    requires |groups| > 0
    requires forall i :: 0 <= i < |groups| ==> Matches(groups[i].kind, Summaries(groups[i].reporters))
    ensures var sets := Singles(groups);
      Multi(groups).value.failures.Rows() == sets[0].failures.Rows() + BaseTables.RowsSum(SetFailures(sets[1..]))
    ensures var f := Multi(groups).value.failures;
      && f.header == FailureTables.Header && f.separator == FailureTables.AlignedSeparator
      && f.records == Seqs.Flatten(BaseTables.RecordsOf(GroupFailureTables(groups)))
  {
    var sets := Singles(groups);
    var first, rest := sets[0].failures, SetFailures(sets[1..]);
    BaseTables.ConcatRows(first, rest);
    BaseTables.ConcatRecords(first, rest);
    assert [first] + rest == GroupFailureTables(groups) by {
      SetFailuresOfGroups(groups);
      SetFailuresCons(sets);
    }
    assert first.header == FailureTables.Header && first.separator == FailureTables.AlignedSeparator by {
      FailureTables.TruncatedSpec(
        TypedTables.Table(FailureTables.Header, FailureTables.AlignedSeparator,
          FailureTables.ReportRows(Failures(groups[0].reporters))), FailureTables.DefaultLimit);
    }
  }

  lemma SetFailuresCons(sets: seq<TableSet>)
    requires |sets| > 0
    ensures SetFailures(sets) == [sets[0].failures] + SetFailures(sets[1..])
  {
  }

  lemma SetFailuresOfGroups(groups: seq<XmlFileGroup>)
    requires forall i :: 0 <= i < |groups| ==> Matches(groups[i].kind, Summaries(groups[i].reporters))
    ensures SetFailures(Singles(groups)) == GroupFailureTables(groups)
  {
  }

  /** The failures of each group, group by group. */
  function GroupFailures(groups: seq<XmlFileGroup>): seq<seq<Reports.FailureReport>>
  {
    seq(|groups|, i requires 0 <= i < |groups| => Failures(groups[i].reporters))
  }

  /** `multi` has one annotation per failure of every group, none cut by the limit: the
      annotations of every group's failures, in group order. */
  lemma MultiAnnotations(groups: seq<XmlFileGroup>)
    requires |groups| > 0
    requires forall i :: 0 <= i < |groups| ==> Matches(groups[i].kind, Summaries(groups[i].reporters))
    ensures |Multi(groups).value.annotations| == Seqs.TotalLength(GroupFailures(groups))
    ensures Multi(groups).value.annotations == Outcomes.Annotations(Seqs.Flatten(GroupFailures(groups)))
  {
    var sets := Singles(groups);
    Outcomes.AnnotationsFlatten(GroupFailures(groups));
    assert SetAnnotations(sets) == Outcomes.AnnotationLists(GroupFailures(groups));
    forall i | 0 <= i < |groups| {
      SingleSpec(groups[i]);
    }
    Seqs.FlattenLength(SetAnnotations(sets));
    Seqs.TotalLengthEqual(SetAnnotations(sets), GroupFailures(groups));
  }

}

=== FILE: text.dfy ===
/** String operations of JavaScript that the action relies on: `join`, `split`,
    `replace(/\n/g, ' ')`, `trim`, `slice`, `parseInt` and `toString` on numbers. */
module Text {
  import opened Wrappers

  /** `parts.join(sep)` */
  function Join(parts: seq<string>, sep: string): string
  {
    if |parts| == 0 then ""
    else if |parts| == 1 then parts[0]
    else parts[0] + sep + Join(parts[1..], sep)
  }

  /** Does sep occur in s at position i? */
  predicate OccursAt(s: string, sep: string, i: nat)
  {
    i + |sep| <= |s| && s[i..i + |sep|] == sep
  }

  lemma OccursShift(s: string, sep: string)
    requires |s| > 0
    ensures forall j: nat :: OccursAt(s[1..], sep, j) <==> OccursAt(s, sep, j + 1)
    ensures forall j: nat :: 1 <= j ==> (OccursAt(s, sep, j) <==> OccursAt(s[1..], sep, j - 1))
  {
    forall j: nat
      ensures OccursAt(s[1..], sep, j) <==> OccursAt(s, sep, j + 1)
    {
      if j + |sep| <= |s| - 1 {
        assert s[1..][j..j + |sep|] == s[j + 1..j + 1 + |sep|];
      }
    }
  }

  /** `s.indexOf(sep)`, with None for -1: the first position where sep occurs. */
  function IndexOf(s: string, sep: string): (r: Option<nat>)
    requires |sep| > 0
    ensures r.Some? ==> OccursAt(s, sep, r.value)
    ensures r.Some? ==> forall j: nat :: j < r.value ==> !OccursAt(s, sep, j)
    ensures r.None? ==> forall j: nat :: !OccursAt(s, sep, j)
    decreases |s|
  {
    if |s| < |sep| then None
    else if s[..|sep|] == sep then Some(0)
    else
      OccursShift(s, sep);
      match IndexOf(s[1..], sep)
      case None => None
      case Some(k) => Some(k + 1)
  }

  /** `s.split(sep)` for a non-empty separator. */
  function Split(s: string, sep: string): (parts: seq<string>)
    requires |sep| > 0
    ensures |parts| >= 1
    decreases |s|
  {
    match IndexOf(s, sep)
    case None => [s]
    case Some(i) => [s[..i]] + Split(s[i + |sep|..], sep)
  }

  /** Splitting and joining on the same separator gives the string back. */
  lemma {:induction false} JoinSplit(s: string, sep: string)
    requires |sep| > 0
    ensures Join(Split(s, sep), sep) == s
    decreases |s|
  {
    match IndexOf(s, sep)
    case None =>
      assert Split(s, sep) == [s];
    case Some(i) =>
      var rest := s[i + |sep|..];
      var tail := Split(rest, sep);
      assert Split(s, sep) == [s[..i]] + tail;
      assert Join([s[..i]] + tail, sep) == s[..i] + sep + Join(tail, sep) by {
        assert ([s[..i]] + tail)[1..] == tail;
      }
      JoinSplit(rest, sep);
      assert s == s[..i] + sep + rest by {
        assert OccursAt(s, sep, i);
        assert s == s[..i] + s[i..i + |sep|] + rest;
      }
  }

  lemma OccursChar(s: string, c: char)
    ensures forall j: nat :: OccursAt(s, [c], j) <==> j < |s| && s[j] == c
  {
    forall j: nat
      ensures OccursAt(s, [c], j) <==> j < |s| && s[j] == c
    {
      if j < |s| {
        assert s[j..j + 1] == [s[j]];
      }
    }
  }

  /** No part of `s.split(c)` contains c. */
  lemma {:induction false} SplitPartsFree(s: string, c: char)
    ensures forall k :: 0 <= k < |Split(s, [c])| ==> c !in Split(s, [c])[k]
    decreases |s|
  {
    OccursChar(s, c);
    match IndexOf(s, [c])
    case None =>
      assert Split(s, [c]) == [s];
      forall j | 0 <= j < |s| ensures s[j] != c {
        assert !OccursAt(s, [c], j);
      }
    case Some(i) =>
      var rest := s[i + 1..];
      SplitPartsFree(rest, c);
      assert Split(s, [c]) == [s[..i]] + Split(rest, [c]);
      forall j | 0 <= j < i ensures s[..i][j] != c {
        assert !OccursAt(s, [c], j);
      }
  }

  /** Joining parts that do not contain c on c and splitting on c again gives the parts back. */
  lemma {:induction false} SplitJoin(parts: seq<string>, c: char)
    requires |parts| >= 1
    requires forall k :: 0 <= k < |parts| ==> c !in parts[k]
    ensures Split(Join(parts, [c]), [c]) == parts
  {
    var s := Join(parts, [c]);
    if |parts| == 1 {
      assert s == parts[0];
      assert IndexOf(s, [c]).None? by {
        OccursChar(s, c);
      }
    } else {
      var p := parts[0];
      var rest := Join(parts[1..], [c]);
      assert s == p + [c] + rest;
      assert Split(s, [c]) == [s[..|p|]] + Split(s[|p| + 1..], [c]) by {
        IndexOfChar(p, c, rest);
      }
      assert s[..|p|] == p && s[|p| + 1..] == rest;
      SplitJoin(parts[1..], c);
      assert parts == [p] + parts[1..];
    }
  }

  /** The first c of p + [c] + rest is the one after p when p has none. */
  lemma IndexOfChar(p: string, c: char, rest: string)
    requires c !in p
    ensures IndexOf(p + [c] + rest, [c]) == Some(|p|)
  {
    var s := p + [c] + rest;
    OccursChar(s, c);
    assert OccursAt(s, [c], |p|);
  }

  lemma JoinTwo(a: string, b: string, sep: string)
    ensures Join([a, b], sep) == a + sep + b
  {
    assert [a, b][1..] == [b];
  }

  lemma JoinThree(a: string, b: string, c: string, sep: string)
    ensures Join([a, b, c], sep) == a + sep + b + sep + c
  {
    assert [a, b, c][1..] == [b, c];
    JoinTwo(b, c, sep);
  }

  /** Joining parts free of c with a separator free of c gives a string free of c. */
  lemma {:induction false} JoinFree(parts: seq<string>, sep: string, c: char)
    requires c !in sep
    requires forall k :: 0 <= k < |parts| ==> c !in parts[k]
    ensures c !in Join(parts, sep)
  {
    if |parts| > 1 {
      JoinFree(parts[1..], sep, c);
    }
  }

  /** `s.split(sep).slice(1).join(sep)`: what follows the first occurrence of sep,
      or "" when sep does not occur. */
  function AfterFirst(s: string, sep: string): (r: string)
    requires |sep| > 0
    ensures IndexOf(s, sep).None? ==> r == ""
    ensures IndexOf(s, sep).Some? ==> r == s[IndexOf(s, sep).value + |sep|..]
  {
    match IndexOf(s, sep)
    case None => Join(Split(s, sep)[1..], sep)
    case Some(i) =>
      JoinSplit(s[i + |sep|..], sep);
      assert Split(s, sep)[1..] == Split(s[i + |sep|..], sep);
      Join(Split(s, sep)[1..], sep)
  }

  /** `s.lastIndexOf(c)`, with None for -1. */
  function LastIndexOf(s: string, c: char): (r: Option<nat>)
    ensures r.Some? ==> r.value < |s| && s[r.value] == c && c !in s[r.value + 1..]
    ensures r.None? ==> c !in s
  {
    if |s| == 0 then None
    else if s[|s| - 1] == c then Some(|s| - 1)
    else
      var q := s[..|s| - 1];
      match LastIndexOf(q, c)
      case None => None
      case Some(k) =>
        assert s[k + 1..] == q[k + 1..] + [s[|s| - 1]];
        Some(k)
  }

  /** The last c of a + [c] + b is the one in the middle when b has none. */
  lemma {:induction false} LastIndexOfJoin(a: string, c: char, b: string)
    requires c !in b
    ensures LastIndexOf(a + [c] + b, c) == Some(|a|)
    decreases |b|
  {
    var s := a + [c] + b;
    if |b| > 0 {
      var init := b[..|b| - 1];
      assert b == init + [b[|b| - 1]];
      assert s[..|s| - 1] == a + [c] + init;
      LastIndexOfJoin(a, c, init);
    }
  }

  /** `s.replace(/\n/g, ' ')` */
  function ReplaceNewlines(s: string): (r: string)
    ensures |r| == |s|
    ensures forall i :: 0 <= i < |s| ==> r[i] == (if s[i] == '\n' then ' ' else s[i])
    ensures '\n' !in r
  {
    if |s| == 0 then ""
    else (if s[0] == '\n' then " " else [s[0]]) + ReplaceNewlines(s[1..])
  }

  /** The white space that `trim` removes, restricted to ASCII. */
  predicate IsSpace(c: char)
  {
    c == ' ' || c == '\t' || c == '\n' || c == '\r' || c == '\U{000B}' || c == '\U{000C}'
  }

  /** The number of white-space characters s starts with. */
  function LeadingSpaces(s: string): (n: nat)
    ensures n <= |s|
    ensures forall i :: 0 <= i < n ==> IsSpace(s[i])
    ensures n < |s| ==> !IsSpace(s[n])
  {
    if |s| > 0 && IsSpace(s[0]) then
      var n := 1 + LeadingSpaces(s[1..]);
      assert forall i :: 1 <= i < |s| ==> s[i] == s[1..][i - 1];
      n
    else 0
  }

  /** The number of white-space characters s ends with. */
  function TrailingSpaces(s: string): (n: nat)
    ensures n <= |s|
    ensures forall i :: |s| - n <= i < |s| ==> IsSpace(s[i])
    ensures n < |s| ==> !IsSpace(s[|s| - n - 1])
  {
    if |s| > 0 && IsSpace(s[|s| - 1]) then
      var n := 1 + TrailingSpaces(s[..|s| - 1]);
      assert forall i :: 0 <= i < |s| - 1 ==> s[i] == s[..|s| - 1][i];
      n
    else 0
  }

  /** `s.trim()`: s without its leading and trailing white space; empty exactly when s
      is all white space. */
  function Trim(s: string): (r: string)
    ensures var a := LeadingSpaces(s);
      && a + |r| <= |s| && r == s[a..a + |r|]
      && (forall i :: a + |r| <= i < |s| ==> IsSpace(s[i]))
    ensures |r| > 0 ==> !IsSpace(r[0]) && !IsSpace(r[|r| - 1])
    ensures r == "" <==> forall i :: 0 <= i < |s| ==> IsSpace(s[i])
  {
    var a := LeadingSpaces(s);
    if a == |s| then ""
    else
      var b := TrailingSpaces(s);
      assert a < |s| - b by {
        assert !IsSpace(s[a]);
      }
      s[a..|s| - b]
  }

  /** `s.slice(0, n)` */
  function Prefix(s: string, n: nat): (r: string)
    ensures |r| == (if |s| < n then |s| else n)
    ensures r == s[..|r|]
  {
    if |s| <= n then s else s[..n]
  }

  predicate IsDigit(c: char)
  {
    '0' <= c <= '9'
  }

  predicate AllDigits(s: string)
  {
    forall i :: 0 <= i < |s| ==> IsDigit(s[i])
  }

  /** The value of a string of decimal digits, most significant first. */
  function DigitsValue(s: string): nat
    requires AllDigits(s)
  {
    if |s| == 0 then 0 else DigitsValue(s[..|s| - 1]) * 10 + (s[|s| - 1] as int - '0' as int)
  }

  /** The decimal digits s starts with: what `parseInt` reads. */
  function LeadingDigits(s: string): (r: string)
    ensures |r| <= |s| && r == s[..|r|] && AllDigits(r)
    ensures |r| < |s| ==> !IsDigit(s[|r|])
  {
    if |s| == 0 || !IsDigit(s[0]) then "" else [s[0]] + LeadingDigits(s[1..])
  }

  /** `parseInt(s)` for an attribute that starts with its decimal digits; 0 when it has
      none (parseInt's NaN is not modelled). */
  function Decimal(s: string): nat
  {
    DigitsValue(LeadingDigits(s))
  }

  lemma {:induction false} LeadingDigitsOfDigits(s: string)
    requires AllDigits(s)
    ensures LeadingDigits(s) == s
  {
    if |s| > 0 {
      LeadingDigitsOfDigits(s[1..]);
      assert s == [s[0]] + s[1..];
    }
  }

  function DigitChar(d: nat): (c: char)
    requires d < 10
    ensures IsDigit(c) && c as int - '0' as int == d
  {
    ('0' as int + d) as char
  }

  /** `n.toString()` for a natural number: its canonical decimal writing, without
      leading zeros. */
  function NatToString(n: nat): (r: string)
    ensures |r| >= 1 && AllDigits(r)
    ensures DigitsValue(r) == n
    ensures r[0] == '0' <==> n == 0
    ensures |r| > 1 ==> r[0] != '0'
    decreases n
  {
    if n < 10 then
      assert [DigitChar(n)][..0] == "";
      [DigitChar(n)]
    else
      var h := NatToString(n / 10);
      assert (h + [DigitChar(n % 10)])[..|h|] == h;
      h + [DigitChar(n % 10)]
  }

  /** Reading back a rendered count gives the count. */
  lemma DecimalNatToString(n: nat)
    ensures Decimal(NatToString(n)) == n
  {
    LeadingDigitsOfDigits(NatToString(n));
  }

  /** `i.toString()` for an integer: counts such as tests - failed can be negative. */
  function IntToString(i: int): (r: string)
    ensures |r| >= 1
    ensures (i < 0) == (r[0] == '-')
  {
    if i < 0 then "-" + NatToString(-i) else NatToString(i)
  }

  /** Reads an optionally signed decimal integer. */
  function SignedDecimal(s: string): int
  {
    if |s| > 0 && s[0] == '-' then -(Decimal(s[1..]) as int) else Decimal(s)
  }

  /** Distinct counts render differently: reading a rendered integer back gives it. */
  lemma SignedDecimalIntToString(i: int)
    ensures SignedDecimal(IntToString(i)) == i
  {
    var r := IntToString(i);
    if i < 0 {
      assert r[1..] == NatToString(-i);
      DecimalNatToString(-i);
    } else {
      DecimalNatToString(i);
    }
  }
}

=== FILE: typed_table.dfy ===
/** The generic `Table` of src/table/typed.ts. A row's value record becomes the list of
    its values in key order, which is what `Object.values` and `Object.keys` see. */
module TypedTables {
  import opened Wrappers
  import Text
  import Markdown

  /** `Row<T>`: an index and the values of the record, an undefined value as None. */
  datatype Row = Row(index: string, values: seq<Option<string>>)

  datatype Table = Table(header: Row, separator: Row, records: seq<Row>)
  {
    /** `rows` */
    function Rows(): nat
    {
      |records|
    }

    /** `columns`: the number of fields of the header's value record. */
    function Columns(): nat
    {
      |header.values|
    }
  }

  /** `Table.concatVertical(table1, table2)`: table1's header and separator over the
      records of both. */
  function ConcatVertical(t1: Table, t2: Table): (r: Table)
    ensures r.header == t1.header && r.separator == t1.separator
    ensures r.Rows() == t1.Rows() + t2.Rows()
    ensures r.records[..t1.Rows()] == t1.records && r.records[t1.Rows()..] == t2.records
    ensures r.Columns() == t1.Columns()
  {
    Table(t1.header, t1.separator, t1.records + t2.records)
  }

  /** Concatenation is associative, and a table without records is its right unit. */
  lemma ConcatVerticalMonoid(t1: Table, t2: Table, t3: Table)
    ensures ConcatVertical(ConcatVertical(t1, t2), t3) == ConcatVertical(t1, ConcatVertical(t2, t3))
    ensures ConcatVertical(t1, Table(t2.header, t2.separator, [])) == t1
  {
    assert t1.records + t2.records + t3.records == t1.records + (t2.records + t3.records);
    assert t1.records + [] == t1.records;
  }

  /** An undefined value prints as nothing: `Array.join` renders undefined as ''. */
  function Cell(v: Option<string>): (c: string)
    ensures v.Some? ==> c == v.value
    ensures v.None? ==> c == ""
  {
    v.GetOr("")
  }

  function Cells(vs: seq<Option<string>>): seq<string>
  {
    seq(|vs|, k requires 0 <= k < |vs| => Cell(vs[k]))
  }

  /** One printed row: `| ${index} | ${Object.values(values).join(' | ')} |` */
  function Line(r: Row): string
  {
    Markdown.PipeLine(r.index, Cells(r.values))
  }

  function RecordLines(records: seq<Row>): (lines: seq<string>)
    ensures |lines| == |records|
  {
    seq(|records|, k requires 0 <= k < |records| => Line(records[k]))
  }

  /** `toString()`: '' for a table without records. */
  function ToString(t: Table): (s: string)
    ensures s == "" <==> t.Rows() == 0
  {
    if t.Rows() == 0 then ""
    else
      assert ([Line(t.header), Line(t.separator)] + RecordLines(t.records))[0] == Line(t.header);
      Markdown.TableText(Line(t.header), Line(t.separator), RecordLines(t.records))
  }

  predicate NoLineBreaks(r: Row)
  {
    '\n' !in r.index && forall k :: 0 <= k < |r.values| ==> r.values[k].Some? ==> '\n' !in r.values[k].value
  }

  lemma LineFree(r: Row)
    requires NoLineBreaks(r)
    ensures '\n' !in Line(r)
  {
    Markdown.PipeLineFree(r.index, Cells(r.values));
  }

  /** A table with records prints as rows + 2 lines: header, separator, then each
      record in order. */
  lemma ToStringLines(t: Table)
    requires t.Rows() > 0
    requires NoLineBreaks(t.header) && NoLineBreaks(t.separator)
    requires forall k :: 0 <= k < |t.records| ==> NoLineBreaks(t.records[k])
    ensures Text.Split(ToString(t), "\n") == [Line(t.header), Line(t.separator)] + RecordLines(t.records)
    ensures |Text.Split(ToString(t), "\n")| == t.Rows() + 2
  {
    LineFree(t.header);
    LineFree(t.separator);
    forall k | 0 <= k < |t.records| ensures '\n' !in RecordLines(t.records)[k] {
      LineFree(t.records[k]);
    }
    Markdown.TableTextLines(Line(t.header), Line(t.separator), RecordLines(t.records));
  }

  /** Printing a vertical concatenation prints the first table's lines followed by
      the second table's record lines. */
  lemma ToStringConcatVertical(t1: Table, t2: Table)
    requires t1.Rows() > 0
    ensures ToString(ConcatVertical(t1, t2))
         == Markdown.TableText(Line(t1.header), Line(t1.separator),
                               RecordLines(t1.records) + RecordLines(t2.records))
  {
    assert RecordLines(t1.records + t2.records) == RecordLines(t1.records) + RecordLines(t2.records);
  }
}

=== FILE: types.dfy ===
/** The enumerations and records shared by every part of the action. */
module Types {
  import opened Wrappers
  import Text

  /** The outcome of a module, a report or the whole run. */
  datatype Result = Passed | Failed | Skipped | Unknown

  /** `Result` as its string value. */
  function ResultName(r: Result): string
  {
    match r
    case Passed => "passed"
    case Failed => "failed"
    case Skipped => "skipped"
    case Unknown => "unknown"
  }

  /** The tools whose JUnit reports the action reads. */
  datatype ReporterType = GolangCILint | Gotestsum

  /** `ReporterType` as its string value: what `type.toString()` gives. */
  function ReporterTypeName(t: ReporterType): (name: string)
    ensures name != ""
  {
    match t
    case GolangCILint => "golangci-lint"
    case Gotestsum => "gotestsum"
  }

  /** The repository and commit the report is about. */
  datatype GitHubContext = GitHubContext(owner: string, repo: string, sha: string)

  /** A table column's alignment. */
  datatype Align = Left | Right

  /** The separator cell of an aligned column. */
  function AlignCell(a: Align): (cell: string)
    ensures |cell| == 4
    ensures (cell[0] == ':') == (a == Left) && (cell[3] == ':') == (a == Right)
  {
    match a
    case Left => ":---"
    case Right => "---:"
  }

  /** `https://github.com/${owner}/${repo}/blob/${sha}/${path}` */
  function BlobUrl(owner: string, repo: string, sha: string, path: string): string
  {
    "https://github.com/" + owner + "/" + repo + "/blob/" + sha + "/" + path
  }

  /** `[${title}](${url})` */
  function MarkdownLink(title: string, url: string): string
  {
    "[" + title + "](" + url + ")"
  }

  /** A link starts with its bracketed title, ends with its parenthesised URL, and
      holds exactly the URL between the two. */
  lemma LinkParts(title: string, url: string)
    ensures var link := MarkdownLink(title, url);
      && |link| == |title| + |url| + 4
      && link[..|title| + 3] == "[" + title + "]("
      && link[|link| - |url| - 1..] == url + ")"
      && link[|title| + 3..|link| - 1] == url
  {
  }

  /** `${path}:${line}`, how the action names a line of a file. */
  function Location(path: string, line: nat): string
  {
    path + ":" + Text.NatToString(line)
  }

  /** A location splits at its last ':' into the path and the line number. */
  lemma LocationSplit(path: string, line: nat)
    ensures var loc := Location(path, line);
      && Text.LastIndexOf(loc, ':') == Some(|path|)
      && loc[..|path|] == path
      && Text.Decimal(loc[|path| + 1..]) == line
  {
    var digits := Text.NatToString(line);
    assert ':' !in digits by {
      forall k | 0 <= k < |digits| ensures digits[k] != ':' {
        assert Text.IsDigit(digits[k]);
      }
    }
    Text.LastIndexOfJoin(path, ':', digits);
    assert Location(path, line) == path + [':'] + digits;
    assert Location(path, line)[|path| + 1..] == digits;
    Text.DecimalNatToString(line);
  }
}

=== FILE: unknown_report.dfy ===
/** `Unknown`: the placeholder report of a directory without a report file
    (src/junit/unknown.ts). */
module UnknownReports {
  import opened Wrappers
  import opened Types
  import Text
  import Paths
  import JunitXml
  import Readings
  import JunitTestCases
  import GotestsumReports

  datatype UnknownReport = UnknownReport(path: string)

  /** `directory`: the path without its last segment, '.' when nothing is left. */
  function Directory(u: UnknownReport): (d: string)
    ensures Paths.LastSlash(u.path).None? ==> d == "."
    ensures Paths.LastSlash(u.path).Some? && Paths.LastSlash(u.path).value > 0 ==>
      d == u.path[..Paths.LastSlash(u.path).value]
  {
    Paths.DirectoryIsDirname(u.path);
    Paths.Directory(u.path)
  }

  /** 'path/to/unknown.xml' lies in 'path/to'. */
  lemma DirectoryExample(path: string)
    requires path == "path/to/unknown.xml"
    ensures Directory(UnknownReport(path)) == "path/to"
  {
    assert path == "path/to" + "/" + "unknown.xml";
    Text.LastIndexOfJoin("path/to", '/', "unknown.xml");
    assert path[..7] == "path/to";
  }

  function ReportResult(u: UnknownReport): Result
  {
    Unknown
  }

  function Tests(u: UnknownReport): nat
  {
    0
  }

  function Passed(u: UnknownReport): int
  {
    0
  }

  function Failed(u: UnknownReport): nat
  {
    0
  }

  function Skipped(u: UnknownReport): nat
  {
    0
  }

  function Version(u: UnknownReport): Option<string>
  {
    None
  }

  function Failures(u: UnknownReport): seq<JunitTestCases.TestCase>
  {
    []
  }

  /** The placeholder reads exactly as a gotestsum report without attributes or suites
      would: Unknown, no tests, no version, no failures. */
  lemma SameAsEmptyReport(u: UnknownReport, matcher: JunitXml.Matcher)
    ensures var rep := GotestsumReports.UnknownReport(u.path);
      && ReportResult(u) == Readings.AttrsResult(rep.junit.testsuites.attrs)
      && Tests(u) == GotestsumReports.Tests(rep) && Passed(u) == GotestsumReports.Passed(rep)
      && Failed(u) == GotestsumReports.Failed(rep) && Skipped(u) == GotestsumReports.Skipped(rep)
      && Ok(Version(u)) == GotestsumReports.Version(rep)
      && Failures(u) == GotestsumReports.Failures(rep, matcher)
  {
    GotestsumReports.UnknownReadings(u.path, matcher);
  }
}

=== FILE: untyped_table.dfy ===
/** `UntypedTable` (src/table/untyped.ts): a table whose rows are lists of optional
    cells, checked for width on construction, with a left join by row index. */
module UntypedTables {
  import opened Wrappers
  import Seqs
  import Text
  import Markdown

  /** `UntypedRow`: a row index and its cells, an undefined cell as None. */
  datatype Row = Row(index: string, values: seq<Option<string>>)

  datatype Table = Table(header: Row, separator: Row, records: seq<Row>)
  {
    /** What the constructor checks: the separator and every record are as wide as the header. */
    predicate Valid()
    {
      |header.values| == |separator.values| &&
      forall k :: 0 <= k < |records| ==> |records[k].values| == |header.values|
    }

    /** `rows` */
    function Rows(): nat
    {
      |records|
    }

    /** `columns` */
    function Columns(): nat
    {
      |header.values|
    }
  }

  const HeaderSeparatorError := "header and separator must have the same length"
  const RecordWidthError := "records must have the same length as header"

  /** `new UntypedTable(header, separator, records)`: the table, or the error the
      constructor throws, the separator check first. */
  function New(header: Row, separator: Row, records: seq<Row>): (r: Fallible<Table>)
    ensures r.Ok? <==> Table(header, separator, records).Valid()
    ensures r.Ok? ==> r.value == Table(header, separator, records)
    ensures r.Throws? ==>
      r.message == (if |header.values| != |separator.values| then HeaderSeparatorError else RecordWidthError)
  {
    if |header.values| != |separator.values| then Throws(HeaderSeparatorError)
    else if exists k :: 0 <= k < |records| && |records[k].values| != |header.values| then
      Throws(RecordWidthError)
    else Ok(Table(header, separator, records))
  }

  /** `new Array(n).fill(undefined)` */
  function Undefineds(n: nat): (r: seq<Option<string>>)
    ensures |r| == n && forall k :: 0 <= k < n ==> r[k].None?
  {
    seq(n, _ => None)
  }

  /** The position of the last row of rs with the given index. */
  function LastWith(rs: seq<Row>, index: string): (r: Option<nat>)
    ensures r.Some? ==> r.value < |rs| && rs[r.value].index == index
    ensures r.Some? ==> forall j :: r.value < j < |rs| ==> rs[j].index != index
    ensures r.None? ==> forall j :: 0 <= j < |rs| ==> rs[j].index != index
  {
    if |rs| == 0 then None
    else if rs[|rs| - 1].index == index then Some(|rs| - 1)
    else LastWith(rs[..|rs| - 1], index)
  }

  /** `new Map(records.map(r => [r.index, r]))`, the entries set one after the other. */
  function IndexMap(rs: seq<Row>): map<string, Row>
  {
    if |rs| == 0 then map[] else IndexMap(rs[..|rs| - 1])[rs[|rs| - 1].index := rs[|rs| - 1]]
  }

  /** The map holds every index of rs, and with duplicate indices the last row wins. */
  lemma {:induction false} IndexMapLastWins(rs: seq<Row>, index: string)
    ensures index in IndexMap(rs) <==> LastWith(rs, index).Some?
    ensures index in IndexMap(rs) ==> IndexMap(rs)[index] == rs[LastWith(rs, index).value]
  {
    if |rs| > 0 {
      IndexMapLastWins(rs[..|rs| - 1], index);
    }
  }

  /** The cells a left row receives from another table: that table's last row with the
      same index, or as many undefined cells as it has columns. */
  function Block(other: Table, index: string): seq<Option<string>>
  {
    match LastWith(other.records, index)
    case None => Undefineds(other.Columns())
    case Some(k) => other.records[k].values
  }

  function Blocks(others: seq<Table>, index: string): seq<seq<Option<string>>>
  {
    seq(|others|, i requires 0 <= i < |others| => Block(others[i], index))
  }

  function HeaderValues(others: seq<Table>): seq<seq<Option<string>>>
  {
    seq(|others|, i requires 0 <= i < |others| => others[i].header.values)
  }

  function SeparatorValues(others: seq<Table>): seq<seq<Option<string>>>
  {
    seq(|others|, i requires 0 <= i < |others| => others[i].separator.values)
  }

  /** A left row with the other tables' matching cells appended. */
  function JoinedRecord(record: Row, others: seq<Table>): Row
  {
    Row(record.index, record.values + Seqs.Flatten(Blocks(others, record.index)))
  }

  /** The left join of t with others, row by row. */
  function Joined(t: Table, others: seq<Table>): Table
  {
    Table(
      Row(t.header.index, t.header.values + Seqs.Flatten(HeaderValues(others))),
      Row(t.separator.index, t.separator.values + Seqs.Flatten(SeparatorValues(others))),
      seq(|t.records|, k requires 0 <= k < |t.records| => JoinedRecord(t.records[k], others)))
  }

  /** `t.join(others)` */
  method Join(t: Table, others: seq<Table>) returns (r: Table)
    requires t.Valid() && forall i :: 0 <= i < |others| ==> others[i].Valid()
    ensures r == Joined(t, others)
  {
    var maps := IndexMaps(others);
    var merged: seq<Row> := [];
    for k := 0 to |t.records|
      invariant |merged| == k
      invariant forall x :: 0 <= x < k ==> merged[x] == JoinedRecord(t.records[x], others)
    {
      var row := JoinRecord(t.records[k], others, maps);
      merged := merged + [row];
    }
    r := Table(
      Row(t.header.index, t.header.values + Seqs.Flatten(HeaderValues(others))),
      Row(t.separator.index, t.separator.values + Seqs.Flatten(SeparatorValues(others))),
      merged);
  }

  /** The index map of every other table, built entry by entry. */
  method IndexMaps(others: seq<Table>) returns (maps: seq<map<string, Row>>)
    ensures |maps| == |others|
    ensures forall x :: 0 <= x < |others| ==> maps[x] == IndexMap(others[x].records)
  {
    maps := [];
    for i := 0 to |others|
      invariant |maps| == i
      invariant forall x :: 0 <= x < i ==> maps[x] == IndexMap(others[x].records)
    {
      var rs := others[i].records;
      var m := map[];
      for j := 0 to |rs|
        invariant m == IndexMap(rs[..j])
      {
        assert rs[..j + 1][..j] == rs[..j];
        m := m[rs[j].index := rs[j]];
      }
      assert rs[..|rs|] == rs;
      maps := maps + [m];
    }
  }

  /** One left row joined: the cells of each other table's row with its index, or
      undefined cells when there is none. */
  method JoinRecord(record: Row, others: seq<Table>, maps: seq<map<string, Row>>) returns (row: Row)
    requires |maps| == |others|
    requires forall x :: 0 <= x < |others| ==> maps[x] == IndexMap(others[x].records)
    ensures row == JoinedRecord(record, others)
  {
    var v := new seq<Option<string>>[|others|](i requires 0 <= i < |others| => Undefineds(others[i].Columns()));
    for i := 0 to |maps|
      invariant forall x :: 0 <= x < i ==> v[x] == Block(others[x], record.index)
      invariant forall x :: i <= x < |others| ==> v[x] == Undefineds(others[x].Columns())
    {
      IndexMapLastWins(others[i].records, record.index);
      if record.index in maps[i] {
        v[i] := maps[i][record.index].values;
      }
    }
    assert v[..] == Blocks(others, record.index);
    row := Row(record.index, record.values + Seqs.Flatten(v[..]));
  }

  /** The sum of the tables' column counts. */
  function ColumnsSum(others: seq<Table>): nat
  {
    if |others| == 0 then 0 else ColumnsSum(others[..|others| - 1]) + others[|others| - 1].Columns()
  }

  lemma {:induction false} HeaderWidth(others: seq<Table>)
    ensures |Seqs.Flatten(HeaderValues(others))| == ColumnsSum(others)
  {
    Seqs.FlattenLength(HeaderValues(others));
    HeaderTotal(others);
  }

  lemma {:induction false} HeaderTotal(others: seq<Table>)
    ensures Seqs.TotalLength(HeaderValues(others)) == ColumnsSum(others)
  {
    if |others| > 0 {
      var init := others[..|others| - 1];
      HeaderTotal(init);
      assert HeaderValues(others)[..|others| - 1] == HeaderValues(init);
    }
  }

  /** Every other table contributes as many cells to a joined row as it has columns. */
  lemma BlocksWidth(others: seq<Table>, index: string)
    requires forall i :: 0 <= i < |others| ==> others[i].Valid()
    ensures |Seqs.Flatten(Blocks(others, index))| == ColumnsSum(others)
  {
    var bs := Blocks(others, index);
    forall i | 0 <= i < |others| ensures |bs[i]| == |HeaderValues(others)[i]| {
      match LastWith(others[i].records, index)
      case None =>
      case Some(k) =>
    }
    Seqs.TotalLengthEqual(bs, HeaderValues(others));
    Seqs.FlattenLength(bs);
    HeaderTotal(others);
  }

  /** `join` keeps the left table's header and separator indices, appends the other
      tables' header and separator cells in argument order, and keeps the left rows
      with their order and indices; it adds the others' columns. */
  lemma JoinedShape(t: Table, others: seq<Table>)
    ensures var j := Joined(t, others);
      && j.header.index == t.header.index && j.separator.index == t.separator.index
      && j.header.values == t.header.values + Seqs.Flatten(HeaderValues(others))
      && j.separator.values == t.separator.values + Seqs.Flatten(SeparatorValues(others))
      && j.Rows() == t.Rows()
      && j.Columns() == t.Columns() + ColumnsSum(others)
      && forall k :: 0 <= k < j.Rows() ==>
           j.records[k].index == t.records[k].index &&
           j.records[k].values[..|t.records[k].values|] == t.records[k].values
  {
    HeaderWidth(others);
  }

  /** The joined table passes the constructor's checks, so `join` never throws. */
  lemma JoinedValid(t: Table, others: seq<Table>)
    requires t.Valid() && forall i :: 0 <= i < |others| ==> others[i].Valid()
    ensures Joined(t, others).Valid()
    ensures var j := Joined(t, others); New(j.header, j.separator, j.records) == Ok(j)
  {
    var j := Joined(t, others);
    HeaderWidth(others);
    var sv := SeparatorValues(others);
    forall i | 0 <= i < |others| ensures |sv[i]| == |HeaderValues(others)[i]| {
    }
    Seqs.TotalLengthEqual(sv, HeaderValues(others));
    Seqs.FlattenLength(sv);
    Seqs.FlattenLength(HeaderValues(others));
    forall k | 0 <= k < |j.records| ensures |j.records[k].values| == |j.header.values| {
      BlocksWidth(others, t.records[k].index);
    }
  }

  /** In a joined row, the cells of the i-th other table sit after the left cells and
      the cells of the tables before it, and they are that table's last row with the
      same index, or undefined when it has none. */
  lemma JoinedBlock(t: Table, others: seq<Table>, k: nat, i: nat)
    requires t.Valid() && forall x :: 0 <= x < |others| ==> others[x].Valid()
    requires k < t.Rows() && i < |others|
    ensures var off := t.Columns() + ColumnsSum(others[..i]);
      var row := Joined(t, others).records[k];
      && off + others[i].Columns() <= |row.values|
      && row.values[off..off + others[i].Columns()] == Block(others[i], t.records[k].index)
  {
    var index := t.records[k].index;
    var bs := Blocks(others, index);
    Seqs.FlattenBlock(bs, i);
    assert bs[..i] == Blocks(others[..i], index);
    BlocksWidth(others[..i], index);
    match LastWith(others[i].records, index)
    case None =>
    case Some(x) =>
  }

  /** `v || '-'`: an undefined or empty cell prints as '-'. */
  function Cell(v: Option<string>): (c: string)
    ensures c != ""
    ensures v.Some? && v.value != "" ==> c == v.value
    ensures v.None? || v.value == "" ==> c == "-"
  {
    match v
    case None => "-"
    case Some(s) => if s == "" then "-" else s
  }

  function Cells(vs: seq<Option<string>>): seq<string>
  {
    seq(|vs|, k requires 0 <= k < |vs| => Cell(vs[k]))
  }

  /** One printed row: `| index | cells |` */
  function Line(r: Row): string
  {
    Markdown.PipeLine(r.index, Cells(r.values))
  }

  function RecordLines(t: Table): seq<string>
  {
    seq(|t.records|, k requires 0 <= k < |t.records| => Line(t.records[k]))
  }

  /** `toString()` */
  function ToString(t: Table): (s: string)
    ensures s == "" <==> t.Rows() == 0
  {
    if t.Rows() == 0 then ""
    else
      var lines := [Line(t.header), Line(t.separator)] + RecordLines(t);
      assert lines[0] == Line(t.header);
      Markdown.TableText(Line(t.header), Line(t.separator), RecordLines(t))
  }

  predicate NoLineBreaks(r: Row)
  {
    '\n' !in r.index && forall k :: 0 <= k < |r.values| ==> r.values[k].Some? ==> '\n' !in r.values[k].value
  }

  lemma LineFree(r: Row)
    requires NoLineBreaks(r)
    ensures '\n' !in Line(r)
  {
    Markdown.PipeLineFree(r.index, Cells(r.values));
  }

  /** A non-empty table prints as its header, its separator and its records, one line each. */
  lemma ToStringLines(t: Table)
    requires t.Rows() > 0
    requires NoLineBreaks(t.header) && NoLineBreaks(t.separator)
    requires forall k :: 0 <= k < |t.records| ==> NoLineBreaks(t.records[k])
    ensures Text.Split(ToString(t), "\n") == [Line(t.header), Line(t.separator)] + RecordLines(t)
    ensures |Text.Split(ToString(t), "\n")| == t.Rows() + 2
  {
    LineFree(t.header);
    LineFree(t.separator);
    forall k | 0 <= k < |t.records| ensures '\n' !in RecordLines(t)[k] {
      LineFree(t.records[k]);
    }
    Markdown.TableTextLines(Line(t.header), Line(t.separator), RecordLines(t));
  }

  lemma LineOfTwo(index: string, a: Option<string>, b: Option<string>)
    ensures Line(Row(index, [a, b])) == "| " + index + " | " + Cell(a) + " | " + Cell(b) + " |"
  {
    assert Cells([a, b]) == [Cell(a), Cell(b)];
    Text.JoinTwo(Cell(a), Cell(b), " | ");
  }

  /** The lines of the printed example table: its header, its separator and its row,
      whose undefined cell shows as '-'. */
  lemma HeaderLineExample()
    ensures Line(Row("H", [Some("F1"), Some("F2")])) == "| H | F1 | F2 |"
  {
    LineOfTwo("H", Some("F1"), Some("F2"));
  }

  lemma SeparatorLineExample()
    ensures Line(Row("-", [Some("-"), Some("-")])) == "| - | - | - |"
  {
    LineOfTwo("-", Some("-"), Some("-"));
  }

  lemma RecordLineExample()
    ensures Line(Row("R1", [Some("V11"), None])) == "| R1 | V11 | - |"
  {
    LineOfTwo("R1", Some("V11"), None);
  }

  /** The printed example table: an undefined cell shows as '-'. */
  lemma ToStringExample()
    ensures ToString(Table(Row("H", [Some("F1"), Some("F2")]), Row("-", [Some("-"), Some("-")]),
                           [Row("R1", [Some("V11"), None])]))
         == "| H | F1 | F2 |" + "\n" + "| - | - | - |" + "\n" + "| R1 | V11 | - |"
  {
    var t := Table(Row("H", [Some("F1"), Some("F2")]), Row("-", [Some("-"), Some("-")]),
                   [Row("R1", [Some("V11"), None])]);
    var h, s, r := Line(t.header), Line(t.separator), Line(t.records[0]);
    HeaderLineExample();
    SeparatorLineExample();
    RecordLineExample();
    assert ToString(t) == h + "\n" + s + "\n" + r by {
      assert RecordLines(t) == [r];
      assert [h, s] + [r] == [h, s, r];
      Text.JoinThree(h, s, r, "\n");
    }
  }
}

=== FILE: views.dfy ===
/** The views of src/data/: the failure, annotation and summary cells rendered with
    links into the repository at a commit. */
module DataViews {
  import opened Wrappers
  import opened Types
  import Text
  import Paths
  import Reports

  /** A failure as the views read it: where it is, the test, the message and the tool. */
  datatype Failure = Failure(
    subDir: string, file: string, line: nat, test: string, message: string, kind: ReporterType)

  /** The object `FailureSummaryViewImpl.render` returns. */
  datatype FailureRow = FailureRow(file: string, kind: string, test: string, message: string)

  function FailurePath(path: string, f: Failure): string
  {
    Paths.JoinPaths([path, f.subDir, f.file])
  }

  /** The file cell of a failure: a link titled with the failure's location, to that
      line of the file at the commit. */
  function FailureLink(path: string, f: Failure, owner: string, repo: string, sha: string): (cell: string)
    ensures var title, line := Location(FailurePath(path, f), f.line), Text.NatToString(f.line);
      && |cell| >= |title| + |line| + 6
      && cell[..|title| + 3] == "[" + title + "]("
      && cell[|cell| - |line| - 3..] == "#L" + line + ")"
      && cell[|title| + 3..|cell| - 1] == BlobUrl(owner, repo, sha, FailurePath(path, f)) + "#L" + line
  {
    var fullPath := FailurePath(path, f);
    LineLink(Location(fullPath, f.line), BlobUrl(owner, repo, sha, fullPath), Text.NatToString(f.line))
  }

  /** `FailureSummaryViewImpl(path, failure).render(owner, repo, sha)`: the failure's
      file link, the tool's name, the test, and the message on one line. */
  function RenderFailure(path: string, f: Failure, owner: string, repo: string, sha: string): (r: FailureRow)
    ensures r.file == FailureLink(path, f, owner, repo, sha)
    ensures r.kind == ReporterTypeName(f.kind) && r.test == f.test
    ensures |r.message| == |f.message| && '\n' !in r.message
    ensures forall k :: 0 <= k < |f.message| && f.message[k] != '\n' ==> r.message[k] == f.message[k]
  {
    FailureRow(FailureLink(path, f, owner, repo, sha), ReporterTypeName(f.kind), f.test, Text.ReplaceNewlines(f.message))
  }

  /** A link titled title to line `line` of the file at url: it starts with its bracketed
      title, ends with the line anchor, and targets the URL with that anchor. */
  function LineLink(title: string, url: string, line: string): (link: string)
    ensures |link| >= |title| + |line| + 6
    ensures link[..|title| + 3] == "[" + title + "]("
    ensures link[|link| - |line| - 3..] == "#L" + line + ")"
    ensures link[|title| + 3..|link| - 1] == url + "#L" + line
  {
    var anchored := url + "#L" + line;
    LinkParts(title, anchored);
    var link := MarkdownLink(title, anchored);
    assert link[|link| - |anchored| - 1..] == anchored + ")";
    assert (anchored + ")")[|anchored| - |line| - 2..] == "#L" + line + ")";
    link
  }

  /** `Annotation(path, failure).render()`: the same `::error` command as an annotation
      report of the joined path, line and verbatim message. */
  function RenderAnnotation(path: string, f: Failure): (r: Reports.AnnotationRecord)
    ensures r == Reports.AnnotationBody(Reports.AnnotationReportImpl(FailurePath(path, f), f.line, f.message))
    ensures r.body[|r.body| - |f.message|..] == f.message
  {
    Reports.AnnotationRecord(
      "::error file=" + FailurePath(path, f) + ",line=" + Text.NatToString(f.line) + "::" + f.message)
  }

  /** The summary of a gotestsum report; a time is the text `toFixed(1)` gives. */
  datatype GotestsumSummary = GotestsumSummary(
    result: Result, passed: int, failed: int, version: Option<string>, time: Option<string>)

  datatype GotestsumRow = GotestsumRow(
    path: string, version: string, result: string, passed: string, failed: string, time: string)

  /** `[${path}](https://github.com/${owner}/${repo}/blob/${sha}/${path})`: the path
      titles a link to that path at the commit. */
  function PathLink(path: string, owner: string, repo: string, sha: string): (cell: string)
    ensures |cell| >= 2 * |path| + 4
    ensures cell[..|path| + 3] == "[" + path + "]("
    ensures cell[|cell| - |path| - 2..] == "/" + path + ")"
    ensures cell[|path| + 3..|cell| - 1] == BlobUrl(owner, repo, sha, path)
  {
    LinkParts(path, BlobUrl(owner, repo, sha, path));
    MarkdownLink(path, BlobUrl(owner, repo, sha, path))
  }

  /** `GotestsumSummaryViewImpl(path, summary).render(owner, repo, sha)`: the path as a
      link and the same cells as the gotestsum summary report of that path. */
  function RenderGotestsum(path: string, s: GotestsumSummary, owner: string, repo: string, sha: string): (r: GotestsumRow)
    ensures r.path == PathLink(path, owner, repo, sha)
    ensures var rec := Reports.GotestsumToRecord(
        Reports.GotestsumReportImpl(path, s.result, s.passed, s.failed, s.version, s.time));
      && Some(r.version) == rec.version && r.result == rec.result
      && r.passed == rec.passed && r.failed == rec.failed && Some(r.time) == rec.time
    ensures r.version == "-" <==> s.version.None? || s.version.value == "-"
    ensures r.result == Reports.FailedMark <==> s.result == Failed
  {
    GotestsumRow(
      PathLink(path, owner, repo, sha), s.version.GetOr("-"), Reports.ResultMark(s.result),
      Text.IntToString(s.passed), Text.IntToString(s.failed), Reports.TimeCell(s.time))
  }

  datatype GolangCILintRow = GolangCILintRow(path: string, result: string)

  /** `GolangCILintSummaryViewImpl(path, summary).render(owner, repo, sha)` */
  function RenderGolangCILint(path: string, result: Result, owner: string, repo: string, sha: string): (r: GolangCILintRow)
    ensures r.path == PathLink(path, owner, repo, sha)
    ensures r.result == Reports.FailedMark <==> result == Failed
    ensures r.result == Reports.GolangCILintToRecord(Reports.GolangCILintReportImpl(path, result)).result
  {
    GolangCILintRow(PathLink(path, owner, repo, sha), Reports.ResultMark(result))
  }
}

=== FILE: wrappers.dfy ===
/** Optional values and thrown errors, as the TypeScript code uses them. */
module Wrappers {

  /** `T | undefined` */
  datatype Option<+T> = None | Some(value: T) {
    /** `x ?? default` */
    function GetOr(default: T): T {
      if Some? then value else default
    }
  }

  /** The outcome of code that may `throw new Error(message)`. */
  datatype Fallible<+T> = Ok(value: T) | Throws(message: string)

  /** The position of the first element f throws on, |xs| when there is none. */
  function FirstThrowing<T, U>(f: T -> Fallible<U>, xs: seq<T>): (i: nat)
    ensures i <= |xs|
    ensures forall j :: 0 <= j < i ==> f(xs[j]).Ok?
    ensures i < |xs| ==> f(xs[i]).Throws?
  {
    if |xs| == 0 then 0
    else if f(xs[0]).Throws? then 0
    else 1 + FirstThrowing(f, xs[1..])
  }

  /** `xs.map(f)` for an f that may throw: every result in order, or the error of the
      first element f throws on. */
  function MapAll<T, U>(f: T -> Fallible<U>, xs: seq<T>): (r: Fallible<seq<U>>)
    ensures r.Ok? <==> FirstThrowing(f, xs) == |xs|
    ensures r.Ok? ==> |r.value| == |xs| && forall i :: 0 <= i < |xs| ==> f(xs[i]) == Ok(r.value[i])
    ensures r.Throws? ==> r.message == f(xs[FirstThrowing(f, xs)]).message
  {
    if |xs| == 0 then Ok([])
    else
      match f(xs[0])
      case Throws(m) => Throws(m)
      case Ok(y) =>
        var tail := xs[1..];
        assert FirstThrowing(f, xs) == 1 + FirstThrowing(f, tail);
        match MapAll(f, tail)
        case Throws(m) =>
          assert xs[FirstThrowing(f, xs)] == tail[FirstThrowing(f, tail)];
          Throws(m)
        case Ok(ys) =>
          assert forall i :: 1 <= i < |xs| ==> xs[i] == tail[i - 1];
          Ok([y] + ys)
  }
}
